=== FILE: README.md ===
# Ticket client core, modelled in Dafny

This project models the client-side rules of a ticket-sales web front end.
The front end covers theater, cinema and museum events. The model has six parts:

- **The ticket cart.** Ticket types carry a price, a quantity and a seat
  section. An increment is capped at eight per type. `updateQuantity` ignores
  negative values. The cart computes the total, the ticket count and the
  tickets per section, and gates the purchase step.
- **The seat picker.** It appears in three page copies: the theater page,
  the cinema page and the older theater page. Seats are picked as
  `section-row-col` ids, counted per section, toggled and confirmed.
  Occupied seats arrive from the backend numbered from 1 and are held
  numbered from 0.
- **The museum cart.** Each type has a second cap, the museum's available
  tickets, and a purchase sends no seat list.
- **The checkout page.** It appears in two copies. It builds the transaction
  payload: the seat entries, the seats grouped by normalised section, the
  ticket details with category ids, and the charged total. It also formats
  and validates the payment fields and the WhatsApp number: card grouping,
  `MM/AA` expiry, CVV, and the Mexican `521` prefix. It formats the seat
  labels.
- **The purchase summary.** It shows the seat labels, the event title and the
  visit date line.
- **The account validators and the visit calendar.** The validators check the
  CURP-like username, the password and the full name. The calendar classifies
  a date as past, special, weekend or normal.

Each module follows one source file or one shared concept:

| module | file | models |
|---|---|---|
| `Wrappers` | wrappers.dfy | `Option` and `Result` |
| `JsStrings` | jsstrings.dfy | the JavaScript string operations the pages use: `\s`, `toLowerCase`/`toUpperCase` on ASCII and Latin-1 (with `ß` upper-cased to `SS` and `µ` to `Μ`), `replace(/\s+/g, "")`, `replace(/\D/g, "")`, `trim`, `split`, `parseInt` with radix 10 and without a radix (where `0x` selects base 16), number-to-string, `padStart(2, "0")`, and `.length` as a count of UTF-16 code units |
| `Cart` | cart.dfy | the ticket-type operations all pages share |
| `Seats` | seats.dfy | seat maps, the 1-based to 0-based shift, the theater and cinema tables |
| `Picker` | picker.dfy | seat ids, `handleSeatSelection`, `handlePurchase`, `confirmSeatSelection` |
| `Theater`, `Cinema`, `LegacyTheater`, `Museum` | theater.dfy, cinema.dfy, legacy_theater.dfy, museum.dfy | what each page adds to the shared parts |
| `Payment` | payment.dfy | card, expiry, CVV and WhatsApp formatting and validation |
| `Checkout`, `LegacyCheckout` | checkout.dfy, legacy_checkout.dfy | the payload builders of the two checkout pages |
| `Summary` | summary.dfy | the purchase summary helpers |
| `Account` | account.dfy | username, password and name validation |
| `Dates` | dates.dfy | weekend, special date, past date and the date kind |

Inputs the pages take from the environment are parameters of the model:

- the clock: the current year and month, and "now";
- the backend responses, with `None` for a failed request;
- the logged-in user id;
- the navigation state.

JavaScript's `NaN` and `undefined` are `None`. Falsy values (`0`, `""`) are
handled where the code tests them.

A string is a sequence of characters. JavaScript's `.length` and its regular
expressions without the `u` flag work on UTF-16 code units instead. The model
computes the code units from the characters and uses them where the code
counts or matches: a character above U+FFFF is two code units, both
surrogates. A surrogate matches no class that lists characters, such as
`[A-Z]`, and matches every negated class, such as `[^a-zA-Z…]`.

Three behaviours of the code are easy to miss:

- The seat toggle does not check that a row or column lies inside the section's grid.
- `updateQuantity` on the theater pages has no upper clamp. Only the increment button is capped.
- A cinema purchase is sent with `tipo_evento` "Teatro". Only the museum has its own label.

## Model

| member | source | states |
|---|---|---|
| Cart.Total | src/pages/TheatherTickets.jsx:202-207 | `calculateTotal`: with non-negative prices and quantities the total is not negative |
| Cart.TotalConcat | src/pages/TheatherTickets.jsx:202-211 | the total and the ticket count of two carts side by side are the sums of theirs |
| Cart.TicketCount | src/pages/TheatherTickets.jsx:209-211 | `getTotalTickets`: with non-negative quantities the count is not negative, and zero exactly when every quantity is zero |
| Cart.TicketsBySection | src/pages/TheatherTickets.jsx:213-217 | `getTicketsBySection`: never negative, and zero exactly when no type of the section has a positive quantity |
| Cart.Increment | src/pages/TheatherTickets.jsx:120-128 | `handleIncrement`: only the types with the given id change, by exactly one and only while below the cap; every other field and every other type is unchanged |
| Cart.IncrementAt | src/pages/TheatherTickets.jsx:120-128 | on a cart with unique ids, incrementing a type below the cap replaces just that entry, adds one to the ticket count and its price to the total; at the cap nothing changes |
| Cart.IncrementKeepsBounds | src/pages/TheatherTickets.jsx:120-128 | quantities between zero and the cap stay so after an increment |
| Cart.UpdateQuantity | src/pages/TheatherTickets.jsx:192-200 | a negative value leaves the cart unchanged; otherwise exactly the types with the id get the new quantity, with no upper clamp |
| Cart.SetQuantity | src/pages/TheatherTickets.jsx:195-199 | the cart keeps its length; each type with the id takes the new quantity with its other fields kept, and every other type is kept |
| Cart.UpdateQuantityEffect | src/pages/TheatherTickets.jsx:192-200 | a non-negative update of one type replaces that entry and moves the ticket count by the difference |
| Cart.UpdateQuantityKeepsNonNegative | src/pages/TheatherTickets.jsx:192-200 | no update makes a quantity negative |
| Cart.UpdateAtIndex | src/pages/TheatherTickets.jsx:202-211 | changing one quantity moves the total by price times the difference and the ticket count by the difference |
| Cart.TicketsBySectionAtMostCount | src/pages/TheatherTickets.jsx:209-217 | the tickets of one section never exceed the ticket count |
| Cart.TicketsBySectionAbsent | src/pages/TheatherTickets.jsx:213-217 | a section no type belongs to has no tickets |
| Cart.PositiveTypeGivesPositiveSection | src/pages/TheatherTickets.jsx:213-217 | a type with a positive quantity gives its section a positive ticket count |
| Cart.Selected | src/pages/TheatherTickets.jsx:220 | the filter keeps no more types than the cart has, each with a positive quantity |
| Cart.SelectedExactly | src/pages/TheatherTickets.jsx:220 | a type is kept by the filter exactly when it is in the cart with a positive quantity |
| Cart.SelectedKeepsTotals | src/pages/TheatherTickets.jsx:294-300 | the types handed over after the filter have the same total and ticket count as the whole cart |
| Cart.SelectedSections | src/pages/TheatherTickets.jsx:227 | the section set holds exactly the sections of the types with a positive quantity |
| Cart.OpenPicker | src/pages/TheatherTickets.jsx:219-230 | refused exactly when no quantity is positive; otherwise the non-empty set of selected sections, each with a positive ticket count |
| Seats.WireRoundTrip | src/pages/TheatherTickets.jsx:155-162 | shifting a fetched seat to 0-based and back gives the fetched seat, and the other way round |
| Seats.OccupiedFromWire | src/pages/TheatherTickets.jsx:155-162 | every fetched occupied seat is shifted by one in both coordinates, in order |
| Seats.OccupiedFromWireIff | src/pages/TheatherTickets.jsx:155-162 | a 0-based seat is occupied exactly when the seat one row and one column further is in the fetched list |
| Seats.TheaterTable | src/pages/TheatherTickets.jsx:45-118 | the theater table has exactly the keys general, platea, palco and balcon |
| Seats.TheaterTableWellFormed | src/pages/TheatherTickets.jsx:45-118 | every occupied seat of the theater table lies inside its section's grid |
| Seats.CinemaRooms | src/pages/CinemaTickets.jsx:27-92 | the cinema table has exactly the nine room keys, and no room has an occupied seat |
| Picker.SeatId | src/pages/TheatherTickets.jsx:247 | an id starts with the section and a dash, and after the section holds only dashes and digits |
| Picker.Count | src/pages/TheatherTickets.jsx:249-251 | a section's count never exceeds the number of picks, and is zero exactly when no pick counts for the section |
| Picker.Remove | src/pages/TheatherTickets.jsx:263-269 | un-picking keeps every other pick and drops the id |
| Picker.CountRemove | src/pages/TheatherTickets.jsx:249-251 | removing one pick from a duplicate-free list lowers a section's count by one exactly when the pick counted for it |
| Picker.Toggle | src/pages/TheatherTickets.jsx:232-271 | an unknown section is refused before an occupied seat, and an occupied seat before capacity; a picked seat is removed; a new seat is appended only while the section's count is below its tickets |
| Picker.PickAllowed | src/pages/TheatherTickets.jsx:256-269 | a free, unpicked seat of a section below its ticket count is appended |
| Picker.ToggleTwiceRestores | src/pages/TheatherTickets.jsx:263-269 | picking a seat and pressing it again restores the picks |
| Picker.RemovalAlwaysAllowed | src/pages/TheatherTickets.jsx:254-269 | a picked free seat can always be un-picked, whatever the count |
| Picker.ZeroTicketsAcceptNothing | src/pages/TheatherTickets.jsx:254-261 | a section without tickets accepts no new seat |
| Picker.OccupiedBeforeCapacity | src/pages/TheatherTickets.jsx:239-261 | an occupied seat is reported as occupied even when the section is also full |
| Picker.ToggleKeepsCapacity | src/pages/TheatherTickets.jsx:232-271 | when no section key is a prefix of another, every accepted toggle keeps each section's picks at or below its tickets |
| Picker.Open | src/pages/TheatherTickets.jsx:219-230 | opening is refused exactly when no quantity is positive; otherwise the picker opens on the selected sections with the picks unchanged |
| Picker.Confirm | src/pages/TheatherTickets.jsx:274-313 | confirmed exactly when every opened section has as many picks as tickets; then the picks are handed over with exactly the cart's types of positive quantity, whose total and count are the cart's, and the picker is cleared; otherwise the deficient sections are named and nothing changes |
| Picker.Cancel | src/pages/TheatherTickets.jsx:310-312 | the picker is closed with no picks and no sections |
| Picker.PrefixCountBlocksConfirm | src/pages/TheatherTickets.jsx:249-251 | with sections `vip` and `vipplus`, a `vipplus` pick counts for `vip` as well: the `vip` seat is refused, and one seat confirms two tickets |
| Picker.SectionCountConfirmsExactly | src/pages/TheatherTickets.jsx:274-291 | counting only ids of the form `section-…` lets both seats be picked, and refuses to confirm until both are |
| Picker.TheaterTableSeparable | src/pages/TheatherTickets.jsx:45-118 | no key of the theater table is a prefix of another |
| Theater.InitialTypes | src/pages/TheatherTickets.jsx:13-36 | five types with unique ids, all at quantity zero |
| Theater.SeatsFromFetch | src/pages/TheatherTickets.jsx:130-183 | the stored map: a failed or empty fetch falls back to the theater table; otherwise every fetched key is kept with its name, price and grid, and its occupied seats are shifted to 0-based |
| Theater.ModalView | src/pages/TheatherTickets.jsx:130-190 | without an event id nothing is fetched and the drawn map is empty; a failed fetch shows the error box instead of any seat; otherwise the stored map is drawn, which is the theater table after an empty payload |
| Theater.NoEventRefusesEveryPick | src/pages/TheatherTickets.jsx:186-190 | without an event id every pick is refused as unavailable |
| Theater.FallbackHasNoBalconySides | src/pages/TheatherTickets.jsx:233-261 | on the theater table drawn after an empty payload, picks in the two balcony sections of the ticket types are refused as unavailable, and the table's own `balcon` key accepts no new pick |
| Theater.BalconyTicketBlocksConfirm | src/pages/TheatherTickets.jsx:274-291 | a purchase with a balcony-side ticket and no balcony pick cannot be confirmed |
| Theater.TheaterPickerKeepsCapacity | src/pages/TheatherTickets.jsx:232-271 | on the theater table, or on a fetched map with prefix-free keys, accepted toggles keep every section within its tickets |
| Cinema.RoomType | src/pages/CinemaTickets.jsx:94-105 | the room type is the section name in lower case without whitespace, and empty when the name is missing or empty |
| Cinema.ScreenXKey | src/pages/CinemaTickets.jsx:94-105 | the name "Screen X" gives the key `screenx` of the room table |
| Cinema.DefaultPrice | src/pages/CinemaTickets.jsx:223-237 | a known room's table price, and 100 for any other key |
| Cinema.Capitalize | src/pages/CinemaTickets.jsx:184 | the first character upper-cased, the rest unchanged; a leading `ß` becomes `SS` |
| Cinema.NormalizeCapitalized | src/pages/CinemaTickets.jsx:181-196 | the fallback type named after the room normalises back to the room's key, except that a leading `µ` comes back as `μ` and a leading `ß` as `ss` |
| Cinema.FallbackType | src/pages/CinemaTickets.jsx:181-196 | when no category matches, the fallback type has id 1, the room's key capitalised as its name, the room's default price and quantity zero; its section is the room's key, with a leading `µ` turned into `μ` and a leading `ß` into `ss` |
| Cinema.MicroRoomFallbackMisses | src/pages/CinemaTickets.jsx:181-196 | when no category matches the room key `µx`, the fallback type's section is `μx`, which is not the room's key and not a key of the room's mock seats |
| Cinema.SharpCapitalized | src/pages/CinemaTickets.jsx:181-196 | a room key starting with `ß` is named with `SS` and normalises to `ss` followed by the rest of the key |
| Cinema.SharpRoomFallbackMisses | src/pages/CinemaTickets.jsx:181-196 | when no category matches the room key `ßx`, the fallback type's section is `ssx`, which is not the room's key and not a key of the room's mock seats |
| Cinema.FailedRequestJoinsMock | src/pages/CinemaTickets.jsx:201-215 | after a failed categories request the one type's section is the room key itself, a key of the room's mock seats |
| Cinema.Matching | src/pages/CinemaTickets.jsx:160-168 | the kept categories are exactly those whose normalised name is the room type |
| Cinema.InitialTypes | src/pages/CinemaTickets.jsx:107-220 | no room gives the single Tradicional type; otherwise the matching categories as types of the room, or the fallback category made into a type when none match; a failed request gives one type with id 1, the capitalised room key, the default price and the room key itself as its section; every type starts at zero, and every type's section is the room's key unless no category matched and the key starts with `µ` or `ß` |
| Cinema.SectionKey | src/pages/CinemaTickets.jsx:268-271 | the normalised section name, or `section` and the index when that is empty |
| Cinema.SectionOf | src/pages/CinemaTickets.jsx:274-299 | the section keeps the fetched name; a missing or zero price is 100, missing or zero rows are 10 and missing or zero columns are 6, and any other value is kept; a seat is occupied exactly when the seat one row and one column further is in the fetched list |
| Cinema.AssignLastWins | src/pages/CinemaTickets.jsx:265-305 | with repeated keys, the last entry with a key is the one kept |
| Cinema.Transform | src/pages/CinemaTickets.jsx:265-305 | the map's keys are exactly the entries' keys, and each key that is not repeated later holds its entry's section |
| Cinema.MockSeats | src/pages/CinemaTickets.jsx:255-262 | the fallback map has the room type as its only key, holding the room's mock, or the tradicional room for an unknown type, with no occupied seat |
| Cinema.SeatsFromFetch | src/pages/CinemaTickets.jsx:244-320 | the stored map: a failure, an empty payload or a nameless entry gives the fallback map; a non-empty array is transformed; a non-empty non-array object gives an empty map |
| Cinema.CategoryJoinsSection | src/pages/CinemaTickets.jsx:160-199 | a type made from a category finds the seat section whose name normalises to the same key |
| Cinema.ModalView | src/pages/CinemaTickets.jsx:244-326 | without an event id nothing is fetched and the drawn map is empty; a failed request or a nameless entry shows the error box instead of any seat; otherwise the stored map is drawn, which is the room's mock after an empty payload |
| Cinema.MockPickerKeepsCapacity | src/pages/CinemaTickets.jsx:379-418 | on the room's mock, drawn after an empty payload, accepted toggles keep the room within its tickets |
| Cinema.MockAcceptsFirstPick | src/pages/CinemaTickets.jsx:379-418 | on the room's mock, drawn after an empty payload, a room with tickets accepts its first seat |
| LegacyTheater.InitialTypes | ticket-ui/src/pages/TheatherTickets.jsx:12-17 | four types, one per key of the theater table, all at zero |
| LegacyTheater.Plus | ticket-ui/src/pages/TheatherTickets.jsx:425 | "+" adds exactly one to the type and to the ticket count |
| LegacyTheater.Minus | ticket-ui/src/pages/TheatherTickets.jsx:413 | "−" at zero changes nothing; above zero it removes exactly one; no quantity goes below zero |
| LegacyTheater.MinusEffect | ticket-ui/src/pages/TheatherTickets.jsx:99-107 | `updateQuantity(id, q - 1)` is ignored at zero and lowers the ticket count by one otherwise |
| LegacyTheater.PlusUnbounded | ticket-ui/src/pages/TheatherTickets.jsx:99-107 | "+" goes past eight tickets |
| LegacyTheater.SelectSeat | ticket-ui/src/pages/TheatherTickets.jsx:139-173 | on the fixed table a seat is refused as occupied exactly when it is occupied; a new pick needs the section's count below its tickets |
| LegacyTheater.BalconyPanelsShareSeats | ticket-ui/src/pages/TheatherTickets.jsx:139-173 | a balcony seat picked in one panel is un-picked by the same seat in the other |
| LegacyTheater.SelectSeatKeepsCapacity | ticket-ui/src/pages/TheatherTickets.jsx:139-173 | accepted picks keep every section within its tickets |
| LegacyTheater.FixedTotals | ticket-ui/src/pages/TheatherTickets.jsx:109-124 | the total is 3000, 2800, 2500 and 1500 times the quantities of platea, palco, balcon and general |
| Museum.Load | src/pages/MuseumTickets.jsx:22-117 | without a museum id or on a failed request one General type at 200 with 50 available; otherwise the museum's price and spaces, each defaulting when missing or zero |
| Museum.Increment | src/pages/MuseumTickets.jsx:119-129 | a type goes up by one only while below both eight and the available tickets |
| Museum.UpdateQuantity | src/pages/MuseumTickets.jsx:131-139 | a negative value or one above the available tickets changes nothing; otherwise exactly the types with the id get it |
| Museum.OperationsKeepBounds | src/pages/MuseumTickets.jsx:119-139 | both operations keep every quantity between zero and the available tickets |
| Museum.LoadInBounds | src/pages/MuseumTickets.jsx:22-117 | every load starts in bounds |
| Museum.Purchase | src/pages/MuseumTickets.jsx:152-169 | refused exactly when no quantity is positive; otherwise only the positive types are handed over, with the cart's total and ticket count and no seats |
| Museum.SingleTypeTotals | src/pages/MuseumTickets.jsx:141-150 | the single General type's total is price times quantity |
| Payment.CardDigits | src/pages/ConfirmPurchase.jsx:195 | the digits of the card field |
| Payment.Group4 | src/pages/ConfirmPurchase.jsx:198-205 | the blocks of four add one space per full block before the last, and no digits give the empty text |
| Payment.Group4Shape | src/pages/ConfirmPurchase.jsx:198-209 | a space sits exactly at every fifth position, and every other position holds the digits in order |
| Payment.FormatCardNumber | src/pages/ConfirmPurchase.jsx:194-210 | fewer than four digits leave the field as typed; otherwise the first sixteen digits at most, in blocks of four separated by single spaces |
| Payment.RemoveSpacesGroup4 | src/pages/ConfirmPurchase.jsx:198-209 | removing the spaces of the grouped number gives back its digits |
| Payment.FormatCardNumberIdempotent | src/pages/ConfirmPurchase.jsx:194-210 | formatting a formatted number changes nothing |
| Payment.ValidateCardNumber | src/pages/ConfirmPurchase.jsx:219-231 | accepted exactly when sixteen digits remain after removing whitespace; "required" exactly when the field is blank |
| Payment.FormattedNumberAcceptedIff | src/pages/ConfirmPurchase.jsx:194-231 | a typed number is accepted after formatting exactly when it has at least sixteen digits |
| Payment.ShortNumberRefused | src/tests/ConfirmPurchase.test.js:113-132 | typing "123" leaves "123", which is refused for not having sixteen digits |
| Payment.ValidateHolder | src/pages/ConfirmPurchase.jsx:233-240 | accepted exactly when not empty and made of letters, accented letters and whitespace |
| Payment.FormatExpiry | src/pages/ConfirmPurchase.jsx:212-217 | at most four digits are kept, with a slash after the second when there are more than two |
| Payment.FormatExpiryIdempotent | src/pages/ConfirmPurchase.jsx:212-217 | formatting a formatted expiry changes nothing |
| Payment.CheckExpiry | src/pages/ConfirmPurchase.jsx:248-269 | a bad format exactly when the month is not two UTF-16 code units long or the year is missing or not two code units long; a bad month only for a parsed month outside 1..12; expired only for a year up to the current one |
| Payment.ValidateExpiry | src/pages/ConfirmPurchase.jsx:242-270 | "required" exactly when empty; a bad format exactly when the parts around the slash are not two code units each |
| Payment.NonNumericExpiryPasses | src/pages/ConfirmPurchase.jsx:253-269 | two letters on each side of the slash pass, because every comparison with `NaN` is false |
| Payment.AstralMonthPasses | src/pages/ConfirmPurchase.jsx:248-269 | a month of one character above U+FFFF is two code units long and parses as `NaN`, so it passes with a two-letter year |
| Payment.ShortDigitsBadFormat | src/pages/ConfirmPurchase.jsx:248-251 | one or two digits are a bad format |
| Payment.DigitsExpiry | src/pages/ConfirmPurchase.jsx:248-269 | digits `MM/YY` pass exactly when the year has two digits, the month is 1..12 and the date is not before the current month |
| Payment.FormattedExpiryAcceptedIff | src/pages/ConfirmPurchase.jsx:212-270 | a typed expiry passes after formatting exactly when four digits were typed, the month is 1..12 and the date is not before the current month |
| Payment.CvvInput | src/pages/ConfirmPurchase.jsx:293-296 | the CVV field keeps the first four digits typed, or all of them when fewer |
| Payment.ValidateCvv | src/pages/ConfirmPurchase.jsx:272-281 | accepted exactly when three or four digits; "required" exactly when empty |
| Payment.TypedCvvAcceptedIff | src/pages/ConfirmPurchase.jsx:272-296 | a typed CVV passes exactly when at least three digits were typed |
| Payment.FormValid | src/pages/ConfirmPurchase.jsx:332-344 | `validateForm`: the form passes exactly when none of the four fields has an error, and then the number has sixteen digits, the holder is not empty and the CVV has three or four digits |
| Payment.TypedFormValidIff | src/pages/ConfirmPurchase.jsx:194-344 | a form filled by typing passes exactly when at least sixteen card digits, a holder of letters and whitespace, four expiry digits giving a month 1..12 not before the current month, and at least three CVV digits were typed |
| Payment.ValidateWhatsApp | src/pages/ConfirmPurchase.jsx:644-655 | accepted exactly when at least ten digits and only digits, whitespace and `+ - ( )`; "required" exactly when blank |
| Payment.FormatWhatsApp | src/pages/ConfirmPurchase.jsx:657-681 | ten digits not starting with 1 get the `521` prefix; twelve digits starting `52` but not `521` have `52` replaced by `521`; anything else is the bare digits |
| Payment.FormatWhatsAppIdempotent | src/pages/ConfirmPurchase.jsx:657-681 | rewriting a rewritten number changes nothing |
| Payment.RewrittenNumberShape | src/pages/ConfirmPurchase.jsx:666-678 | a rewritten number is `521` and the last ten digits typed |
| Payment.LocalDigitsTyped | src/pages/ConfirmPurchase.jsx:666-678 | a local number and the same number after `52` both become `521` and the number |
| Payment.LocalNumberExample | src/pages/ConfirmPurchase.jsx:661-670 | 3325906198 becomes 5213325906198 |
| Checkout.ParsePiece | src/pages/ConfirmPurchase.jsx:487-488 | a missing piece is `NaN`; a present piece is read by `parseInt` without a radix, and a piece of decimal digits is its value |
| Checkout.DecodeSeat | src/pages/ConfirmPurchase.jsx:484-488 | the section never holds a dash, and an id without a dash is a section without row or column |
| Checkout.HexRowDecoded | src/pages/ConfirmPurchase.jsx:484-488 | `platea-0x1-0` is sent as row 2 and column 1, because a `0x` piece is read in base 16 |
| Checkout.DecodeSeatId | src/pages/ConfirmPurchase.jsx:483-494 | the id the picker builds decodes to its section and the 1-based row and column |
| Checkout.WireCoordinatesReturn | src/pages/ConfirmPurchase.jsx:483-494 | a fetched seat, held 0-based and picked, is sent with the fetched coordinates |
| Checkout.Asientos | src/pages/ConfirmPurchase.jsx:477-496 | no seat list gives no entries; otherwise one decoded entry per seat, in order |
| Checkout.FirstOccurrences | src/pages/ConfirmPurchase.jsx:513-523 | the group keys have no duplicate, and hold exactly the keys that occur |
| Checkout.GroupSeatsSpec | src/pages/ConfirmPurchase.jsx:498-527 | one group per key in order of first occurrence, each holding exactly the seats with that key, in order |
| Checkout.GroupSizesSum | src/pages/ConfirmPurchase.jsx:498-527 | the groups hold as many seats as were grouped |
| Checkout.SeccionesInfo | src/pages/ConfirmPurchase.jsx:498-527 | seats grouped by the normalised section, in order of first occurrence; no seat lost; every key is already normalised |
| Checkout.SeatInOneGroup | src/pages/ConfirmPurchase.jsx:498-527 | every seat's normalised section has exactly one group |
| Checkout.CategoryIdBySection | src/pages/ConfirmPurchase.jsx:554-563 | the table's id for a known section, and 1 (General) for any other |
| Checkout.CategoryId | src/pages/ConfirmPurchase.jsx:540-552 | museum 1, cinema the type's id, otherwise the section's category |
| Checkout.TheaterTypesCategorised | src/pages/ConfirmPurchase.jsx:554-563 | every theater ticket type's section is in the category table, giving 4, 3, 2, 2 and 1 in the page's order |
| Checkout.TicketDetails | src/pages/ConfirmPurchase.jsx:529-538 | one detail per positive type, with its category, quantity, unit price and subtotal |
| Checkout.TicketDetailsAddUp | src/pages/ConfirmPurchase.jsx:529-538 | the subtotals add up to the cart's total and the quantities to its ticket count |
| Checkout.CalculatedTotal | src/pages/ConfirmPurchase.jsx:41-48 | a passed non-zero total is used; otherwise the cart's total, or 0 without a cart; when the total passed is the cart's own total, or none is passed, the charge is the cart's total |
| Checkout.RowLetter | src/pages/ConfirmPurchase.jsx:34 | rows 0..25 are the letters A..Z; a row that does not parse, such as `0x`, is U+0000 |
| Checkout.NumberText | src/pages/ConfirmPurchase.jsx:35-37 | a number prints as its decimal digits and `NaN` as "NaN" |
| Checkout.DisplayName | src/pages/ConfirmPurchase.jsx:33 | the table's name for a known section, and the key itself for an unknown one |
| Checkout.SeatDisplay | src/pages/ConfirmPurchase.jsx:21-37 | a seat label starts with the section's display name and a space |
| Checkout.SeatDisplayOfSeatId | src/pages/ConfirmPurchase.jsx:19-38 | a picked seat reads as the section's name, a space, the row's letter and the 1-based column |
| Checkout.FormatSeatDisplay | src/pages/ConfirmPurchase.jsx:19-38 | the empty id shows as nothing; any other id as its label |
| Checkout.Submit | src/pages/ConfirmPurchase.jsx:346-640 | the WhatsApp number is checked first, then the card form (not for PayPal), then the user; a museum sends no seats and "Museo", other events their seat entries, groups and "Teatro"; the payment method, total, details and formatted number are those of the page; the summary shows "Credit Card", "Debit Card" or "PayPal" for the method used |
| Checkout.WhatsAppLength | src/pages/ConfirmPurchase.jsx:644-681 | an accepted WhatsApp number is sent with at least ten digits |
| Checkout.MuseumIgnoresSeats | src/pages/ConfirmPurchase.jsx:371-387 | a museum purchase does not depend on the seat list |
| LegacyCheckout.TicketCategoryId | ticket-ui/src/pages/ConfirmPurchase.jsx:308-340 | the first seat's section through the category table; 1 with no seats or an unknown key |
| LegacyCheckout.BalconFiledAsGeneral | ticket-ui/src/pages/ConfirmPurchase.jsx:308-340 | a purchase whose first seat is on this tree's `balcon` is filed as General |
| LegacyCheckout.PagesAgreeOnCategory | ticket-ui/src/pages/ConfirmPurchase.jsx:308-340 | for a theater purchase whose first seat is on the type's section, both checkout copies file the same category id |
| LegacyCheckout.UnitPrice | ticket-ui/src/pages/ConfirmPurchase.jsx:341-347 | 0 with no tickets; otherwise the price that times the ticket count gives the total |
| LegacyCheckout.LegacyAsientos | ticket-ui/src/pages/ConfirmPurchase.jsx:349-372 | one entry per seat with the section's display name and the 1-based coordinates, read by `parseInt` without a radix |
| LegacyCheckout.LegacyAsientoOfSeatId | ticket-ui/src/pages/ConfirmPurchase.jsx:349-372 | both balcony sides are sent as "Balcon" |
| LegacyCheckout.LegacySeccionesInfo | ticket-ui/src/pages/ConfirmPurchase.jsx:374-400 | seats grouped by the raw section key, in order of first occurrence, none lost |
| LegacyCheckout.RawGroupingAgrees | ticket-ui/src/pages/ConfirmPurchase.jsx:374-400 | when every section is already a normalised key the two checkout pages group alike |
| LegacyCheckout.LegacyFormatSeatDisplay | ticket-ui/src/pages/ConfirmPurchase.jsx:15-27 | the empty id shows as nothing; any other id as its label |
| LegacyCheckout.BalconDisplayed | ticket-ui/src/pages/ConfirmPurchase.jsx:15-27 | a `balcon` seat reads "Balcón", its row letter and column |
| Summary.SummarySeatDisplay | ticket-ui/src/pages/PurchaseSummary.jsx:76-87 | a label starts with the section's display name and a space; the empty id's label starts with the space |
| Summary.SummaryLabel | ticket-ui/src/pages/PurchaseSummary.jsx:76-87 | a picked seat reads as the section's name, its row letter and 1-based column |
| Summary.UnknownSectionShownAsKey | ticket-ui/src/pages/PurchaseSummary.jsx:76-87 | an unknown section is shown by its key |
| Summary.FirstPlateaSeat | ticket-ui/src/pages/PurchaseSummary.jsx:76-87 | `platea-0-0` reads "Platea A1" |
| Summary.EmptyIdLabel | ticket-ui/src/pages/PurchaseSummary.jsx:76-87 | with no guard, the empty id reads as a space, U+0000 and "NaN" |
| Summary.EventTitle | ticket-ui/src/pages/PurchaseSummary.jsx:52-59 | the first non-empty of the event name, the title and the place, else "Evento" |
| Summary.FirstUsable | ticket-ui/src/pages/PurchaseSummary.jsx:52-59 | the first present, non-empty value of a list, or the fallback when there is none |
| Summary.EventTitleIsFirstUsable | ticket-ui/src/pages/PurchaseSummary.jsx:52-59 | the event title is the first usable of the event name, the title and the place, else "Evento" |
| Summary.GetVisitDate | ticket-ui/src/pages/PurchaseSummary.jsx:20-44 | a museum shows the purchase day; an event its start when present, else its date, else "Fecha por confirmar" |
| Summary.VisitDateIsFirstUsable | ticket-ui/src/pages/PurchaseSummary.jsx:20-44 | an event with a start shows it; otherwise the first usable of its date, else "Fecha por confirmar"; a museum's line does not depend on the event fields |
| Account.Has | src/utils/validation.js:130-133 | a class test holds exactly when some character is in the class |
| Account.HasOnUnits | src/utils/validation.js:130-133 | a class test on the characters agrees with the test on the UTF-16 code units, where a surrogate is in no listed class |
| Account.HasDoubleSpace | src/utils/validation.js:201 | holds exactly when two whitespace characters are adjacent |
| Account.ValidateUsername | src/utils/validation.js:38-117 | a space is reported first, then a special first character, then a length other than 19 UTF-16 code units, with that length; a username of 19 code units with a character that `toUpperCase` changes gets the upper-case error; the username is valid exactly when it has the seven-segment format with a listed state code |
| Account.UsernameSegments | src/utils/validation.js:75-114 | on nineteen code units, the seven segment checks pass exactly when the units have the format |
| Account.UnitShapeIff | src/utils/validation.js:75-114 | without characters above U+FFFF, the format on the code units is the format on the characters with a listed state code |
| Account.SharpSStartNotUpper | src/utils/validation.js:57-60 | a 19-character username without spaces that starts with `ß` gets the upper-case error, because `toUpperCase` turns `ß` into `SS` |
| Account.MicroStartNotUpper | src/utils/validation.js:57-60 | a 19-character username without spaces that starts with `µ` gets the upper-case error, because `toUpperCase` turns `µ` into `Μ` |
| Account.ShapeFromUnits | src/utils/validation.js:50-114 | nineteen code units with the format are nineteen characters with the format: a surrogate is no letter or digit |
| Account.ShapePassesEarlyChecks | src/utils/validation.js:39-73 | a username of capitals and digits, with a capital first and a digit last, passes every check before the segments |
| Account.ValidUsernameBasics | src/utils/validation.js:38-73 | a valid username has nineteen characters, equals its upper case, has no whitespace, starts with a capital and ends with a digit |
| Account.SpaceReportedFirst | src/utils/validation.js:39-55 | a username with a space is refused for the space, whatever its length |
| Account.SampleUsernameValid | src/tests/Login.test.js:37 | "LOFC010320HJCMLSJO9" is valid |
| Account.ValidatePassword | src/utils/validation.js:120-165 | valid exactly when eight UTF-16 code units long with a capital, a small letter, a digit and one of `@#$%&!¡¿?`; the length is reported first |
| Account.SamplePasswordValid | src/tests/Login.test.js:38 | "Abc123$%" is valid |
| Account.AstralPasswordValid | src/utils/validation.js:120-165 | "Abc1$%😀" has seven characters and eight code units, and is valid |
| Account.ValidateName | src/utils/validation.js:168-210 | "required" exactly when blank; "too short" exactly when not blank and under two code units; valid exactly when at least two characters, no digit, only letters, accented letters, whitespace and apostrophes, some whitespace, none at either end and none doubled |
| Account.BlankIffTrimEmpty | src/utils/validation.js:170 | a name is blank exactly when it is empty or trims to nothing |
| Account.UntrimmedIffTrimChanges | src/utils/validation.js:201 | a name has whitespace at an end exactly when trimming changes it |
| Account.AstralNameHasSymbol | src/utils/validation.js:175-190 | one character above U+FFFF is two code units long, so it is refused for a special character and not for its length |
| Account.SingleWordRefused | src/utils/validation.js:195-198 | a single word of letters is refused for lacking a surname |
| Account.UsuarioHasNoSurname | src/tests/Login.test.js:92-107 | "Usuario" is refused for lacking a surname |
| JsStrings.NormalizeKey | src/pages/ConfirmPurchase.jsx:505 | `toLowerCase().replace(/\s+/g, "")`: no longer than the input, without whitespace and without a capital letter |
| JsStrings.UpperText | src/pages/CinemaTickets.jsx:184 | one character's `toUpperCase`: `SS` for `ß`, otherwise one character; it is the character itself exactly when the character has no different upper case |
| JsStrings.ToUpper | src/utils/validation.js:58 | `toUpperCase` is never shorter than the input, and without `ß` it maps each character in place |
| JsStrings.UpperFixedIff | src/utils/validation.js:58 | a string equals its upper case exactly when none of its characters has a different upper case |
| JsStrings.LowerOfUpper | src/pages/CinemaTickets.jsx:184-196 | lower-casing a letter upper-cased to one character gives it back, except `µ`, which comes back as `μ` |
| JsStrings.NormalizeKeyIdempotent | src/pages/CinemaTickets.jsx:196 | normalising a normalised key changes nothing, so keys built on one page match keys normalised again on another |
| JsStrings.ParseIntAuto | src/pages/ConfirmPurchase.jsx:34-35 | `parseInt` without a radix: after the whitespace and the sign a `0x` or `0X` reads hex digits, `NaN` when there are none, and a `-` sign negates their value; any other text is read in base 10 |
| JsStrings.ParseAutoNatToString | src/pages/ConfirmPurchase.jsx:484-488 | the decimal text of a natural number parses back to it |
| JsStrings.HexOne | src/pages/ConfirmPurchase.jsx:34 | `parseInt("0x1")` is 1 |
| JsStrings.HexMinusOne | src/pages/ConfirmPurchase.jsx:34 | `parseInt("-0x1")` is -1 |
| JsStrings.CharUnits | src/utils/validation.js:50 | a character up to U+FFFF is one code unit that is not a surrogate; above, a high and a low surrogate from which the character is recovered |
| JsStrings.JsLength | src/utils/validation.js:50 | `.length` lies between the character count and twice it, and equals the count exactly when no character is above U+FFFF |
| JsStrings.LengthCountsUnits | src/utils/validation.js:50 | `.length` is the number of UTF-16 code units |
| JsStrings.SurrogateIffAstral | src/utils/validation.js:50-114 | the code units hold no surrogate exactly when no character is above U+FFFF |
| Dates.DateKey | ticket-ui/src/utils/dateValidation.js:31-34 | from year 0 on, the text splits at the dashes into the year and the padded month and day |
| Dates.DateKeyReadBack | ticket-ui/src/utils/dateValidation.js:31-34 | the year, month and day read back from the text |
| Dates.DateKeyInjective | ticket-ui/src/utils/dateValidation.js:27-39 | two days with the same text are the same calendar day |
| Dates.IsSpecialDate | ticket-ui/src/utils/dateValidation.js:27-39 | special exactly when the day's text is a listed date or a custom one |
| Dates.SpecialMonotone | ticket-ui/src/utils/dateValidation.js:28 | adding custom dates never takes a special day away |
| Dates.ChristmasIsSpecial | ticket-ui/src/utils/dateValidation.js:1-9 | 25 December 2025 is special |
| Dates.IsPastDate | ticket-ui/src/utils/dateValidation.js:56-62 | past exactly when the day comes before today's |
| Dates.PastIgnoresTimeOfDay | ticket-ui/src/utils/dateValidation.js:56-62 | the time of day of either moment does not matter |
| Dates.IsToday | ticket-ui/src/utils/dateValidation.js:46-49 | today exactly when neither day comes before the other, and then not past |
| Dates.ValidateDate | ticket-ui/src/utils/dateValidation.js:70-115 | an invalid date is an error; otherwise the four flags, and the kind past, special, weekend or normal by that priority |
| Dates.TodayNeverPast | ticket-ui/src/utils/dateValidation.js:86-98 | today is never past, and a special today is shown as special |

## Left out

- Rendering, modals, alerts, console logs and navigation. Each appears only as its outcome: refused or accepted, and the state that results.
- The HTTP requests. A response is a parameter, and `None` stands for a failed request.
- `localStorage` is left out. The user is a parameter.
- The clock and the locale. The current year and month and "now" are parameters. Locale date formatting (`toLocaleDateString`) is not modelled: `Summary.GetVisitDate` returns which date is shown, not its text.
- `Dates.ValidateDate`: a date is given as an already parsed calendar day. Parsing a date string with `new Date(string)` is not modelled. An invalid date is `None`, and throwing is modelled as an error result.
- `Dates.ValidateDate`: the messages, `dayName` and `formattedDate` of the result are left out. They are fixed texts and locale formatting.
- Prices are integers, because every price in the code is integral. `parseFloat` and `toFixed` are not modelled. The average unit price is a real.
- `toLowerCase`/`toUpperCase` cover the ASCII and Latin-1 letters, `ÿ`↔`Ÿ`, `ß`→`SS`, the micro sign `µ` (upper case `Μ`, U+039C) and the Greek `μ`↔`Μ` pair. Every other letter is left unchanged although JavaScript maps it: the Latin Extended letters such as `ā`, the rest of Greek, Cyrillic, and letters above U+FFFF.
- Account.ValidateUsername: the upper-case error is stated for the letters above only. A username with another lower-case letter, such as `ā`, gets a later error in the model instead. It is refused either way, because the format admits only A-Z and digits.
- Cinema.NormalizeCapitalized: when no category matches, the fallback type's section equals the room's key only when the key does not start with `µ` or `ß`. A failed categories request is not affected: its type keeps the room's key as the section. JavaScript upper-cases `µ` to `Μ`, which lower-cases to `μ`, and `ß` to `SS`, which lower-cases to `ss`, so no round trip holds there. The model states what those cases give instead.
- The cinema layout draws only the section under the first key of the map, and which key is first depends on key order. The model treats every key of a drawn map as pickable.
- Loading states are not modelled: `ModalView` is what the seat modal shows once loading has ended.
- JavaScript object key order is not modelled. Integer-like keys come first, and inherited keys such as `constructor` exist. Section keys are modelled as a map.
- A category's `id_categoria || id` is modelled as one given id.
- `getRoomTypeFromEvent` throwing when `originalData` is missing is not modelled. The room type is derived from an optional section name.
- The `subseccion` field and the price strings of the seat payload are not modelled.
- `Checkout.RowLetter`: a UTF-16 surrogate code unit, which a string would hold alone, is shown as U+FFFD. Only rows 0..25 and `NaN` are stated.
- `Payment.LocalNumberExample`: only the ten-digit example is stated as a literal. The twelve-digit form `52…` is covered for every local number by `Payment.LocalDigitsTyped`.
- The `eventData` and `evento_id` passthrough fields of the transaction are left out. They are copied unchanged.
- `isToday` compares `toDateString()` texts. The model compares the calendar days, which is the same on the same clock.
- `Account.ValidateName`: a missing (`undefined`) name is not modelled. The empty string, the other falsy input, is.

## Findings

| source | as written | input that shows it | evidently intended | confidence | as-written member | corrected member |
|---|---|---|---|---|---|---|
| src/pages/TheatherTickets.jsx:249-251 | a section's picks are the ids that start with the section key, so a pick in `vipplus` also counts for `vip` | sections `vip` and `vipplus` with one ticket each: after picking `vipplus-0-0`, the `vip` seat is refused as full, and confirming with that one seat succeeds | count only ids that start with the key followed by `-` | not executed; the shipped seat tables have no key that is a prefix of another, so only maps fetched from the backend can show it | Picker.PrefixCountBlocksConfirm | Picker.SectionCountConfirmsExactly |

=== FILE: account.dfy ===
/** The account field validators of the login and registration forms: a
    CURP-like username, a password built from four character classes, and a
    full name. Every validator runs its checks in a fixed order and reports
    the first one that fails; `None` means the field is valid. */
module Account {
  import opened Wrappers
  import opened JsStrings

  // ---------------------------------------------------------------------------
  // Character classes and searches
  // ---------------------------------------------------------------------------

  /** The character classes the validators' regular expressions test for. */
  datatype CharClass =
    | Upper          // [A-Z]
    | Lower          // [a-z]
    | Digit          // \d, [0-9]
    | PasswordMark   // [@#$%&!¡¿?]
    | Space          // \s
    | UsernameMark   // the special characters a username may not start with
    | Foreign        // [^a-zA-ZáéíóúÁÉÍÓÚñÑüÜ\s']

  /** The letters a name may hold besides ASCII ones. */
  const NameAccents: string := "áéíóúÁÉÍÓÚñÑüÜ"

  /** The special characters a password must hold one of. */
  const PasswordMarks: string := "@#$%&!¡¿?"

  /** The special characters a username may not start with. */
  const UsernameMarks: string := "!@#$%^&*()_+-=[]{};':\"\\|,.<>/?"

  /** A character a name may hold. */
  predicate NameChar(c: char) {
    IsAsciiUpper(c) || IsAsciiLower(c) || c in NameAccents || IsSpace(c) || c == '\''
  }

  predicate InClass(c: char, k: CharClass) {
    match k
    case Upper => IsAsciiUpper(c)
    case Lower => IsAsciiLower(c)
    case Digit => IsDigit(c)
    case PasswordMark => c in PasswordMarks
    case Space => IsSpace(c)
    case UsernameMark => c in UsernameMarks
    case Foreign => !NameChar(c)
  }

  /** `/[class]/.test(s)`: a left-to-right search for one character of the
      class. */
  function Has(s: string, k: CharClass): (r: bool)
    ensures r <==> exists i :: 0 <= i < |s| && InClass(s[i], k)
  {
    if |s| == 0 then false
    else if InClass(s[0], k) then true
    else
      var r := Has(s[1..], k);
      assert forall i :: 1 <= i < |s| ==> s[1..][i - 1] == s[i];
      r
  }

  /** A class tested on one UTF-16 code unit, as a regular expression
      without the `u` flag does: half of a surrogate pair is in no class but
      the negated one. */
  predicate UnitIn(x: int, k: CharClass) {
    if IsScalar(x) then InClass(x as char, k) else k == Foreign
  }

  /** Every class but the negated one holds characters up to U+FFFF only. */
  lemma AstralClass(c: char, k: CharClass)
    requires Astral(c)
    ensures InClass(c, k) <==> k == Foreign
  {
    match k
    case PasswordMark => Latin1Absent(c, PasswordMarks);
    case UsernameMark => Latin1Absent(c, UsernameMarks);
    case Foreign => Latin1Absent(c, NameAccents);
    case _ =>
  }

  /** A character above U+00FF is not in a text of Latin-1 characters. */
  lemma Latin1Absent(c: char, s: string)
    requires c as int > 0xFF && s in [PasswordMarks, UsernameMarks, NameAccents]
    ensures c !in s
  {
    assert forall i :: 0 <= i < |s| ==> s[i] as int <= 0xFF;
  }

  /** Searching the characters finds a class member exactly when the
      regular expression, which steps through code units, does. */
  lemma {:induction false} HasOnUnits(s: string, k: CharClass)
    ensures Has(s, k) <==> SomeUnitIn(Utf16(s), k)
  {
    if |s| > 0 {
      HasOnUnits(s[1..], k);
      var head := CharUnits(s[0]);
      SomeUnitConcat(head, Utf16(s[1..]), k);
      CharUnitsClass(s[0], k);
      assert SomeUnitIn(head, k) <==> InClass(s[0], k) by {
        assert UnitIn(head[0], k) <==> InClass(s[0], k);
      }
    }
  }

  /** Some code unit of `w` is in the class. */
  predicate SomeUnitIn(w: seq<int>, k: CharClass) {
    exists j :: 0 <= j < |w| && UnitIn(w[j], k)
  }

  lemma SomeUnitConcat(a: seq<int>, b: seq<int>, k: CharClass)
    ensures SomeUnitIn(a + b, k) <==> SomeUnitIn(a, k) || SomeUnitIn(b, k)
  {
    assert forall j :: 0 <= j < |a| ==> (a + b)[j] == a[j];
    assert forall j :: 0 <= j < |b| ==> (a + b)[|a| + j] == b[j];
    if SomeUnitIn(a + b, k) {
      var j :| 0 <= j < |a + b| && UnitIn((a + b)[j], k);
      if j >= |a| {
        assert b[j - |a|] == (a + b)[j];
      }
    }
  }

  /** Each code unit of a character is in a class exactly when the
      character is. */
  lemma CharUnitsClass(c: char, k: CharClass)
    ensures forall j :: 0 <= j < |CharUnits(c)| ==> (UnitIn(CharUnits(c)[j], k) <==> InClass(c, k))
  {
    if Astral(c) {
      AstralClass(c, k);
    }
  }

  /** `/^[class]{n}$/.test(w.substring(lo, hi))` for `n = hi - lo`: every
      code unit from `lo` up to `hi` is in the class. */
  predicate UnitsIn(w: seq<int>, lo: nat, hi: nat, k: CharClass)
    requires lo <= hi <= |w|
  {
    forall j :: lo <= j < hi ==> UnitIn(w[j], k)
  }

  /** `/\s{2,}/.test(s)`: two whitespace characters in a row. */
  function HasDoubleSpace(s: string): (r: bool)
    ensures r <==> exists i :: 0 <= i < |s| - 1 && IsSpace(s[i]) && IsSpace(s[i + 1])
  {
    if |s| < 2 then false
    else if IsSpace(s[0]) && IsSpace(s[1]) then true
    else
      var r := HasDoubleSpace(s[1..]);
      assert forall i :: 1 <= i < |s| ==> s[1..][i - 1] == s[i];
      r
  }

  // ---------------------------------------------------------------------------
  // Username
  // ---------------------------------------------------------------------------

  /** `stateCodes`: the two-letter state codes a username may carry. */
  const StateCodes: seq<string> := [
    "AS", "BC", "BS", "CC", "CL", "CM", "CS", "CH", "DF", "DG", "GT",
    "GR", "HG", "JO", "MC", "MN", "MS", "NT", "NL", "OC", "PL", "QT",
    "QR", "SP", "SL", "SR", "TC", "TS", "TL", "VZ", "YN", "ZS"
  ]

  /** The failures of `validateUsername`, in the order they are checked. */
  datatype UsernameError =
    | ContainsSpace
    | SpecialStart
    | WrongLength(length: nat)
    | NotUpperCase
    | ContainsWhitespace
    | BadEnds
    | BadLetters            // code units 0..4
    | BadNumbers            // code units 4..10
    | BadLetter             // code unit 10
    | BadPair               // code units 11..13
    | BadMixed              // code units 13..16
    | BadState(code: seq<int>)  // the code units 16..18 reported
    | BadCheckDigit         // code unit 18

  /** The username format, character by character: four letters, six
      digits, a letter, two letters, three letters or digits, a state code
      and a digit, nineteen characters in all. */
  predicate UsernameShape(u: string) {
    |u| == 19 && CharacterShape(u) && u[16..18] in StateCodes
  }

  /** The format without the state code. */
  predicate CharacterShape(u: string)
    requires |u| == 19
  {
    && (forall i :: 0 <= i < 4 ==> IsAsciiUpper(u[i]))
    && (forall i :: 4 <= i < 10 ==> IsDigit(u[i]))
    && IsAsciiUpper(u[10])
    && (forall i :: 11 <= i < 13 ==> IsAsciiUpper(u[i]))
    && (forall i :: 13 <= i < 16 ==> IsAsciiUpper(u[i]) || IsDigit(u[i]))
    && IsDigit(u[18])
  }

  /** `validateUsername`: a space, a special first character, a length
      other than 19 code units, a lower-case letter, whitespace, then the
      checks on the code units: the first one outside A-Z or the last one
      not a digit, then the seven segments in order. */
  function ValidateUsername(u: string): (r: Option<UsernameError>)
    ensures ' ' in u ==> r == Some(ContainsSpace)
    ensures ' ' !in u && |u| > 0 && u[0] in UsernameMarks ==> r == Some(SpecialStart)
    ensures ' ' !in u && (|u| == 0 || u[0] !in UsernameMarks) && JsLength(u) != 19 ==>
              r == Some(WrongLength(JsLength(u)))
    ensures (&& ' ' !in u && (|u| == 0 || u[0] !in UsernameMarks) && JsLength(u) == 19
             && exists i :: 0 <= i < |u| && UpperDiffers(u[i])) ==> r == Some(NotUpperCase)
    ensures r == None <==> UsernameShape(u)
  {
    ShapePassesAll(u);
    if ' ' in u then Some(ContainsSpace)
    else if |u| > 0 && InClass(u[0], UsernameMark) then Some(SpecialStart)
    else if JsLength(u) != 19 then Some(WrongLength(JsLength(u)))
    else if u != ToUpper(u) then Some(NotUpperCase)
    else
      UpperFixedIff(u);
      if Has(u, Space) then Some(ContainsWhitespace)
      else
        LengthCountsUnits(u);
        var r := UsernameSegments(Utf16(u));
        if r == None then ShapeFromUnits(u); r else r
  }

  /** The checks after whitespace, on the nineteen code units: the first
      and last, then the seven segments. */
  function UsernameSegments(w: seq<int>): (r: Option<UsernameError>)
    requires |w| == 19
    ensures r == None <==> UnitShape(w)
  {
    if !UnitIn(w[0], Upper) || !UnitIn(w[18], Digit) then Some(BadEnds)
    else if !UnitsIn(w, 0, 4, Upper) then Some(BadLetters)
    else if !UnitsIn(w, 4, 10, Digit) then Some(BadNumbers)
    else if !UnitsIn(w, 10, 11, Upper) then Some(BadLetter)
    else if !UnitsIn(w, 11, 13, Upper) then Some(BadPair)
    else if !MixedUnits(w, 13, 16) then Some(BadMixed)
    else if !StateCodeAt(w, 16) then Some(BadState(w[16..18]))
    else if !UnitsIn(w, 18, 19, Digit) then Some(BadCheckDigit)
    else None
  }

  /** `/^[A-Z0-9]{3}$/` on the fifth segment. */
  predicate MixedUnits(w: seq<int>, lo: nat, hi: nat)
    requires lo <= hi <= |w|
  {
    forall j :: lo <= j < hi ==> UnitIn(w[j], Upper) || UnitIn(w[j], Digit)
  }

  /** `stateCodes.includes(part6)`: the two code units from `i` spell a
      state code. */
  predicate StateCodeAt(w: seq<int>, i: nat)
    requires i + 2 <= |w|
  {
    IsScalar(w[i]) && IsScalar(w[i + 1]) && [w[i] as char, w[i + 1] as char] in StateCodes
  }

  /** The username format on code units. */
  predicate UnitShape(w: seq<int>)
    requires |w| == 19
  {
    && UnitsIn(w, 0, 4, Upper) && UnitsIn(w, 4, 10, Digit) && UnitsIn(w, 10, 11, Upper)
    && UnitsIn(w, 11, 13, Upper) && MixedUnits(w, 13, 16) && StateCodeAt(w, 16)
    && UnitsIn(w, 18, 19, Digit)
  }

  /** A username of nineteen code units with the format on its code units
      has it on its characters: a surrogate is neither a letter nor a digit,
      so the format leaves no room for a character above U+FFFF. */
  lemma ShapeFromUnits(u: string)
    requires JsLength(u) == 19
    requires |Utf16(u)| == 19 && UnitShape(Utf16(u))
    ensures UsernameShape(u)
  {
    var w := Utf16(u);
    assert forall j :: 0 <= j < 19 ==> IsScalar(w[j]);
    SurrogateIffAstral(u);
    UnitShapeIff(u);
  }

  /** A username of the format passes every check: it has nineteen
      characters, all capital letters or digits, each a single code unit. */
  lemma ShapePassesAll(u: string)
    ensures UsernameShape(u) ==>
              && ' ' !in u && u[0] !in UsernameMarks && JsLength(u) == 19
              && ToUpper(u) == u && !Has(u, Space)
              && |Utf16(u)| == 19 && UnitShape(Utf16(u))
  {
    if UsernameShape(u) {
      ShapeCharacters(u);
      ShapePassesEarlyChecks(u);
      UnitsFromShape(u);
    }
  }

  /** The code units of a username of the format have the format. */
  lemma UnitsFromShape(u: string)
    requires UsernameShape(u)
    requires forall i :: 0 <= i < |u| ==> IsAsciiUpper(u[i]) || IsDigit(u[i])
    ensures JsLength(u) == 19 && |Utf16(u)| == 19 && UnitShape(Utf16(u))
  {
    assert Bmp(u);
    UnitShapeIff(u);
  }

  /** For a username of nineteen single-unit characters, the format on
      code units is the format on characters. */
  lemma UnitShapeIff(u: string)
    requires |u| == 19 && Bmp(u)
    ensures |Utf16(u)| == 19
    ensures UnitShape(Utf16(u)) <==> CharacterShape(u) && u[16..18] in StateCodes
  {
    ClassesAgree(u);
    StateCodeAgrees(u);
  }

  /** The class tests of the format, on code units and on characters. */
  lemma ClassesAgree(u: string)
    requires |u| == 19 && Bmp(u)
    ensures |Utf16(u)| == 19
    ensures var w := Utf16(u);
            (&& UnitsIn(w, 0, 4, Upper) && UnitsIn(w, 4, 10, Digit) && UnitsIn(w, 10, 11, Upper)
             && UnitsIn(w, 11, 13, Upper) && MixedUnits(w, 13, 16) && UnitsIn(w, 18, 19, Digit))
            <==> CharacterShape(u)
  {
    UnitsInAgree(u, 0, 4, Upper);
    UnitsInAgree(u, 4, 10, Digit);
    UnitsInAgree(u, 10, 11, Upper);
    UnitsInAgree(u, 11, 13, Upper);
    UnitsInAgree(u, 18, 19, Digit);
    MixedAgree(u);
  }

  /** The state-code test, on code units and on characters. */
  lemma StateCodeAgrees(u: string)
    requires |u| == 19 && Bmp(u)
    ensures |Utf16(u)| == 19
    ensures StateCodeAt(Utf16(u), 16) <==> u[16..18] in StateCodes
  {
    UnitsAreCharacters(u);
    var w := Utf16(u);
    assert [w[16] as char, w[17] as char] == u[16..18];
  }

  /** A class test on the code units of a stretch of single-unit
      characters is the test on the characters. */
  lemma UnitsInAgree(u: string, lo: nat, hi: nat, k: CharClass)
    requires Bmp(u) && lo <= hi <= |u|
    ensures |Utf16(u)| == |u|
    ensures UnitsIn(Utf16(u), lo, hi, k) <==> forall i :: lo <= i < hi ==> InClass(u[i], k)
  {
    UnitsAreCharacters(u);
  }

  lemma MixedAgree(u: string)
    requires Bmp(u) && |u| == 19
    ensures |Utf16(u)| == 19
    ensures MixedUnits(Utf16(u), 13, 16) <==> forall i :: 13 <= i < 16 ==> IsAsciiUpper(u[i]) || IsDigit(u[i])
  {
    UnitsAreCharacters(u);
  }

  /** Without characters above U+FFFF, each code unit is its character. */
  lemma UnitsAreCharacters(u: string)
    requires Bmp(u)
    ensures |Utf16(u)| == |u|
    ensures forall i :: 0 <= i < |u| ==> IsScalar(Utf16(u)[i]) && Utf16(u)[i] as char == u[i]
  {
    LengthCountsUnits(u);
    BmpUnits(u);
  }

  /** A username of the format has no lower-case letter and no whitespace. */
  lemma ShapeHasNoLowerCase(u: string)
    ensures UsernameShape(u) ==> ToUpper(u) == u && !Has(u, Space)
  {
    if UsernameShape(u) {
      ShapeCharacters(u);
      ShapePassesEarlyChecks(u);
    }
  }

  /** Every character of a username of the format is a capital letter or
      a digit. */
  lemma ShapeCharacters(u: string)
    requires UsernameShape(u)
    ensures forall i :: 0 <= i < |u| ==> IsAsciiUpper(u[i]) || IsDigit(u[i])
  {
    forall i | 0 <= i < |u| ensures IsAsciiUpper(u[i]) || IsDigit(u[i]) {
      if 16 <= i < 18 {
        StateCodeLetters(u[16..18]);
        assert u[i] == u[16..18][i - 16];
      }
    }
  }

  /** A username of nineteen capital letters and digits, ending with a
      digit, passes every check before the segments. */
  lemma ShapePassesEarlyChecks(u: string)
    requires |u| == 19 && IsAsciiUpper(u[0]) && IsDigit(u[18])
    requires forall i :: 0 <= i < |u| ==> IsAsciiUpper(u[i]) || IsDigit(u[i])
    ensures ' ' !in u && u[0] !in UsernameMarks && ToUpper(u) == u
    ensures forall i :: 0 <= i < |u| ==> !IsSpace(u[i])
    ensures IsAsciiUpper(u[0]) && IsDigit(u[18])
  {
    forall i | 0 <= i < |u| ensures !IsSpace(u[i]) && !UpperDiffers(u[i]) {
      PlainCharacter(u[i]);
    }
    UpperFixedIff(u);
    assert ' ' !in u;
    MarksAreNotLetters(u[0]);
  }

  /** A capital letter or a digit is neither whitespace nor a letter with
      a different upper case. */
  lemma PlainCharacter(c: char)
    requires IsAsciiUpper(c) || IsDigit(c)
    ensures !IsSpace(c) && !UpperDiffers(c)
  {
  }

  /** No capital letter is one of the special characters a username may not
      start with. */
  lemma MarksAreNotLetters(c: char)
    requires IsAsciiUpper(c)
    ensures c !in UsernameMarks
  {
    assert forall i :: 0 <= i < |UsernameMarks| ==> !IsAsciiUpper(UsernameMarks[i]);
  }

  /** Every state code is two capital letters. */
  lemma StateCodeLetters(code: string)
    requires code in StateCodes
    ensures |code| == 2 && IsAsciiUpper(code[0]) && IsAsciiUpper(code[1])
  {
    forall j | 0 <= j < |StateCodes| ensures UpperPair(StateCodes[j]) {
      if j < 8 {
      } else if j < 16 {
      } else if j < 24 {
      } else {
      }
    }
    var k :| 0 <= k < |StateCodes| && StateCodes[k] == code;
    assert UpperPair(StateCodes[k]);
  }

  predicate UpperPair(code: string) {
    |code| == 2 && IsAsciiUpper(code[0]) && IsAsciiUpper(code[1])
  }

  /** What every valid username shares: nineteen characters, no lower-case
      letter, no whitespace, a capital first and a digit last. */
  lemma ValidUsernameBasics(u: string)
    requires ValidateUsername(u) == None
    ensures |u| == 19 && ToUpper(u) == u && (forall i :: 0 <= i < |u| ==> !IsSpace(u[i]))
    ensures IsAsciiUpper(u[0]) && IsDigit(u[18])
  {
    ShapeCharacters(u);
    ShapePassesEarlyChecks(u);
  }

  /** The micro sign upper-cases to the Greek capital mu, so a username of
      nineteen code units without a space that starts with it is refused as
      not upper case. */
  lemma MicroStartNotUpper(u: string)
    requires |u| == 19 && Bmp(u) && ' ' !in u && u[0] == '\U{00B5}'
    ensures ValidateUsername(u) == Some(NotUpperCase)
  {
    assert HasUpper(u[0]) && u[0] !in UsernameMarks;
  }

  /** The sharp s upper-cases to `SS`, so a username of nineteen code units
      without a space that starts with it is refused as not upper case. */
  lemma SharpSStartNotUpper(u: string)
    requires |u| == 19 && Bmp(u) && ' ' !in u && u[0] == '\U{00DF}'
    ensures ValidateUsername(u) == Some(NotUpperCase)
  {
    assert UpperDiffers(u[0]) && u[0] !in UsernameMarks;
  }

  /** A space is reported before the length, whatever the length. */
  lemma SpaceReportedFirst(a: string, b: string)
    ensures ValidateUsername(a + " " + b) == Some(ContainsSpace)
  {
    assert (a + " " + b)[|a|] == ' ';
  }

  /** The username of the login tests is valid. */
  lemma SampleUsernameValid(u: string)
    requires u == "LOFC010320HJCMLSJO9"
    ensures ValidateUsername(u) == None
  {
    assert u[16..18] == "JO" == StateCodes[13];
    assert CharacterShape(u);
  }

  // ---------------------------------------------------------------------------
  // Password
  // ---------------------------------------------------------------------------

  /** The failures of `validatePassword`, in the order they are checked. */
  datatype PasswordError = NotEightLong | NoUpper | NoLower | NoDigit | NoMark

  /** `validatePassword`: exactly eight code units, then one capital, one
      small letter, one digit and one of `@#$%&!¡¿?`. */
  function ValidatePassword(p: string): (r: Option<PasswordError>)
    ensures r == None <==>
              && JsLength(p) == 8
              && (exists i :: 0 <= i < |p| && IsAsciiUpper(p[i]))
              && (exists i :: 0 <= i < |p| && IsAsciiLower(p[i]))
              && (exists i :: 0 <= i < |p| && IsDigit(p[i]))
              && (exists i :: 0 <= i < |p| && p[i] in PasswordMarks)
    ensures JsLength(p) != 8 ==> r == Some(NotEightLong)
    ensures JsLength(p) == 8 && (forall i :: 0 <= i < |p| ==> !IsAsciiUpper(p[i])) ==> r == Some(NoUpper)
  {
    if JsLength(p) != 8 then Some(NotEightLong)
    else if !Has(p, Upper) then Some(NoUpper)
    else if !Has(p, Lower) then Some(NoLower)
    else if !Has(p, Digit) then Some(NoDigit)
    else if !Has(p, PasswordMark) then Some(NoMark)
    else None
  }

  /** A password with a missing class is refused for the first missing
      class, whatever else it holds. */
  lemma PasswordWithoutDigit(p: string)
    requires JsLength(p) == 8 && Has(p, Upper) && Has(p, Lower)
    requires forall i :: 0 <= i < |p| ==> !IsDigit(p[i])
    ensures ValidatePassword(p) == Some(NoDigit)
  {
  }

  /** The password of the login tests is valid. */
  lemma SamplePasswordValid(p: string)
    requires p == "Abc123$%"
    ensures ValidatePassword(p) == None
  {
    assert IsAsciiUpper(p[0]) && IsAsciiLower(p[1]) && IsDigit(p[3]) && p[6] in PasswordMarks;
    assert Bmp(p);
  }

  /** A password of seven characters, the last above U+FFFF, is eight code
      units long and is valid. */
  lemma AstralPasswordValid(p: string)
    requires p == "Abc1$%\U{1F600}"
    ensures |p| == 7
    ensures ValidatePassword(p) == None
  {
    assert IsAsciiUpper(p[0]) && IsAsciiLower(p[1]) && IsDigit(p[3]) && p[4] in PasswordMarks;
    assert Astral(p[6]) && forall i :: 0 <= i < 6 ==> !Astral(p[i]);
    AstralLength(p[..6], p[6]);
    assert p[..6] + [p[6]] == p;
  }

  // ---------------------------------------------------------------------------
  // Name
  // ---------------------------------------------------------------------------

  /** The failures of `validateName`, in the order they are checked. */
  datatype NameError = NameRequired | NameTooShort | NameHasDigit | NameHasSymbol | NoSurname | BadSpacing

  /** A well-formed full name: two characters or more, and the content
      the later checks ask for. */
  predicate WellFormedName(name: string) {
    |name| >= 2 && NameContentOk(name)
  }

  /** No digit, only letters, accented letters, whitespace and apostrophes,
      and well spaced. */
  predicate NameContentOk(name: string)
    requires |name| > 0
  {
    (forall i :: 0 <= i < |name| ==> NameChar(name[i]) && !IsDigit(name[i])) && WellSpaced(name)
  }

  /** At least one whitespace, none at either end and never two in a row. */
  predicate WellSpaced(name: string)
    requires |name| > 0
  {
    && (exists i :: 0 <= i < |name| && IsSpace(name[i]))
    && !IsSpace(name[0]) && !IsSpace(name[|name| - 1])
    && (forall i :: 0 <= i < |name| - 1 ==> !(IsSpace(name[i]) && IsSpace(name[i + 1])))
  }

  /** `validateName`: blank, shorter than two code units, then the checks
      on the content. */
  function ValidateName(name: string): (r: Option<NameError>)
    ensures r == Some(NameRequired) <==> forall i :: 0 <= i < |name| ==> IsSpace(name[i])
    ensures r == None <==> WellFormedName(name)
    ensures r == Some(NoSurname) ==> |name| >= 2 && forall i :: 0 <= i < |name| ==> !IsSpace(name[i])
    ensures r == Some(NameTooShort) <==>
              (exists i :: 0 <= i < |name| && !IsSpace(name[i])) && JsLength(name) < 2
  {
    if Blank(name) then Some(NameRequired)
    else if JsLength(name) < 2 then Some(NameTooShort)
    else
      var r := NameContent(name);
      assert r == None || r == Some(NoSurname) ==> |name| == JsLength(name);
      r
  }

  /** `!name || name.trim().length === 0`, stated on the characters; the
      two agree by `BlankIffTrimEmpty`. */
  predicate Blank(name: string) {
    forall i :: 0 <= i < |name| ==> IsSpace(name[i])
  }

  /** The blank test is the emptiness of the trimmed text. */
  lemma BlankIffTrimEmpty(name: string)
    ensures Blank(name) <==> |name| == 0 || |Trim(name)| == 0
  {
    TrimEmptyIff(name);
  }

  /** The checks after the length: a digit, a character outside the allowed
      ones, then the spacing. */
  function NameContent(name: string): (r: Option<NameError>)
    requires |name| > 0
    ensures r != Some(NameRequired) && r != Some(NameTooShort)
    ensures r == None <==> NameContentOk(name)
    ensures r == Some(NoSurname) ==> forall i :: 0 <= i < |name| ==> !IsSpace(name[i])
    ensures r == None || r == Some(NoSurname) ==> Bmp(name)
  {
    if Has(name, Digit) then Some(NameHasDigit)
    else NameSymbols(name)
  }

  /** The checks after the digit test: a character outside the allowed
      ones, then the spacing. */
  function NameSymbols(name: string): (r: Option<NameError>)
    requires |name| > 0 && forall i :: 0 <= i < |name| ==> !IsDigit(name[i])
    ensures r != Some(NameRequired) && r != Some(NameTooShort) && r != Some(NameHasDigit)
    ensures r == None <==> (forall i :: 0 <= i < |name| ==> NameChar(name[i])) && WellSpaced(name)
    ensures r == Some(NoSurname) ==> forall i :: 0 <= i < |name| ==> !IsSpace(name[i])
    ensures r == None || r == Some(NoSurname) ==> Bmp(name)
  {
    if Has(name, Foreign) then Some(NameHasSymbol)
    else
      NameCharsSingleUnits(name);
      NameSpacing(name)
  }

  /** No whitespace, then whitespace at an end or doubled. */
  function NameSpacing(name: string): (r: Option<NameError>)
    requires |name| > 0
    ensures r == None || r == Some(NoSurname) || r == Some(BadSpacing)
    ensures r == Some(NoSurname) <==> forall i :: 0 <= i < |name| ==> !IsSpace(name[i])
    ensures r == None <==> WellSpaced(name)
  {
    if !Has(name, Space) then Some(NoSurname)
    else if Untrimmed(name) || HasDoubleSpace(name) then Some(BadSpacing)
    else None
  }

  /** `name !== name.trim()`, stated on the ends; the two agree by
      `UntrimmedIffTrimChanges`. */
  predicate Untrimmed(name: string)
    requires |name| > 0
  {
    IsSpace(name[0]) || IsSpace(name[|name| - 1])
  }

  /** The end test is the trimmed text differing from the text. */
  lemma UntrimmedIffTrimChanges(name: string)
    requires |name| > 0
    ensures Untrimmed(name) <==> name != Trim(name)
  {
    TrimFixedIff(name);
  }

  /** A name of allowed characters has as many code units as characters. */
  lemma NameCharsSingleUnits(name: string)
    requires forall i :: 0 <= i < |name| ==> NameChar(name[i])
    ensures Bmp(name)
  {
    forall i | 0 <= i < |name| ensures !Astral(name[i]) {
      NameCharSingleUnit(name[i]);
    }
  }

  lemma NameCharSingleUnit(c: char)
    requires NameChar(c)
    ensures !Astral(c)
  {
    if Astral(c) {
      Latin1Absent(c, NameAccents);
    }
  }

  /** A name of one character above U+FFFF is two code units long, so it
      passes the length check and is refused for the character. */
  lemma AstralNameHasSymbol(c: char)
    requires Astral(c)
    ensures ValidateName([c]) == Some(NameHasSymbol)
  {
    var name := [c];
    assert !IsSpace(name[0]) && !IsDigit(name[0]);
    AstralClass(c, Foreign);
    assert !Blank(name);
    AstralLength([], c);
    assert [] + [c] == name;
    assert !Has(name, Digit) && Has(name, Foreign);
  }

  /** A single word is refused for lacking a surname. */
  lemma SingleWordRefused(name: string)
    requires |name| >= 2 && forall i :: 0 <= i < |name| ==> IsAsciiUpper(name[i]) || IsAsciiLower(name[i])
    ensures ValidateName(name) == Some(NoSurname)
  {
    assert Bmp(name) && !IsSpace(name[0]);
    assert !Blank(name);
    assert forall i :: 0 <= i < |name| ==> !IsDigit(name[i]) && NameChar(name[i]) && !IsSpace(name[i]);
    assert NameContent(name) == NameSpacing(name);
  }

  /** "Usuario", the name of the registration test, is refused for lacking a
      surname. */
  lemma UsuarioHasNoSurname(name: string)
    requires name == "Usuario"
    ensures ValidateName(name) == Some(NoSurname)
  {
    SingleWordRefused(name);
  }
}

=== FILE: cart.dfy ===
/** The ticket cart shared by the theater, cinema and museum pages: a fixed
    list of ticket types whose quantities the "+" and "-" buttons change,
    with the money total, the ticket count and the count per section. */
module Cart {
  import opened Wrappers

  /** MAX_TICKETS_PER_TYPE of the theater, cinema and museum pages. */
  const MaxPerType: nat := 8

  /** One ticket type `{id, name, price, quantity, section}`. Prices are
      whole pesos. The museum's types carry no section; they hold the empty
      key, which no seat map uses. */
  datatype TicketType = TicketType(id: int, name: string, price: int, quantity: int, section: string)

  type Cart = seq<TicketType>

  datatype PurchaseError = NoTicketsSelected

  /** `a` and `b` are the same ticket type, whatever their quantities. */
  predicate SameType(a: TicketType, b: TicketType) {
    a.id == b.id && a.name == b.name && a.price == b.price && a.section == b.section
  }

  predicate UniqueIds(cart: Cart) {
    forall i, j :: 0 <= i < j < |cart| ==> cart[i].id != cart[j].id
  }

  predicate NonNegative(cart: Cart) {
    forall i :: 0 <= i < |cart| ==> cart[i].quantity >= 0
  }

  predicate AtMost(cart: Cart, cap: int) {
    forall i :: 0 <= i < |cart| ==> cart[i].quantity <= cap
  }

  // ---------------------------------------------------------------------------
  // Totals
  // ---------------------------------------------------------------------------

  /** `calculateTotal`: the sum of price times quantity. */
  function Total(cart: Cart): (r: int)
    ensures (forall i :: 0 <= i < |cart| ==> cart[i].price >= 0) && NonNegative(cart) ==> r >= 0
  {
    if |cart| == 0 then 0
    else
      var init, last := cart[..|cart| - 1], cart[|cart| - 1];
      assert forall i :: 0 <= i < |init| ==> init[i] == cart[i];
      Total(init) + last.price * last.quantity
  }

  /** `getTotalTickets`: the sum of the quantities. */
  function TicketCount(cart: Cart): (r: int)
    ensures NonNegative(cart) ==> r >= 0
    ensures NonNegative(cart) ==> (r == 0 <==> forall i :: 0 <= i < |cart| ==> cart[i].quantity == 0)
  {
    if |cart| == 0 then 0
    else
      var init, last := cart[..|cart| - 1], cart[|cart| - 1];
      assert forall i :: 0 <= i < |init| ==> init[i] == cart[i];
      TicketCount(init) + last.quantity
  }

  /** `getTicketsBySection`: the sum of the positive quantities of the
      types whose section is `section`. */
  function TicketsBySection(cart: Cart, section: string): (r: int)
    ensures r >= 0
    ensures r == 0 <==> forall i :: 0 <= i < |cart| && cart[i].section == section ==> cart[i].quantity <= 0
  {
    if |cart| == 0 then 0
    else
      var init, last := cart[..|cart| - 1], cart[|cart| - 1];
      assert forall i :: 0 <= i < |init| ==> init[i] == cart[i];
      TicketsBySection(init, section)
        + (if last.section == section && last.quantity > 0 then last.quantity else 0)
  }

  /** The total of two carts together is the sum of their totals, so the
      order in which `reduce` visits the types does not matter. */
  lemma {:induction false} TotalConcat(a: Cart, b: Cart)
    ensures Total(a + b) == Total(a) + Total(b)
    ensures TicketCount(a + b) == TicketCount(a) + TicketCount(b)
  {
    if |b| > 0 {
      var init, last := b[..|b| - 1], b[|b| - 1];
      TotalConcat(a, init);
      assert (a + b)[..|a + b| - 1] == a + init;
    } else {
      assert a + b == a;
    }
  }

  /** Each section's count is part of the ticket count: it never exceeds it. */
  lemma {:induction false} TicketsBySectionAtMostCount(cart: Cart, section: string)
    requires NonNegative(cart)
    ensures 0 <= TicketsBySection(cart, section) <= TicketCount(cart)
  {
    if |cart| > 0 {
      TicketsBySectionAtMostCount(cart[..|cart| - 1], section);
    }
  }

  /** A section no ticket type belongs to has a count of zero. */
  lemma {:induction false} TicketsBySectionAbsent(cart: Cart, section: string)
    requires forall i :: 0 <= i < |cart| ==> cart[i].section != section
    ensures TicketsBySection(cart, section) == 0
  {
    if |cart| > 0 {
      TicketsBySectionAbsent(cart[..|cart| - 1], section);
    }
  }

  /** Changing the quantity of the type at index `k` moves the totals by
      exactly the change at that index. */
  lemma UpdateAtIndex(cart: Cart, k: nat, q: int)
    requires k < |cart|
    ensures TicketCount(cart[k := cart[k].(quantity := q)]) == TicketCount(cart) - cart[k].quantity + q
    ensures Total(cart[k := cart[k].(quantity := q)])
         == Total(cart) - cart[k].price * cart[k].quantity + cart[k].price * q
  {
    CountReplace(cart, k, cart[k].(quantity := q));
    TotalReplace(cart, k, cart[k].(quantity := q));
  }

  /** Replacing the entry at index `k` moves the count by the quantities' difference. */
  lemma {:induction false} CountReplace(cart: Cart, k: nat, t: TicketType)
    requires k < |cart|
    ensures TicketCount(cart[k := t]) == TicketCount(cart) - cart[k].quantity + t.quantity
  {
    var c' := cart[k := t];
    var n := |cart| - 1;
    if k < n {
      assert c'[..n] == cart[..n][k := t];
      CountReplace(cart[..n], k, t);
      assert c'[n] == cart[n];
    } else {
      assert c'[..n] == cart[..n];
    }
  }

  /** Replacing the entry at index `k` moves the total by the amounts' difference. */
  lemma {:induction false} TotalReplace(cart: Cart, k: nat, t: TicketType)
    requires k < |cart|
    ensures Total(cart[k := t]) == Total(cart) - cart[k].price * cart[k].quantity + t.price * t.quantity
  {
    var c' := cart[k := t];
    var n := |cart| - 1;
    var last := cart[n].price * cart[n].quantity;
    if k < n {
      assert c'[..n] == cart[..n][k := t];
      TotalReplace(cart[..n], k, t);
      assert c'[n] == cart[n];
      assert Total(c') == Total(c'[..n]) + last;
      assert Total(cart) == Total(cart[..n]) + last;
    } else {
      assert c'[..n] == cart[..n];
      assert Total(c') == Total(cart[..n]) + t.price * t.quantity;
      assert Total(cart) == Total(cart[..n]) + last;
    }
  }

  // ---------------------------------------------------------------------------
  // Quantity changes
  // ---------------------------------------------------------------------------

  /** `handleIncrement(id)`: every type with this id whose quantity is below
      `cap` goes up by one; everything else is unchanged. */
  function Increment(cart: Cart, id: int, cap: int): (r: Cart)
    ensures |r| == |cart|
    ensures forall i :: 0 <= i < |cart| ==> SameType(r[i], cart[i])
    ensures forall i :: 0 <= i < |cart| && (cart[i].id != id || cart[i].quantity >= cap) ==> r[i] == cart[i]
    ensures forall i :: 0 <= i < |cart| && cart[i].id == id && cart[i].quantity < cap ==>
              r[i].quantity == cart[i].quantity + 1
  {
    if |cart| == 0 then []
    else
      var t := cart[0];
      [if t.id == id && t.quantity < cap then t.(quantity := t.quantity + 1) else t]
        + Increment(cart[1..], id, cap)
  }

  /** `updateQuantity(id, n)`: a negative `n` is ignored; otherwise every
      type with this id gets quantity `n`, with no upper clamp. */
  function UpdateQuantity(cart: Cart, id: int, n: int): (r: Cart)
    ensures n < 0 ==> r == cart
    ensures |r| == |cart|
    ensures forall i :: 0 <= i < |cart| ==> SameType(r[i], cart[i])
    ensures forall i :: 0 <= i < |cart| && cart[i].id != id ==> r[i] == cart[i]
    ensures n >= 0 ==> forall i :: 0 <= i < |cart| && cart[i].id == id ==> r[i].quantity == n
  {
    if n < 0 then cart else SetQuantity(cart, id, n)
  }

  function SetQuantity(cart: Cart, id: int, n: int): (r: Cart)
    ensures |r| == |cart|
    ensures forall i :: 0 <= i < |cart| ==>
              r[i] == if cart[i].id == id then cart[i].(quantity := n) else cart[i]
  {
    if |cart| == 0 then []
    else [if cart[0].id == id then cart[0].(quantity := n) else cart[0]] + SetQuantity(cart[1..], id, n)
  }

  /** With distinct ids, incrementing the type at index `k` adds exactly
      one ticket and that type's price to the totals while it is below the
      cap, and changes nothing at the cap. */
  lemma IncrementAt(cart: Cart, k: nat, cap: int)
    requires UniqueIds(cart) && k < |cart|
    ensures var r := Increment(cart, cart[k].id, cap);
            && r == (if cart[k].quantity < cap then cart[k := cart[k].(quantity := cart[k].quantity + 1)] else cart)
            && TicketCount(r) == TicketCount(cart) + (if cart[k].quantity < cap then 1 else 0)
            && Total(r) == Total(cart) + (if cart[k].quantity < cap then cart[k].price else 0)
  {
    if cart[k].quantity < cap {
      IncrementBelowCap(cart, k, cap);
      OneMoreAt(cart, k);
    } else {
      IncrementAtCap(cart, k, cap);
    }
  }

  /** One more ticket of the type at index `k` adds one to the count and
      its price to the total. */
  lemma OneMoreAt(cart: Cart, k: nat)
    requires k < |cart|
    ensures TicketCount(cart[k := cart[k].(quantity := cart[k].quantity + 1)]) == TicketCount(cart) + 1
    ensures Total(cart[k := cart[k].(quantity := cart[k].quantity + 1)]) == Total(cart) + cart[k].price
  {
    UpdateAtIndex(cart, k, cart[k].quantity + 1);
    OneMorePrice(cart[k].price, cart[k].quantity);
  }

  lemma OneMorePrice(price: int, q: int)
    ensures price * (q + 1) == price * q + price
  {
  }

  /** Below the cap, incrementing the id of index `k` replaces just that entry. */
  lemma IncrementBelowCap(cart: Cart, k: nat, cap: int)
    requires UniqueIds(cart) && k < |cart| && cart[k].quantity < cap
    ensures Increment(cart, cart[k].id, cap) == cart[k := cart[k].(quantity := cart[k].quantity + 1)]
  {
    var r := Increment(cart, cart[k].id, cap);
    var e := cart[k := cart[k].(quantity := cart[k].quantity + 1)];
    forall i | 0 <= i < |cart| ensures r[i] == e[i] {
      if i != k {
        assert cart[i].id != cart[k].id;
        assert r[i] == cart[i];
      } else {
        assert r[i].quantity == cart[i].quantity + 1 && SameType(r[i], cart[i]);
      }
    }
  }

  /** At the cap, incrementing the id of index `k` changes nothing. */
  lemma IncrementAtCap(cart: Cart, k: nat, cap: int)
    requires UniqueIds(cart) && k < |cart| && cart[k].quantity >= cap
    ensures Increment(cart, cart[k].id, cap) == cart
  {
    var r := Increment(cart, cart[k].id, cap);
    forall i | 0 <= i < |cart| ensures r[i] == cart[i] {
      if i != k {
        assert cart[i].id != cart[k].id;
      }
    }
  }

  /** Incrementing an id no type carries changes nothing. */
  lemma IncrementUnknown(cart: Cart, id: int, cap: int)
    requires forall i :: 0 <= i < |cart| ==> cart[i].id != id
    ensures Increment(cart, id, cap) == cart
  {
    var r := Increment(cart, id, cap);
    assert forall i :: 0 <= i < |cart| ==> r[i] == cart[i];
  }

  /** Incrementing keeps every quantity within `[0, cap]` once it is there. */
  lemma IncrementKeepsBounds(cart: Cart, id: int, cap: int)
    requires NonNegative(cart) && AtMost(cart, cap)
    ensures NonNegative(Increment(cart, id, cap)) && AtMost(Increment(cart, id, cap), cap)
  {
  }

  /** With distinct ids, setting a type's quantity to `n >= 0` moves the
      ticket count from its old quantity to `n`. */
  lemma UpdateQuantityEffect(cart: Cart, k: nat, n: int)
    requires UniqueIds(cart) && k < |cart| && n >= 0
    ensures UpdateQuantity(cart, cart[k].id, n) == cart[k := cart[k].(quantity := n)]
    ensures TicketCount(UpdateQuantity(cart, cart[k].id, n)) == TicketCount(cart) - cart[k].quantity + n
  {
    var r := UpdateQuantity(cart, cart[k].id, n);
    var e := cart[k := cart[k].(quantity := n)];
    forall i | 0 <= i < |cart| ensures r[i] == e[i] {
      if i != k {
        assert cart[i].id != cart[k].id;
      }
    }
    assert r == e;
    UpdateAtIndex(cart, k, n);
  }

  /** `updateQuantity` can never make a quantity negative. */
  lemma UpdateQuantityKeepsNonNegative(cart: Cart, id: int, n: int)
    requires NonNegative(cart)
    ensures NonNegative(UpdateQuantity(cart, id, n))
  {
  }

  // ---------------------------------------------------------------------------
  // The purchase gate
  // ---------------------------------------------------------------------------

  /** `ticketTypes.filter(t => t.quantity > 0)`, in order. */
  function Selected(cart: Cart): (r: Cart)
    ensures |r| <= |cart|
    ensures forall i :: 0 <= i < |r| ==> r[i].quantity > 0
  {
    if |cart| == 0 then []
    else
      var rest := Selected(cart[..|cart| - 1]);
      var last := cart[|cart| - 1];
      if last.quantity > 0 then rest + [last] else rest
  }

  /** The filter keeps exactly the types with a positive quantity. */
  lemma {:induction false} SelectedExactly(cart: Cart)
    ensures forall t :: t in Selected(cart) <==> t in cart && t.quantity > 0
  {
    if |cart| > 0 {
      var init, last := cart[..|cart| - 1], cart[|cart| - 1];
      SelectedExactly(init);
      assert cart == init + [last];
      assert forall t :: t in cart <==> t in init || t == last;
    }
  }

  /** Dropping the zero-quantity types keeps the ticket count and the total. */
  lemma SelectedKeepsTotals(cart: Cart)
    requires NonNegative(cart)
    ensures TicketCount(Selected(cart)) == TicketCount(cart)
    ensures Total(Selected(cart)) == Total(cart)
  {
    SelectedKeepsCount(cart);
    SelectedKeepsTotal(cart);
  }

  lemma {:induction false} SelectedKeepsCount(cart: Cart)
    requires NonNegative(cart)
    ensures TicketCount(Selected(cart)) == TicketCount(cart)
  {
    if |cart| > 0 {
      var init, last := cart[..|cart| - 1], cart[|cart| - 1];
      NonNegativePrefix(cart);
      SelectedKeepsCount(init);
      if last.quantity > 0 {
        var s := Selected(init) + [last];
        assert s[..|s| - 1] == Selected(init);
      }
    }
  }

  lemma {:induction false} SelectedKeepsTotal(cart: Cart)
    requires NonNegative(cart)
    ensures Total(Selected(cart)) == Total(cart)
  {
    if |cart| > 0 {
      var init, last := cart[..|cart| - 1], cart[|cart| - 1];
      NonNegativePrefix(cart);
      SelectedKeepsTotal(init);
      SelectedTotalStep(cart);
    }
  }

  /** The filter's total grows by the last type's amount, which is zero
      when the filter drops it. */
  lemma SelectedTotalStep(cart: Cart)
    requires |cart| > 0 && cart[|cart| - 1].quantity >= 0
    ensures Total(Selected(cart))
         == Total(Selected(cart[..|cart| - 1])) + cart[|cart| - 1].price * cart[|cart| - 1].quantity
  {
    var init, last := cart[..|cart| - 1], cart[|cart| - 1];
    var kept := Selected(init);
    if last.quantity > 0 {
      assert Selected(cart) == kept + [last];
      TotalAppend(kept, last);
    } else {
      assert Selected(cart) == kept;
      assert last.quantity == 0;
      assert last.price * last.quantity == last.price * 0;
    }
  }

  lemma NonNegativePrefix(cart: Cart)
    requires NonNegative(cart) && |cart| > 0
    ensures NonNegative(cart[..|cart| - 1]) && cart[|cart| - 1].quantity >= 0
  {
    var init := cart[..|cart| - 1];
    assert forall i :: 0 <= i < |init| ==> init[i] == cart[i];
  }

  lemma TotalAppend(cart: Cart, t: TicketType)
    ensures Total(cart + [t]) == Total(cart) + t.price * t.quantity
  {
    assert (cart + [t])[..|cart|] == cart;
  }

  /** The sections of the types with a positive quantity. */
  function SelectedSections(cart: Cart): (r: set<string>)
    ensures forall s :: s in r <==> exists i :: 0 <= i < |cart| && cart[i].quantity > 0 && cart[i].section == s
  {
    set i | 0 <= i < |cart| && cart[i].quantity > 0 :: cart[i].section
  }

  predicate AnySelected(cart: Cart) {
    exists i :: 0 <= i < |cart| && cart[i].quantity > 0
  }

  /** `handlePurchase` of the seat pages: refused when no type has a
      positive quantity, otherwise the picker opens for exactly the
      sections of the types with a positive quantity. */
  function OpenPicker(cart: Cart): (r: Result<set<string>, PurchaseError>)
    ensures r.Err? <==> forall i :: 0 <= i < |cart| ==> cart[i].quantity <= 0
    ensures r.Ok? ==> |r.value| > 0
    ensures r.Ok? ==> r.value == SelectedSections(cart)
    ensures r.Ok? ==> forall s :: s in r.value ==> TicketsBySectionPositive(cart, s)
  {
    if !AnySelected(cart) then Err(NoTicketsSelected)
    else
      var k :| 0 <= k < |cart| && cart[k].quantity > 0;
      assert cart[k].section in SelectedSections(cart);
      forall s | s in SelectedSections(cart) ensures TicketsBySectionPositive(cart, s) {
        var i :| 0 <= i < |cart| && cart[i].quantity > 0 && cart[i].section == s;
        PositiveTypeGivesPositiveSection(cart, i);
      }
      Ok(SelectedSections(cart))
  }

  predicate TicketsBySectionPositive(cart: Cart, s: string) {
    TicketsBySection(cart, s) > 0
  }

  /** A type with a positive quantity makes its section's count positive. */
  lemma {:induction false} PositiveTypeGivesPositiveSection(cart: Cart, i: nat)
    requires i < |cart| && cart[i].quantity > 0
    ensures TicketsBySection(cart, cart[i].section) > 0
  {
    var n := |cart| - 1;
    if i < n {
      assert cart[..n][i] == cart[i];
      PositiveTypeGivesPositiveSection(cart[..n], i);
    } else {
    }
  }
}

=== FILE: checkout.dfy ===
/** The checkout page: it decodes the picked seat ids back into the
    backend's 1-based rows and columns, groups them by normalised section
    key, turns the selected ticket types into `ticket_details` lines, and
    assembles the transaction sent to the backend together with the state
    handed to the summary page. */
module Checkout {
  import opened Wrappers
  import opened JsStrings
  import opened Cart
  import opened Seats
  import opened Picker
  import opened Payment
  import Theater

  // ---------------------------------------------------------------------------
  // Seat ids
  // ---------------------------------------------------------------------------

  /** `{seccion, fila, columna}`; a row or column read as `NaN` is `None`. */
  datatype SeatEntry = SeatEntry(seccion: string, fila: Option<int>, columna: Option<int>)

  /** `parseInt` with no radix of a piece that may be `undefined`. */
  function ParsePiece(p: Option<string>): (r: Option<int>)
    ensures p.None? ==> r.None?
    ensures p.Some? ==> r == ParseIntAuto(p.value)
    ensures p.Some? && |p.value| > 0 && AllDigits(p.value) ==> r == Some(DigitsValue(p.value))
  {
    if p.None? then None
    else
      if |p.value| > 0 && AllDigits(p.value) then ParseAutoDigits(p.value); ParseIntAuto(p.value)
      else ParseIntAuto(p.value)
  }

  /** `x + 1`, where `NaN + 1` is `NaN`. */
  function PlusOne(n: Option<int>): (r: Option<int>)
    ensures r.Some? <==> n.Some?
    ensures n.Some? ==> r.value - 1 == n.value
  {
    if n.None? then None else Some(n.value + 1)
  }

  /** `const [section, row, col] = seatId.split("-")` with
      `parseInt(row) + 1` and `parseInt(col) + 1`: the section and the
      1-based row and column of a seat id. */
  function DecodeSeat(id: string): (e: SeatEntry)
    ensures '-' !in e.seccion
    ensures '-' !in id ==> e == SeatEntry(id, None, None)
  {
    var parts := Split(id, '-');
    SeatEntry(parts[0], PlusOne(ParsePiece(Piece(parts, 1))), PlusOne(ParsePiece(Piece(parts, 2))))
  }

  /** The pieces of a seat id built by the picker. */
  lemma SplitSeatId(section: string, row: nat, col: nat)
    requires '-' !in section
    ensures Split(SeatId(section, row, col), '-') == [section, NatToString(row), NatToString(col)]
  {
    var r, c := NatToString(row), NatToString(col);
    assert '-' !in r && '-' !in c by {
      assert !IsDigit('-');
    }
    assert SeatId(section, row, col) == section + ['-'] + r + ['-'] + c;
    SplitJoin3(section, r, c, '-');
  }

  /** Decoding the id the picker builds for `(section, row, col)` gives the
      section back with the row and column shifted to 1-based. */
  lemma DecodeSeatId(section: string, row: nat, col: nat)
    requires '-' !in section
    ensures DecodeSeat(SeatId(section, row, col)) == SeatEntry(section, Some(row + 1), Some(col + 1))
  {
    DecodeSeatIdAs(section, row, col, row + 1, col + 1);
  }

  /** `DecodeSeatId` with the expected 1-based row and column named, so
      that callers can match them without arithmetic on the id. */
  lemma DecodeSeatIdAs(section: string, row: nat, col: nat, fila: int, columna: int)
    requires '-' !in section && fila == row + 1 && columna == col + 1
    ensures DecodeSeat(SeatId(section, row, col)) == SeatEntry(section, Some(fila), Some(columna))
  {
    SplitSeatId(section, row, col);
    DecodeParts(SeatId(section, row, col), section, row, col, fila, columna);
  }

  /** An id that splits into a section and the texts of two numbers decodes
      to the section and the numbers shifted to 1-based. */
  lemma DecodeParts(id: string, section: string, row: nat, col: nat, fila: int, columna: int)
    requires Split(id, '-') == [section, NatToString(row), NatToString(col)]
    requires fila == row + 1 && columna == col + 1
    ensures DecodeSeat(id) == SeatEntry(section, Some(fila), Some(columna))
  {
    var parts := Split(id, '-');
    NatPiece(parts, 1, row);
    NatPiece(parts, 2, col);
  }

  /** A piece printed from a natural number parses back to it. */
  lemma NatPiece(parts: seq<string>, i: nat, n: nat)
    requires i < |parts| && parts[i] == NatToString(n)
    ensures ParsePiece(Piece(parts, i)) == Some(n)
    ensures PlusOne(ParsePiece(Piece(parts, i))) == Some(n + 1)
  {
    ParseAutoNatToString(n);
  }

  /** Without a radix, a `0x` piece is read in base 16: `platea-0x1-0` is
      sent as row 2 and column 1. */
  lemma HexRowDecoded(id: string)
    requires id == "platea-0x1-0"
    ensures DecodeSeat(id) == SeatEntry("platea", Some(2), Some(1))
  {
    var a, b, c := "platea", "0x1", "0";
    assert id == a + ['-'] + b + ['-'] + c;
    SplitJoin3(a, b, c, '-');
    HexPieces(id, a, b, c);
  }

  lemma HexPieces(id: string, a: string, b: string, c: string)
    requires Split(id, '-') == [a, b, c] && a == "platea" && b == "0x1" && c == "0"
    ensures DecodeSeat(id) == SeatEntry("platea", Some(2), Some(1))
  {
    HexOne(b);
    assert ParsePiece(Some(c)) == Some(0) by {
      assert |c| > 0 && AllDigits(c) && DigitsValue(c) == 0;
    }
  }

  /** An occupied seat fetched as `(row, col)` is held 0-based by the page;
      picking it and checking out sends the fetched coordinates again. */
  lemma WireCoordinatesReturn(section: string, wire: Coord)
    requires '-' !in section && wire.row >= 1 && wire.col >= 1
    ensures var held := FromWire(wire);
            DecodeSeat(SeatId(section, held.row, held.col)) == SeatEntry(section, Some(wire.row), Some(wire.col))
  {
    DecodeSeatIdAs(section, FromWire(wire).row, FromWire(wire).col, wire.row, wire.col);
  }

  /** `prepararAsientosSeleccionados`: `[]` when `selectedSeats` is missing
      or empty, otherwise one decoded entry per seat id, in order. */
  function Asientos(selected: Option<seq<string>>): (r: seq<SeatEntry>)
    ensures selected.None? ==> r == []
    ensures selected.Some? ==> |r| == |selected.value|
    ensures selected.Some? ==> forall i :: 0 <= i < |r| ==> r[i] == DecodeSeat(selected.value[i])
  {
    if selected.None? then [] else DecodeAll(selected.value)
  }

  /** One decoded entry per seat id, in order. */
  function DecodeAll(ids: seq<string>): (r: seq<SeatEntry>)
    ensures |r| == |ids|
    ensures forall i :: 0 <= i < |r| ==> r[i] == DecodeSeat(ids[i])
  {
    if |ids| == 0 then [] else [DecodeSeat(ids[0])] + DecodeAll(ids[1..])
  }

  // ---------------------------------------------------------------------------
  // Grouping by section
  // ---------------------------------------------------------------------------

  /** `{fila, columna}` */
  datatype Spot = Spot(fila: Option<int>, columna: Option<int>)

  /** `{seccion_key, asientos}` */
  datatype SectionGroup = SectionGroup(key: string, asientos: seq<Spot>)

  /** A seat with the key it is grouped under. */
  datatype Keyed = Keyed(key: string, spot: Spot)

  /** The index of the group with key `k`, or -1. */
  function IndexOfKey(groups: seq<SectionGroup>, k: string): (r: int)
    ensures -1 <= r < |groups|
    ensures r >= 0 ==> groups[r].key == k
    ensures r < 0 ==> forall i :: 0 <= i < |groups| ==> groups[i].key != k
  {
    if |groups| == 0 then -1
    else if groups[0].key == k then 0
    else
      var j := IndexOfKey(groups[1..], k);
      if j < 0 then -1 else j + 1
  }

  /** One step of the `forEach`: append to the key's array, creating it at
      the end of the object when the key is new. */
  function AddSeat(groups: seq<SectionGroup>, k: string, spot: Spot): (r: seq<SectionGroup>)
  {
    var j := IndexOfKey(groups, k);
    if j < 0 then groups + [SectionGroup(k, [spot])]
    else groups[j := SectionGroup(k, groups[j].asientos + [spot])]
  }

  /** The `forEach` over the seats followed by `Object.keys(...).map(...)`:
      groups in the order their keys were first met. */
  function GroupSeats(entries: seq<Keyed>): (r: seq<SectionGroup>)
  {
    if |entries| == 0 then []
    else
      var last := entries[|entries| - 1];
      AddSeat(GroupSeats(entries[..|entries| - 1]), last.key, last.spot)
  }

  /** The keys of the entries, in order. */
  function KeysOf(entries: seq<Keyed>): (r: seq<string>)
    ensures |r| == |entries|
    ensures forall i :: 0 <= i < |entries| ==> r[i] == entries[i].key
  {
    seq(|entries|, i requires 0 <= i < |entries| => entries[i].key)
  }

  /** Each key once, at its first occurrence. */
  function FirstOccurrences(ks: seq<string>): (r: seq<string>)
    ensures NoDup(r)
    ensures forall k :: k in r <==> k in ks
  {
    if |ks| == 0 then []
    else
      var init := FirstOccurrences(ks[..|ks| - 1]);
      var last := ks[|ks| - 1];
      assert forall k :: k in ks <==> k in ks[..|ks| - 1] || k == last;
      if last in init then init else init + [last]
  }

  /** The spots of the entries with key `k`, in order. */
  function SpotsWithKey(entries: seq<Keyed>, k: string): (r: seq<Spot>)
    ensures |r| <= |entries|
  {
    if |entries| == 0 then []
    else
      var last := entries[|entries| - 1];
      SpotsWithKey(entries[..|entries| - 1], k) + (if last.key == k then [last.spot] else [])
  }

  lemma {:induction false} NoSpotsForAbsentKey(entries: seq<Keyed>, k: string)
    requires k !in KeysOf(entries)
    ensures SpotsWithKey(entries, k) == []
  {
    if |entries| > 0 {
      var init := entries[..|entries| - 1];
      assert forall j :: 0 <= j < |init| ==> KeysOf(init)[j] == KeysOf(entries)[j];
      NoSpotsForAbsentKey(init, k);
    }
  }

  /** The groups are exactly one per distinct key, in first-occurrence
      order, each holding the seats with that key in their original order. */
  lemma {:induction false} GroupSeatsSpec(entries: seq<Keyed>)
    ensures var g := GroupSeats(entries);
            var ks := FirstOccurrences(KeysOf(entries));
            && |g| == |ks|
            && forall i :: 0 <= i < |g| ==> g[i].key == ks[i] && g[i].asientos == SpotsWithKey(entries, ks[i])
  {
    if |entries| > 0 {
      var n := |entries| - 1;
      var init, last := entries[..n], entries[n];
      GroupSeatsSpec(init);
      var g0 := GroupSeats(init);
      var ks0 := FirstOccurrences(KeysOf(init));
      assert KeysOf(entries)[..n] == KeysOf(init);
      var j := IndexOfKey(g0, last.key);
      var g := GroupSeats(entries);
      var ks := FirstOccurrences(KeysOf(entries));
      if j < 0 {
        assert last.key !in ks0;
        assert last.key !in KeysOf(init);
        NoSpotsForAbsentKey(init, last.key);
        assert g == g0 + [SectionGroup(last.key, [last.spot])];
        assert ks == ks0 + [last.key];
      } else {
        assert last.key in ks0;
        assert g == g0[j := SectionGroup(last.key, g0[j].asientos + [last.spot])];
        assert ks == ks0;
      }
      forall i | 0 <= i < |g|
        ensures g[i].key == ks[i] && g[i].asientos == SpotsWithKey(entries, ks[i])
      {
        if i < |g0| && i != j {
          assert g[i] == g0[i];
          assert ks[i] == ks0[i] != last.key;
        }
      }
    }
  }

  /** The number of seats over all groups. */
  function SeatTotal(groups: seq<SectionGroup>): nat {
    if |groups| == 0 then 0
    else SeatTotal(groups[..|groups| - 1]) + |groups[|groups| - 1].asientos|
  }

  lemma {:induction false} SeatTotalAppend(a: seq<SectionGroup>, g: SectionGroup)
    ensures SeatTotal(a + [g]) == SeatTotal(a) + |g.asientos|
  {
    assert (a + [g])[..|a|] == a;
  }

  lemma {:induction false} SeatTotalUpdate(groups: seq<SectionGroup>, j: nat, g: SectionGroup)
    requires j < |groups|
    ensures SeatTotal(groups[j := g]) == SeatTotal(groups) - |groups[j].asientos| + |g.asientos|
  {
    var n := |groups| - 1;
    var u := groups[j := g];
    if j < n {
      assert u[..n] == groups[..n][j := g];
      SeatTotalUpdate(groups[..n], j, g);
    } else {
      assert u[..n] == groups[..n];
    }
  }

  /** Every seat lands in some group once: the group sizes add up to the
      number of seats. */
  lemma {:induction false} GroupSizesSum(entries: seq<Keyed>)
    ensures SeatTotal(GroupSeats(entries)) == |entries|
  {
    if |entries| > 0 {
      var n := |entries| - 1;
      var g0 := GroupSeats(entries[..n]);
      GroupSizesSum(entries[..n]);
      var last := entries[n];
      var j := IndexOfKey(g0, last.key);
      if j < 0 {
        SeatTotalAppend(g0, SectionGroup(last.key, [last.spot]));
      } else {
        SeatTotalUpdate(g0, j, SectionGroup(last.key, g0[j].asientos + [last.spot]));
      }
    }
  }

  /** The seat ids with the key each is grouped under. */
  function KeyedSeats(selected: seq<string>, normalize: bool): (r: seq<Keyed>)
    ensures |r| == |selected|
    ensures forall i :: 0 <= i < |selected| ==>
              var e := DecodeSeat(selected[i]);
              r[i] == Keyed(if normalize then NormalizeKey(e.seccion) else e.seccion, Spot(e.fila, e.columna))
  {
    seq(|selected|, i requires 0 <= i < |selected| =>
      var e := DecodeSeat(selected[i]);
      Keyed(if normalize then NormalizeKey(e.seccion) else e.seccion, Spot(e.fila, e.columna)))
  }

  /** `prepararSeccionesInfo`: the seats grouped by
      `section.toLowerCase().replace(/\s+/g, "")`. */
  function SeccionesInfo(selected: seq<string>): (r: seq<SectionGroup>)
    ensures var ks := FirstOccurrences(KeysOf(KeyedSeats(selected, true)));
            && |r| == |ks|
            && (forall i :: 0 <= i < |r| ==>
                  r[i].key == ks[i] && r[i].asientos == SpotsWithKey(KeyedSeats(selected, true), ks[i]))
    ensures SeatTotal(r) == |selected|
    ensures forall i :: 0 <= i < |r| ==> NormalizeKey(r[i].key) == r[i].key
  {
    var entries := KeyedSeats(selected, true);
    GroupSeatsSpec(entries);
    GroupSizesSum(entries);
    var r := GroupSeats(entries);
    forall i | 0 <= i < |r| ensures NormalizeKey(r[i].key) == r[i].key {
      var ks := FirstOccurrences(KeysOf(entries));
      assert ks[i] in ks;
      var n :| 0 <= n < |entries| && KeysOf(entries)[n] == ks[i];
      NormalizeKeyIdempotent(DecodeSeat(selected[n]).seccion);
    }
    r
  }

  /** Each seat belongs to exactly one group: the one under its own key. */
  lemma SeatInOneGroup(selected: seq<string>, n: nat)
    requires n < |selected|
    ensures var r := SeccionesInfo(selected);
            var k := NormalizeKey(DecodeSeat(selected[n]).seccion);
            && (exists i :: 0 <= i < |r| && r[i].key == k)
            && forall i, j :: 0 <= i < |r| && 0 <= j < |r| && r[i].key == k && r[j].key == k ==> i == j
  {
    var r := SeccionesInfo(selected);
    var entries := KeyedSeats(selected, true);
    var ks := FirstOccurrences(KeysOf(entries));
    var k := NormalizeKey(DecodeSeat(selected[n]).seccion);
    assert KeysOf(entries)[n] == k;
    assert k in ks;
    var i :| 0 <= i < |ks| && ks[i] == k;
    assert r[i].key == k;
  }

  // ---------------------------------------------------------------------------
  // Ticket details
  // ---------------------------------------------------------------------------

  /** The two event fields the checkout looks at: `eventData.tipo_evento`
      and `eventData.originalData.tipo_evento` (`None` when missing). */
  datatype EventInfo = EventInfo(tipoEvento: Option<string>, originalTipo: Option<string>)

  predicate IsMuseum(event: EventInfo) {
    event.tipoEvento == Some("museum")
  }

  predicate IsCinema(event: EventInfo) {
    event.tipoEvento == Some("cinema") || event.originalTipo == Some("Cine")
  }

  /** `categoriasMap` of the theater sections. */
  const SectionCategories: map<string, int> :=
    map["general" := 1, "balconIzquierdo" := 2, "balconDerecho" := 2, "palco" := 3, "platea" := 4]

  /** `getCategoryIdBySection`: the table's id, or General (1) for any
      other key. */
  function CategoryIdBySection(section: string): (r: int)
    ensures 1 <= r <= 4
    ensures r == 1 <==> section !in SectionCategories || section == "general"
    ensures section in SectionCategories ==> r == SectionCategories[section]
  {
    if section in SectionCategories then SectionCategories[section] else 1
  }

  /** Every ticket type of the theater page has its section in the table:
      platea 4, palco 3, both balcony sides 2 and general 1, so only the
      general type is filed under General. */
  lemma TheaterTypesCategorised(types: Cart)
    requires types == Theater.InitialTypes()
    ensures forall i :: 0 <= i < |types| ==> types[i].section in SectionCategories
    ensures forall i :: 0 <= i < |types| ==> CategoryIdBySection(types[i].section) == [4, 3, 2, 2, 1][i]
  {
  }

  /** `getCategoryIdForMuseum`: 1 for a museum, the type's own id for a
      cinema, the section table otherwise. */
  function CategoryId(event: EventInfo, t: TicketType): (r: int)
    ensures IsMuseum(event) ==> r == 1
    ensures !IsMuseum(event) && IsCinema(event) ==> r == t.id
    ensures !IsMuseum(event) && !IsCinema(event) ==> 1 <= r <= 4
  {
    if IsMuseum(event) then 1
    else if IsCinema(event) then t.id
    else CategoryIdBySection(t.section)
  }

  /** `{categoria_boleto_id, cantidad, precio_unitario, subtotal}` */
  datatype TicketDetail = TicketDetail(categoria: int, cantidad: int, precioUnitario: int, subtotal: int)

  /** `prepararTicketDetails`: one line per type with a positive quantity,
      in order. */
  function TicketDetails(event: EventInfo, types: Cart): (r: seq<TicketDetail>)
    ensures |r| == |Selected(types)|
    ensures forall i :: 0 <= i < |r| ==>
              var t := Selected(types)[i];
              && r[i].categoria == CategoryId(event, t)
              && r[i].cantidad == t.quantity > 0
              && r[i].precioUnitario == t.price
              && r[i].subtotal == t.price * t.quantity
  {
    var sel := Selected(types);
    seq(|sel|, i requires 0 <= i < |sel| =>
      TicketDetail(CategoryId(event, sel[i]), sel[i].quantity, sel[i].price, sel[i].price * sel[i].quantity))
  }

  function SubtotalSum(details: seq<TicketDetail>): int {
    if |details| == 0 then 0
    else SubtotalSum(details[..|details| - 1]) + details[|details| - 1].subtotal
  }

  function QuantitySum(details: seq<TicketDetail>): int {
    if |details| == 0 then 0
    else QuantitySum(details[..|details| - 1]) + details[|details| - 1].cantidad
  }

  lemma {:induction false} DetailSums(event: EventInfo, sel: Cart, details: seq<TicketDetail>)
    requires |details| == |sel|
    requires forall i :: 0 <= i < |sel| ==>
               details[i].cantidad == sel[i].quantity && details[i].subtotal == sel[i].price * sel[i].quantity
    ensures SubtotalSum(details) == Total(sel)
    ensures QuantitySum(details) == TicketCount(sel)
  {
    if |sel| > 0 {
      var n := |sel| - 1;
      DetailSums(event, sel[..n], details[..n]);
    }
  }

  /** The lines add up to the cart: their subtotals to the total and their
      quantities to the ticket count. */
  lemma TicketDetailsAddUp(event: EventInfo, types: Cart)
    requires NonNegative(types)
    ensures SubtotalSum(TicketDetails(event, types)) == Total(types)
    ensures QuantitySum(TicketDetails(event, types)) == TicketCount(types)
  {
    DetailSums(event, Selected(types), TicketDetails(event, types));
    SelectedKeepsTotals(types);
  }

  // ---------------------------------------------------------------------------
  // Total
  // ---------------------------------------------------------------------------

  /** `calculatedTotal`: the `total` handed over when it is truthy (present
      and not 0), otherwise the sum over the ticket types, or 0 without
      them. */
  function CalculatedTotal(total: Option<int>, types: Option<Cart>): (r: int)
    ensures total.Some? && total.value != 0 ==> r == total.value
    ensures (total.None? || total.value == 0) && types.Some? ==> r == Total(types.value)
    ensures (total.None? || total.value == 0) && types.None? ==> r == 0
    ensures types.Some? && (total.None? || total.value == Total(types.value)) ==> r == Total(types.value)
  {
    if total.Some? && total.value != 0 then total.value
    else if types.Some? then Total(types.value)
    else 0
  }

  // ---------------------------------------------------------------------------
  // Seat display
  // ---------------------------------------------------------------------------

  /** `String.fromCharCode(65 + parseInt(row))`: the UTF-16 code unit
      `(65 + row) mod 2^16`; `NaN` gives U+0000. A code unit in the
      surrogate range, which is no character on its own, is shown as
      U+FFFD. */
  function RowLetter(row: Option<int>): (c: char)
    ensures row.Some? && 0 <= row.value < 26 ==> c as int == 'A' as int + row.value && IsAsciiUpper(c)
    ensures row.None? ==> c == '\0'
  {
    if row.None? then '\0'
    else
      var u := (65 + row.value) % 0x1_0000;
      if 0xD800 <= u < 0xE000 then '\U{FFFD}' else u as char
  }

  /** A number in a template string: `NaN` prints as "NaN". */
  function NumberText(n: Option<int>): (r: string)
    ensures n.Some? && n.value >= 0 ==> r == NatToString(n.value)
    ensures n.None? ==> r == "NaN"
  {
    if n.None? then "NaN" else IntToString(n.value)
  }

  /** `sectionNames[section] || section`: the display name, or the key. */
  function DisplayName(names: map<string, string>, section: string): (r: string)
    ensures section in names && names[section] != "" ==> r == names[section]
    ensures section !in names ==> r == section
  {
    if section in names && names[section] != "" then names[section] else section
  }

  /** The body of every `formatSeatDisplay`: the section's display name, a
      space, the row as a letter and the 1-based column. */
  function SeatDisplay(names: map<string, string>, id: string): (r: string)
    ensures var name := DisplayName(names, Split(id, '-')[0]);
            |r| >= |name| + 2 && r[..|name|] == name && r[|name|] == ' '
  {
    var parts := Split(id, '-');
    var name := DisplayName(names, parts[0]);
    var r := name + " " + [RowLetter(ParsePiece(Piece(parts, 1)))] + NumberText(PlusOne(ParsePiece(Piece(parts, 2))));
    assert r[..|name|] == name && r[|name|] == ' ' by {
      PrefixOfConcat(name, " ", [RowLetter(ParsePiece(Piece(parts, 1)))], NumberText(PlusOne(ParsePiece(Piece(parts, 2)))));
    }
    r
  }

  lemma PrefixOfConcat(a: string, b: string, c: string, d: string)
    requires |b| > 0
    ensures (a + b + c + d)[..|a|] == a && (a + b + c + d)[|a|] == b[0]
  {
    assert a + b + c + d == a + (b + c + d);
  }

  /** A picked seat is shown as its section's name, the row's letter and
      the 1-based column. */
  lemma SeatDisplayOfSeatId(names: map<string, string>, section: string, row: nat, col: nat)
    requires '-' !in section && row < 26
    ensures SeatDisplay(names, SeatId(section, row, col))
              == DisplayName(names, section) + " " + [('A' as int + row) as char] + NatToString(col + 1)
  {
    SplitSeatId(section, row, col);
    DisplayFromParts(names, SeatId(section, row, col), section, row, col);
  }

  /** The label of an id that splits into a section and the texts of two
      numbers. */
  lemma DisplayFromParts(names: map<string, string>, id: string, section: string, row: nat, col: nat)
    requires Split(id, '-') == [section, NatToString(row), NatToString(col)] && row < 26
    ensures SeatDisplay(names, id)
              == DisplayName(names, section) + " " + [('A' as int + row) as char] + NatToString(col + 1)
  {
    var parts := Split(id, '-');
    RowPiece(parts, row);
    ColumnPiece(parts, col);
  }

  lemma RowPiece(parts: seq<string>, row: nat)
    requires 1 < |parts| && parts[1] == NatToString(row) && row < 26
    ensures RowLetter(ParsePiece(Piece(parts, 1))) == ('A' as int + row) as char
  {
    NatPiece(parts, 1, row);
  }

  lemma ColumnPiece(parts: seq<string>, col: nat)
    requires 2 < |parts| && parts[2] == NatToString(col)
    ensures NumberText(PlusOne(ParsePiece(Piece(parts, 2)))) == NatToString(col + 1)
  {
    NatPiece(parts, 2, col);
  }

  /** `sectionNames` of this page, with both balcony sides. */
  const CheckoutNames: map<string, string> :=
    map["general" := "General", "platea" := "Platea", "palco" := "Palco",
        "balconIzquierdo" := "Balcón Izquierdo", "balconDerecho" := "Balcón Derecho", "balcon" := "Balcón"]

  /** `formatSeatDisplay` of this page: the empty id shows as nothing. */
  function FormatSeatDisplay(id: string): (r: string)
    ensures id == "" ==> r == ""
    ensures id != "" ==> r == SeatDisplay(CheckoutNames, id)
  {
    if id == "" then "" else SeatDisplay(CheckoutNames, id)
  }

  // ---------------------------------------------------------------------------
  // The transaction
  // ---------------------------------------------------------------------------

  datatype PayMethod = Credit | Debit | PayPal

  /** The transaction body: `usuario_id`, `metodo_pago`, `total_pagado`,
      `asientos_seleccionados`, `secciones_info`, `ticket_details`,
      `tipo_evento`, `whatsapp_number`. */
  datatype Transaction = Transaction(
    userId: int, metodoPago: string, totalPagado: int,
    asientos: seq<SeatEntry>, secciones: seq<SectionGroup>, details: seq<TicketDetail>,
    tipoEvento: string, whatsapp: string)

  /** What the summary page receives: the seats (none for a museum), the
      selected types, the total, the payment method and the museum flag. */
  datatype SummaryState = SummaryState(seats: seq<string>, types: Cart, total: int, paymentMethod: string, isMuseum: bool)

  datatype Submission = Submission(transaction: Transaction, summary: SummaryState)

  datatype SubmitError =
    | WhatsAppInvalid(reason: WhatsAppError)
    | CardInvalid
    | UserMissing
    | SeatsMissing

  /** `handleCardSubmit` and `handlePayPalPayment` up to the request: the
      WhatsApp number is checked first, then (for a card) the card form,
      then the stored user (a missing or zero id is refused); a museum
      sends no seats and no sections, any other event sends the decoded and
      grouped seats, and with no seat list the grouping throws. */
  function Submit(via: PayMethod, whatsapp: string, card: CardData, fullYear: int, monthIndex: int,
                  userId: Option<int>, event: EventInfo, selected: Option<seq<string>>,
                  types: Cart, total: Option<int>): (r: Result<Submission, SubmitError>)
    ensures ValidateWhatsApp(whatsapp).Some? <==> r.Err? && r.error.WhatsAppInvalid?
    ensures ValidateWhatsApp(whatsapp).Some? ==> r == Err(WhatsAppInvalid(ValidateWhatsApp(whatsapp).value))
    ensures r.Err? && r.error.CardInvalid? <==>
              ValidateWhatsApp(whatsapp).None? && via != PayPal && !FormValid(card, fullYear, monthIndex)
    ensures r.Ok? ==> userId.Some? && userId.value != 0 && r.value.transaction.userId == userId.value
    ensures r.Ok? ==> var t := r.value.transaction;
              && t.whatsapp == FormatWhatsApp(whatsapp) && |t.whatsapp| >= 10
              && t.totalPagado == CalculatedTotal(total, Some(types))
              && t.details == TicketDetails(event, types)
              && t.metodoPago == (if via == PayPal then "paypal" else "tarjeta")
              && r.value.summary.types == Selected(types)
              && r.value.summary.total == t.totalPagado
    ensures r.Ok? && via == Credit ==> r.value.summary.paymentMethod == "Credit Card"
    ensures r.Ok? && via == Debit ==> r.value.summary.paymentMethod == "Debit Card"
    ensures r.Ok? && via == PayPal ==> r.value.summary.paymentMethod == "PayPal"
    ensures r.Ok? && IsMuseum(event) ==>
              && r.value.transaction.asientos == [] && r.value.transaction.secciones == []
              && r.value.transaction.tipoEvento == "Museo" && r.value.summary.seats == []
    ensures r.Ok? && !IsMuseum(event) ==>
              && selected.Some?
              && r.value.transaction.asientos == Asientos(selected)
              && r.value.transaction.secciones == SeccionesInfo(selected.value)
              && r.value.transaction.tipoEvento == "Teatro"
              && r.value.summary.seats == selected.value
    ensures r == Err(SeatsMissing) <==>
              && ValidateWhatsApp(whatsapp).None?
              && (via == PayPal || FormValid(card, fullYear, monthIndex))
              && userId.Some? && userId.value != 0
              && !IsMuseum(event) && selected.None?
  {
    if ValidateWhatsApp(whatsapp).Some? then Err(WhatsAppInvalid(ValidateWhatsApp(whatsapp).value))
    else if via != PayPal && !FormValid(card, fullYear, monthIndex) then Err(CardInvalid)
    else if userId.None? || userId.value == 0 then Err(UserMissing)
    else
      var amount := CalculatedTotal(total, Some(types));
      var metodo := if via == PayPal then "paypal" else "tarjeta";
      var shown := if via == Credit then "Credit Card" else if via == Debit then "Debit Card" else "PayPal";
      WhatsAppLength(whatsapp);
      var phone := FormatWhatsApp(whatsapp);
      var details := TicketDetails(event, types);
      if IsMuseum(event) then
        Ok(Submission(Transaction(userId.value, metodo, amount, [], [], details, "Museo", phone),
                      SummaryState([], Selected(types), amount, shown, true)))
      else if selected.None? then Err(SeatsMissing)
      else
        Ok(Submission(Transaction(userId.value, metodo, amount, Asientos(selected), SeccionesInfo(selected.value),
                                  details, "Teatro", phone),
                      SummaryState(selected.value, Selected(types), amount, shown, false)))
  }

  /** A number that passes the WhatsApp check is sent with at least ten digits. */
  lemma WhatsAppLength(whatsapp: string)
    requires ValidateWhatsApp(whatsapp).None?
    ensures |FormatWhatsApp(whatsapp)| >= 10
  {
  }

  /** Whatever seats the museum flow carries, its transaction has no seats
      and no sections. */
  lemma MuseumIgnoresSeats(via: PayMethod, whatsapp: string, card: CardData, fullYear: int, monthIndex: int,
                           userId: Option<int>, event: EventInfo, a: Option<seq<string>>, b: Option<seq<string>>,
                           types: Cart, total: Option<int>)
    requires IsMuseum(event)
    ensures Submit(via, whatsapp, card, fullYear, monthIndex, userId, event, a, types, total)
         == Submit(via, whatsapp, card, fullYear, monthIndex, userId, event, b, types, total)
  {
  }
}

=== FILE: cinema.dfy ===
/** The cinema page: the room type of the screening picks the ticket
    categories and the seat section, both joined on the normalised key
    (lower case, whitespace removed). */
module Cinema {
  import opened Wrappers
  import opened JsStrings
  import opened Cart
  import opened Seats
  import opened Picker

  /** `getRoomTypeFromEvent` for an event whose `originalData` carries the
      optional `nombre_seccion`: a missing or empty name gives "". */
  function RoomType(sectionName: Option<string>): (r: string)
    ensures sectionName.None? || sectionName.value == [] ==> r == []
    ensures sectionName.Some? ==> r == NormalizeKey(sectionName.value)
    ensures NoSpaces(r) && forall i :: 0 <= i < |r| ==> !HasLower(r[i])
  {
    match sectionName
    case None => []
    case Some(n) => NormalizeKey(n)
  }

  /** The screen name of the event and the key of the mock room agree. */
  lemma ScreenXKey(name: string)
    requires name == "Screen X"
    ensures RoomType(Some(name)) == "screenx" && "screenx" in CinemaRooms()
  {
    var lower := ToLower(name);
    LowerScreenX(name);
    StripScreenX(lower);
  }

  lemma LowerScreenX(s: string)
    requires s == "Screen X"
    ensures ToLower(s) == "screen x"
  {
    var l, t := ToLower(s), "screen x";
    assert ToLowerChar('S') == 's' && ToLowerChar('X') == 'x';
    forall i | 0 <= i < 8 ensures l[i] == t[i] {
      assert l[i] == ToLowerChar(s[i]);
      if i != 0 && i != 7 {
        assert s[i] == t[i] && !HasLower(s[i]);
      }
    }
  }

  lemma StripScreenX(s: string)
    requires s == "screen x"
    ensures RemoveSpaces(s) == "screenx"
  {
    var screen, tail := s[..6], s[6..];
    assert screen == "screen" && tail == " x";
    assert s == screen + tail;
    RemoveSpacesAppend(screen, tail);
    NoSpacesScreen(screen);
    assert RemoveSpaces(tail) == "x" by {
      assert tail[1..] == "x";
      assert IsSpace(tail[0]);
      assert NoSpaces(tail[1..]);
    }
  }

  lemma NoSpacesScreen(s: string)
    requires s == "screen"
    ensures RemoveSpaces(s) == s
  {
    forall i | 0 <= i < 6 ensures !IsSpace(s[i]) {
      assert IsAsciiLower(s[i]);
    }
  }

  /** `getDefaultPriceForRoomType`: the table price of the nine known rooms,
      and 100 for any other key. */
  function DefaultPrice(roomType: string): (p: int)
    ensures roomType in CinemaRooms() ==> p == CinemaRooms()[roomType].price
    ensures roomType !in CinemaRooms() ==> p == 100
  {
    if roomType == "tradicional" then 100
    else if roomType == "plus" then 130
    else if roomType == "vip" then 200
    else if roomType == "macroxe" then 150
    else if roomType == "junior" then 90
    else if roomType == "4dx" then 180
    else if roomType == "imax" then 160
    else if roomType == "vr" then 250
    else if roomType == "screenx" then 180
    else 100
  }

  /** `roomType.charAt(0).toUpperCase() + roomType.slice(1)` */
  function Capitalize(s: string): (r: string)
    ensures |s| == 0 ==> r == []
    ensures |s| > 0 && s[0] != '\U{00DF}' ==> |r| == |s| && r[0] == ToUpperChar(s[0]) && r[1..] == s[1..]
    ensures |s| > 0 && s[0] == '\U{00DF}' ==> r == "SS" + s[1..]
  {
    if |s| == 0 then [] else UpperText(s[0]) + s[1..]
  }

  /** The fallback category's name normalises back to the room type it was
      built from, except for a leading micro sign or sharp s: upper-cased,
      the micro sign becomes the Greek capital mu, which lower-cases to the
      Greek small mu, and the sharp s becomes `SS`, which lower-cases to `ss`. */
  lemma NormalizeCapitalized(key: string)
    requires NoSpaces(key) && forall i :: 0 <= i < |key| ==> !HasLower(key[i])
    ensures (|key| == 0 || key[0] !in {'\U{00B5}', '\U{00DF}'}) ==> NormalizeKey(Capitalize(key)) == key
    ensures |key| > 0 && key[0] == '\U{00B5}' ==> NormalizeKey(Capitalize(key)) == ['\U{03BC}'] + key[1..]
    ensures |key| > 0 && key[0] == '\U{00DF}' ==> NormalizeKey(Capitalize(key)) == "ss" + key[1..]
  {
    if |key| > 0 && key[0] == '\U{00DF}' {
      SharpCapitalized(key);
    } else if |key| > 0 {
      var c := Capitalize(key);
      if HasUpper(key[0]) {
        LowerOfUpper(key[0]);
      }
      var first := ToLowerChar(ToUpperChar(key[0]));
      assert first == if key[0] == '\U{00B5}' then '\U{03BC}' else key[0];
      var want := [first] + key[1..];
      var l := ToLower(c);
      forall i | 0 <= i < |key| ensures l[i] == want[i] {
        if i > 0 {
          assert c[i] == key[i];
        }
      }
      assert l == want;
      assert NoSpaces(want) by {
        assert forall i :: 1 <= i < |want| ==> want[i] == key[i];
      }
      NormalizeKeyOfKey(want);
    }
  }

  /** A room type starting with the sharp s: its capitalised name starts
      with `SS` and normalises to `ss` followed by the rest of the key. */
  lemma SharpCapitalized(key: string)
    requires NoSpaces(key) && forall i :: 0 <= i < |key| ==> !HasLower(key[i])
    requires |key| > 0 && key[0] == '\U{00DF}'
    ensures NormalizeKey(Capitalize(key)) == "ss" + key[1..]
  {
    var c := Capitalize(key);
    var want := "ss" + key[1..];
    var l := ToLower(c);
    forall i | 0 <= i < |want| ensures l[i] == want[i] {
      if i >= 2 {
        assert c[i] == key[i - 1];
      }
    }
    assert l == want;
    assert NoSpaces(want) by {
      assert forall i :: 2 <= i < |want| ==> want[i] == key[i - 1];
    }
    assert forall i :: 0 <= i < |want| ==> !HasLower(want[i]) by {
      assert forall i :: 2 <= i < |want| ==> want[i] == key[i - 1];
    }
    NormalizeKeyOfKey(want);
  }

  /** One ticket category: `id_categoria || id`, `nombre_categoria` and the
      base price. */
  datatype Category = Category(id: int, name: string, price: int)

  /** The categories response: an array, an object wrapping an array under
      `categories` or `data`, or anything else. */
  datatype CategoryResponse =
    | CategoryArray(categories: seq<Category>)
    | CategoryWrapped(categories: seq<Category>)
    | Unexpected

  /** The categories used when the response has an unexpected shape. */
  function BasicCategories(): seq<Category> {
    [Category(1, "Tradicional", 100), Category(2, "Plus", 130), Category(3, "VIP", 200)]
  }

  /** The categories whose normalised name is the room type, in order. */
  function Matching(categories: seq<Category>, roomType: string): (r: seq<Category>)
    ensures forall c :: c in r <==> c in categories && NormalizeKey(c.name) == roomType
    ensures |r| <= |categories|
  {
    if |categories| == 0 then []
    else
      var init := Matching(categories[..|categories| - 1], roomType);
      var last := categories[|categories| - 1];
      assert forall c :: c in categories <==> c in categories[..|categories| - 1] || c == last;
      if NormalizeKey(last.name) == roomType then init + [last] else init
  }

  function TypeOf(c: Category): TicketType {
    TicketType(c.id, c.name, c.price, 0, NormalizeKey(c.name))
  }

  function TypesOf(categories: seq<Category>): (r: Cart)
    ensures |r| == |categories|
    ensures forall i :: 0 <= i < |r| ==> r[i] == TypeOf(categories[i])
  {
    if |categories| == 0 then [] else [TypeOf(categories[0])] + TypesOf(categories[1..])
  }

  /** `fetchCinemaCategories`. No room type gives the single "Tradicional"
      type. A failed request (`None`) gives one type named after the room at
      the table's default price, whose section is the room type itself.
      Otherwise the response is filtered to the room's categories; when none
      match, the fallback category named after the room is made into a type
      like any other category. */
  function InitialTypes(roomType: string, response: Option<CategoryResponse>): (r: Cart)
    requires NoSpaces(roomType) && forall i :: 0 <= i < |roomType| ==> !HasLower(roomType[i])
    ensures roomType == [] ==> r == [TicketType(1, "Tradicional", 100, 0, "tradicional")]
    ensures |r| >= 1 && NonNegative(r) && AtMost(r, MaxPerType)
    ensures forall i :: 0 <= i < |r| ==> r[i].quantity == 0
    ensures roomType != [] && (response.None? || roomType[0] !in {'\U{00B5}', '\U{00DF}'}) ==>
              forall i :: 0 <= i < |r| ==> r[i].section == roomType
    ensures roomType != [] && response.None? ==>
              && |r| == 1 && r[0].id == 1 && r[0].name == Capitalize(roomType)
              && r[0].price == DefaultPrice(roomType) && r[0].section == roomType
    ensures roomType != [] && response.Some? ==>
              var cats := if response.value.Unexpected? then BasicCategories() else response.value.categories;
              (Matching(cats, roomType) != [] ==> r == TypesOf(Matching(cats, roomType)))
              && (Matching(cats, roomType) == [] ==> r == [FallbackType(roomType)])
  {
    if roomType == [] then [TicketType(1, "Tradicional", 100, 0, "tradicional")]
    else
      match response
      case None => [TicketType(1, Capitalize(roomType), DefaultPrice(roomType), 0, roomType)]
      case Some(resp) =>
        var cats := if resp.Unexpected? then BasicCategories() else resp.categories;
        var matching := Matching(cats, roomType);
        if matching == [] then [FallbackType(roomType)] else MatchingTypes(matching, roomType)
  }

  /** The type made from the fallback category when no category matches:
      id 1, the capitalised room type at the default price, and the normalised name as its section,
      which is the room type unless that starts with the micro sign or the
      sharp s. */
  function FallbackType(roomType: string): (t: TicketType)
    requires roomType != [] && NoSpaces(roomType) && forall i :: 0 <= i < |roomType| ==> !HasLower(roomType[i])
    ensures t.id == 1 && t.name == Capitalize(roomType) && t.price == DefaultPrice(roomType) && t.quantity == 0
    ensures roomType[0] !in {'\U{00B5}', '\U{00DF}'} ==> t.section == roomType
    ensures roomType[0] == '\U{00B5}' ==> t.section == ['\U{03BC}'] + roomType[1..]
    ensures roomType[0] == '\U{00DF}' ==> t.section == "ss" + roomType[1..]
  {
    NormalizeCapitalized(roomType);
    TypeOf(Category(1, Capitalize(roomType), DefaultPrice(roomType)))
  }

  /** When no category matches a room type starting with the micro sign,
      the fallback type's section is not the room type, so it is not the key
      of the room's mock seats either. */
  lemma MicroRoomFallbackMisses(roomType: string)
    requires roomType == "\U{00B5}x"
    ensures InitialTypes(roomType, Some(CategoryArray([])))[0].section == "\U{03BC}x" != roomType
    ensures InitialTypes(roomType, Some(CategoryArray([])))[0].section !in MockSeats(roomType)
  {
    assert roomType[1..] == "x";
  }

  /** The same for a room type starting with the sharp s. */
  lemma SharpRoomFallbackMisses(roomType: string)
    requires roomType == "\U{00DF}x"
    ensures InitialTypes(roomType, Some(CategoryArray([])))[0].section == "ssx" != roomType
    ensures InitialTypes(roomType, Some(CategoryArray([])))[0].section !in MockSeats(roomType)
  {
    assert roomType[1..] == "x";
  }

  /** After a failed categories request the one type's section is the room
      type, which is the key of the room's mock seats: its tickets can be
      seated there, whatever the room's first character. */
  lemma FailedRequestJoinsMock(roomType: string)
    requires roomType != [] && NoSpaces(roomType) && forall i :: 0 <= i < |roomType| ==> !HasLower(roomType[i])
    ensures InitialTypes(roomType, None)[0].section in MockSeats(roomType)
  {
  }

  /** The types made from categories that all match the room type. */
  function MatchingTypes(matching: seq<Category>, roomType: string): (r: Cart)
    requires forall c :: c in matching ==> NormalizeKey(c.name) == roomType
    ensures |r| == |matching| && NonNegative(r) && AtMost(r, MaxPerType)
    ensures forall i :: 0 <= i < |r| ==> r[i].section == roomType && r[i].quantity == 0
    ensures r == TypesOf(matching)
  {
    assert forall i :: 0 <= i < |matching| ==> matching[i] in matching;
    TypesOf(matching)
  }

  // ---------------------------------------------------------------------------
  // Seat map
  // ---------------------------------------------------------------------------

  /** One entry of the `sections` array. `None` marks a missing field, a
      value that does not parse, or an `ocupados` that is not an array. */
  datatype WireSection = WireSection(
    name: Option<string>,
    price: Option<int>,
    rows: Option<int>,
    cols: Option<int>,
    occupied: Option<seq<Coord>>)

  /** What the seat request yields: a failure, an array of sections, or an
      object with `keyCount` keys that is not an array. */
  datatype SeatPayload =
    | SeatsFailed
    | SectionArray(sections: seq<WireSection>)
    | SectionObject(keyCount: nat)

  /** `x || d` on a number that may be missing or not a number. */
  function OrDefault(v: Option<int>, d: int): (r: int)
    ensures v.Some? && v.value != 0 ==> r == v.value
    ensures v.None? || v.value == 0 ==> r == d
  {
    if v.Some? && v.value != 0 then v.value else d
  }

  /** The normalised section name, or `section{index}` when it is empty. */
  function SectionKey(name: string, index: nat): (k: string)
    ensures NormalizeKey(name) != [] ==> k == NormalizeKey(name)
    ensures NormalizeKey(name) == [] ==> k == "section" + NatToString(index)
  {
    var key := NormalizeKey(name);
    if key != [] then key else "section" + NatToString(index)
  }

  function SectionOf(w: WireSection): (s: Section)
    requires w.name.Some?
    ensures s.name == w.name.value
    ensures w.price.None? || w.price.value == 0 ==> s.price == 100
    ensures w.price.Some? && w.price.value != 0 ==> s.price == w.price.value
    ensures w.rows.None? || w.rows.value == 0 ==> s.rows == 10
    ensures w.rows.Some? && w.rows.value != 0 ==> s.rows == w.rows.value
    ensures w.cols.None? || w.cols.value == 0 ==> s.cols == 6
    ensures w.cols.Some? && w.cols.value != 0 ==> s.cols == w.cols.value
    ensures forall row, col :: IsOccupied(s, row, col) <==> Coord(row + 1, col + 1) in w.occupied.GetOr([])
  {
    var s := Section(w.name.value, OrDefault(w.price, 100), OrDefault(w.rows, 10), OrDefault(w.cols, 6),
                     OccupiedFromWire(w.occupied.GetOr([])));
    assert forall row, col :: IsOccupied(s, row, col) <==> Coord(row + 1, col + 1) in w.occupied.GetOr([]) by {
      forall row, col ensures IsOccupied(s, row, col) <==> Coord(row + 1, col + 1) in w.occupied.GetOr([]) {
        OccupiedFromWireIff(w.occupied.GetOr([]), row, col);
      }
    }
    s
  }

  predicate AllNamed(sections: seq<WireSection>) {
    forall i :: 0 <= i < |sections| ==> sections[i].name.Some?
  }

  /** The keys of the array entries, in order. */
  function KeysOf(sections: seq<WireSection>): (r: seq<string>)
    requires AllNamed(sections)
    ensures |r| == |sections|
    ensures forall i :: 0 <= i < |r| ==> r[i] == SectionKey(sections[i].name.value, i)
  {
    seq(|sections|, i requires 0 <= i < |sections| && sections[i].name.Some? => SectionKey(sections[i].name.value, i))
  }

  function SectionsOf(sections: seq<WireSection>): (r: seq<Section>)
    requires AllNamed(sections)
    ensures |r| == |sections|
    ensures forall i :: 0 <= i < |r| ==> r[i] == SectionOf(sections[i])
  {
    if |sections| == 0 then [] else [SectionOf(sections[0])] + SectionsOf(sections[1..])
  }

  /** `transformedSeats[key] = ...` for each entry in order. */
  function Assign(keys: seq<string>, values: seq<Section>): (r: SeatMap)
    requires |keys| == |values|
    ensures forall k :: k in r <==> k in keys
  {
    if |keys| == 0 then map[]
    else
      var n := |keys| - 1;
      assert forall k :: k in keys <==> k in keys[..n] || k == keys[n];
      Assign(keys[..n], values[..n])[keys[n] := values[n]]
  }

  /** A key maps to the value of its last occurrence. */
  lemma {:induction false} AssignLastWins(keys: seq<string>, values: seq<Section>, i: nat)
    requires |keys| == |values| && i < |keys|
    requires keys[i] !in keys[i + 1..]
    ensures Assign(keys, values)[keys[i]] == values[i]
  {
    var n := |keys| - 1;
    if i < n {
      assert keys[i + 1..] == keys[..n][i + 1..] + [keys[n]];
      assert keys[..n][i] == keys[i];
      assert values[..n][i] == values[i];
      AssignLastWins(keys[..n], values[..n], i);
    }
  }

  /** The array entries in order, a later entry replacing an earlier one
      with the same key. */
  function Transform(sections: seq<WireSection>): (r: SeatMap)
    requires AllNamed(sections)
    ensures forall k :: k in r <==> k in KeysOf(sections)
    ensures forall i :: 0 <= i < |sections| && KeysOf(sections)[i] !in KeysOf(sections)[i + 1..] ==>
              r[SectionKey(sections[i].name.value, i)] == SectionOf(sections[i])
  {
    var r := Assign(KeysOf(sections), SectionsOf(sections));
    forall i | 0 <= i < |sections| && KeysOf(sections)[i] !in KeysOf(sections)[i + 1..]
      ensures r[SectionKey(sections[i].name.value, i)] == SectionOf(sections[i])
    {
      AssignLastWins(KeysOf(sections), SectionsOf(sections), i);
    }
    r
  }

  /** The fallback for the room: its mock section, or the `tradicional` one
      when the room is unknown, under the room-type key. */
  function MockSeats(roomType: string): (r: SeatMap)
    ensures r.Keys == {roomType}
    ensures roomType in CinemaRooms() ==> r[roomType] == CinemaRooms()[roomType]
    ensures roomType !in CinemaRooms() ==> r[roomType] == CinemaRooms()["tradicional"]
    ensures r[roomType].occupied == []
  {
    var rooms := CinemaRooms();
    map[roomType := if roomType in rooms then rooms[roomType] else rooms["tradicional"]]
  }

  /** `fetchSeats`: a failure, an empty payload or an entry without a name
      (which throws) gives the room's mock; a non-empty array is transformed;
      a non-empty object that is not an array leaves the map empty. */
  function SeatsFromFetch(roomType: string, payload: SeatPayload): (r: SeatMap)
    ensures payload.SeatsFailed? ==> r == MockSeats(roomType)
    ensures payload.SectionArray? && (payload.sections == [] || !AllNamed(payload.sections)) ==> r == MockSeats(roomType)
    ensures payload.SectionArray? && payload.sections != [] && AllNamed(payload.sections) ==> r == Transform(payload.sections)
    ensures payload.SectionObject? ==> (payload.keyCount == 0 ==> r == MockSeats(roomType)) && (payload.keyCount > 0 ==> r == map[])
  {
    match payload
    case SeatsFailed => MockSeats(roomType)
    case SectionObject(n) => if n == 0 then MockSeats(roomType) else map[]
    case SectionArray(sections) =>
      if sections == [] || !AllNamed(sections) then MockSeats(roomType)
      else Transform(sections)
  }

  /** A `sections` payload that makes `fetchSeats` throw: the request
      failed, or an entry has no `nombre_seccion`. */
  predicate Throws(payload: SeatPayload) {
    payload.SeatsFailed? || (payload.SectionArray? && !AllNamed(payload.sections))
  }

  /** The seat modal once loading ends. Without an event id nothing is
      fetched and the map stays `{}`. When `fetchSeats` throws, `seatsError`
      is set and the error box is shown instead of the mock it stores. Any
      other payload draws the stored map: the room's mock after an empty
      payload. */
  function ModalView(roomType: string, eventId: Option<int>, payload: SeatPayload): (v: SeatView)
    ensures !Fetches(eventId) ==> v == Layout(map[])
    ensures v.ErrorBox? <==> Fetches(eventId) && Throws(payload)
    ensures Fetches(eventId) && !Throws(payload) ==> v == Layout(SeatsFromFetch(roomType, payload))
    ensures Fetches(eventId) && payload in {SectionArray([]), SectionObject(0)} ==> v == Layout(MockSeats(roomType))
  {
    if !Fetches(eventId) then Layout(map[])
    else if Throws(payload) then ErrorBox
    else Layout(SeatsFromFetch(roomType, payload))
  }

  /** Categories and seat sections join on the same key: a ticket type made
      from a category is counted against the seat section whose name has the
      same normalised form. */
  lemma CategoryJoinsSection(c: Category, sections: seq<WireSection>, i: nat)
    requires AllNamed(sections) && i < |sections|
    requires NormalizeKey(c.name) != []
    requires NormalizeKey(sections[i].name.value) == NormalizeKey(c.name)
    ensures TypeOf(c).section in Transform(sections)
  {
  }

  /** The room's mock map has one key, so both counting rules keep the
      picks within capacity on it. */
  lemma MockPickerKeepsCapacity(roomType: string, cart: Cart, picks: seq<string>, section: string, row: nat, col: nat)
    requires WithinCapacity(ByPrefix, MockSeats(roomType), cart, picks)
    ensures var r := Toggle(ByPrefix, MockSeats(roomType), cart, picks, section, row, col);
            r.Ok? ==> WithinCapacity(ByPrefix, MockSeats(roomType), cart, r.value)
  {
    ToggleKeepsCapacity(ByPrefix, MockSeats(roomType), cart, picks, section, row, col);
  }

  /** On the room's mock, a purchase of the room's tickets can be seated:
      any seat of the room is free, so the first pick is accepted. */
  lemma MockAcceptsFirstPick(roomType: string, cart: Cart, row: nat, col: nat)
    requires TicketsBySection(cart, roomType) > 0
    ensures Toggle(ByPrefix, MockSeats(roomType), cart, [], roomType, row, col) == Ok([SeatId(roomType, row, col)])
  {
    var e: seq<string> := [];
    PickAllowed(ByPrefix, MockSeats(roomType), cart, e, roomType, row, col);
    assert e + [SeatId(roomType, row, col)] == [SeatId(roomType, row, col)];
  }
}

=== FILE: dates.dfy ===
/** The date classification of the visit calendar: weekends, the special
    dates of the year, past days, and the one kind a date is shown as.
    "Now" is a parameter; a date is its calendar day in local time, its
    day of the week and the milliseconds since local midnight. */
module Dates {
  import opened Wrappers
  import opened JsStrings

  /** A local calendar day: the full year, the month 1..12 (`getMonth() +
      1`), the day of the month and the day of the week, 0 for Sunday. */
  datatype CalendarDay = CalendarDay(year: int, month: nat, day: nat, weekday: nat)

  /** A point in local time: its calendar day and the milliseconds since
      that day's midnight. */
  datatype Moment = Moment(date: CalendarDay, millis: nat)

  /** `SPECIAL_DATES`: the holidays of 2025 as `YYYY-MM-DD`. */
  const SpecialDates: seq<string> := [
    "2025-01-01", "2025-02-05", "2025-03-21", "2025-05-01",
    "2025-09-16", "2025-11-20", "2025-12-25"
  ]

  /** `isWeekend`: Sunday or Saturday. */
  predicate IsWeekend(d: CalendarDay) {
    d.weekday == 0 || d.weekday == 6
  }

  /** The `${year}-${month}-${day}` text of a day, month and day padded to
      two digits. */
  function DateKey(d: CalendarDay): (r: string)
    ensures d.year >= 0 ==> Split(r, '-') == [NatToString(d.year), Pad2(d.month), Pad2(d.day)]
  {
    var y, m, dd := IntToString(d.year), Pad2(d.month), Pad2(d.day);
    if d.year >= 0 then
      NoDashInDigits(y);
      NoDashInDigits(m);
      NoDashInDigits(dd);
      SplitJoin3(y, m, dd, '-');
      y + "-" + m + "-" + dd
    else y + "-" + m + "-" + dd
  }

  lemma NoDashInDigits(s: string)
    requires AllDigits(s)
    ensures '-' !in s
  {
    assert !IsDigit('-');
  }

  /** The day, month and year can be read back from the text of a day of a
      year from 0 on whose month and day have at most two digits. */
  lemma DateKeyReadBack(d: CalendarDay)
    requires d.year >= 0 && d.month < 100 && d.day < 100
    ensures var parts := Split(DateKey(d), '-');
            && |parts| == 3
            && ParseInt(parts[0]) == Some(d.year)
            && ParseInt(parts[1]) == Some(d.month as int)
            && ParseInt(parts[2]) == Some(d.day as int)
  {
    var parts := Split(DateKey(d), '-');
    assert parts == [NatToString(d.year), Pad2(d.month), Pad2(d.day)];
    ParseNatToString(d.year);
    PadReadBack(d.month);
    PadReadBack(d.day);
  }

  /** A padded number below 100 reads back as itself. */
  lemma PadReadBack(n: nat)
    requires n < 100
    ensures ParseInt(Pad2(n)) == Some(n as int)
  {
    ParseDigits(Pad2(n));
  }

  /** Two days with the same text are the same calendar day, so whether a
      day is special depends on its year, month and day alone. */
  lemma DateKeyInjective(a: CalendarDay, b: CalendarDay)
    requires a.year >= 0 && a.month < 100 && a.day < 100
    requires b.year >= 0 && b.month < 100 && b.day < 100
    requires DateKey(a) == DateKey(b)
    ensures a.year == b.year && a.month == b.month && a.day == b.day
  {
    DateKeyReadBack(a);
    DateKeyReadBack(b);
  }

  /** `isSpecialDate(date, custom)`: the day's text is one of the special
      dates or one of the custom ones. */
  function IsSpecialDate(d: CalendarDay, custom: seq<string>): (r: bool)
    ensures r <==> DateKey(d) in SpecialDates || DateKey(d) in custom
  {
    DateKey(d) in SpecialDates + custom
  }

  /** Adding custom dates never takes a special day away. */
  lemma SpecialMonotone(d: CalendarDay, custom: seq<string>, more: seq<string>)
    requires IsSpecialDate(d, custom)
    ensures IsSpecialDate(d, custom + more)
    ensures IsSpecialDate(d, more + custom)
  {
  }

  /** Christmas 2025 is special whatever the custom dates. */
  lemma ChristmasIsSpecial(d: CalendarDay, custom: seq<string>)
    requires d.year == 2025 && d.month == 12 && d.day == 25
    ensures IsSpecialDate(d, custom)
  {
    ChristmasKey(d);
    assert SpecialDates[6] == "2025-12-25";
  }

  /** The text of Christmas 2025. */
  lemma ChristmasKey(d: CalendarDay)
    requires d.year == 2025 && d.month == 12 && d.day == 25
    ensures DateKey(d) == "2025-12-25"
  {
    var y, m, dd := NatToString(d.year), Pad2(d.month), Pad2(d.day);
    YearText(d.year);
    TwoDigitText(d.month, '1', '2');
    TwoDigitText(d.day, '2', '5');
    assert DateKey(d) == y + "-" + m + "-" + dd;
  }

  lemma YearText(n: nat)
    requires n == 2025
    ensures NatToString(n) == "2025"
  {
    var a, b, c := n / 10, n / 100, n / 1000;
    assert a == 202 && b == 20 && c == 2;
    assert NatToString(c) == "2";
    assert NatToString(b) == NatToString(c) + "0";
    assert NatToString(a) == NatToString(b) + "2";
    assert NatToString(n) == NatToString(a) + "5";
  }

  /** The padded text of a two-digit number, given its digits. */
  lemma TwoDigitText(n: nat, hi: char, lo: char)
    requires 10 <= n < 100 && IsDigit(hi) && IsDigit(lo)
    requires n == (hi as int - '0' as int) * 10 + (lo as int - '0' as int)
    ensures Pad2(n) == [hi, lo]
  {
    assert NatToString(n / 10) == [hi];
    assert NatToString(n) == NatToString(n / 10) + [DigitChar(n % 10)];
  }

  /** Lexicographic order of calendar days. */
  predicate DayBefore(a: CalendarDay, b: CalendarDay) {
    || a.year < b.year
    || (a.year == b.year && a.month < b.month)
    || (a.year == b.year && a.month == b.month && a.day < b.day)
  }

  /** `isPastDate(date)` with `now` for `new Date()`: both are moved to
      their midnight and compared, so the date is past exactly when its day
      comes before today. */
  function IsPastDate(date: Moment, now: Moment): (r: bool)
    ensures r <==> DayBefore(date.date, now.date)
  {
    var checkDate, today := Moment(date.date, 0), Moment(now.date, 0);
    MomentBefore(checkDate, today)
  }

  /** `<` on the timestamps of two moments. */
  predicate MomentBefore(a: Moment, b: Moment) {
    DayBefore(a.date, b.date) || (SameDay(a.date, b.date) && a.millis < b.millis)
  }

  predicate SameDay(a: CalendarDay, b: CalendarDay) {
    a.year == b.year && a.month == b.month && a.day == b.day
  }

  /** The time of day of either moment does not matter. */
  lemma PastIgnoresTimeOfDay(date: Moment, now: Moment, t: nat, u: nat)
    ensures IsPastDate(date.(millis := t), now.(millis := u)) == IsPastDate(date, now)
  {
  }

  /** `isToday(date)`: the same local calendar day as now. */
  function IsToday(date: Moment, now: Moment): (r: bool)
    ensures r ==> !IsPastDate(date, now)
    ensures r <==> !DayBefore(date.date, now.date) && !DayBefore(now.date, date.date)
  {
    SameDay(date.date, now.date)
  }

  /** The kind a date is shown as. */
  datatype DateKind = Past | Special | Weekend | Normal

  /** What `validateDate` reports about a date. */
  datatype DateInfo = DateInfo(isWeekend: bool, isSpecialDate: bool, isToday: bool, isPastDate: bool, kind: DateKind)

  datatype DateError = InvalidDate

  /** `validateDate`: an invalid date (`None`) is an error; otherwise the
      four flags and the kind, by priority past, special, weekend, normal. */
  function ValidateDate(date: Option<Moment>, now: Moment, custom: seq<string>): (r: Result<DateInfo, DateError>)
    ensures date.None? <==> r == Err(InvalidDate)
    ensures date.Some? ==>
              && r.Ok?
              && r.value.isWeekend == IsWeekend(date.value.date)
              && r.value.isSpecialDate == IsSpecialDate(date.value.date, custom)
              && r.value.isToday == SameDay(date.value.date, now.date)
              && r.value.isPastDate == DayBefore(date.value.date, now.date)
    ensures r.Ok? ==>
              && (r.value.kind == Past <==> r.value.isPastDate)
              && (r.value.kind == Special <==> !r.value.isPastDate && r.value.isSpecialDate)
              && (r.value.kind == Weekend <==> !r.value.isPastDate && !r.value.isSpecialDate && r.value.isWeekend)
              && (r.value.kind == Normal <==> !r.value.isPastDate && !r.value.isSpecialDate && !r.value.isWeekend)
  {
    match date
    case None => Err(InvalidDate)
    case Some(m) =>
      var weekend := IsWeekend(m.date);
      var special := IsSpecialDate(m.date, custom);
      var today := IsToday(m, now);
      var past := IsPastDate(m, now);
      var kind := if past then Past else if special then Special else if weekend then Weekend else Normal;
      Ok(DateInfo(weekend, special, today, past, kind))
  }

  /** Today is never shown as past; a special day of today is shown as
      special even on a weekend. */
  lemma TodayNeverPast(date: Moment, now: Moment, custom: seq<string>)
    requires SameDay(date.date, now.date)
    ensures ValidateDate(Some(date), now, custom).value.kind != Past
    ensures IsSpecialDate(date.date, custom) ==> ValidateDate(Some(date), now, custom).value.kind == Special
  {
  }
}

=== FILE: jsstrings.dfy ===
/** The JavaScript string primitives the pages lean on, over `seq<char>`:
    the `\s` and `\d` character classes, `toLowerCase`/`toUpperCase`
    (ASCII and Latin-1 letters, with `ß` to `SS` and the micro sign to the
    Greek capital mu), `replace(/\s+/g, "")`, `replace(/\D/g, "")`, `trim`,
    `startsWith`, `split` on one character, number-to-string conversion,
    `parseInt` with radix 10 and without a radix, and `.length` in UTF-16
    code units. */
module JsStrings {
  import opened Wrappers

  // ---------------------------------------------------------------------------
  // Character classes
  // ---------------------------------------------------------------------------

  /** The characters matched by `\s` in a JavaScript regular expression
      (WhiteSpace and LineTerminator); `trim` strips the same set. */
  predicate IsSpace(c: char) {
    || c == ' ' || c == '\t' || c == '\n' || c == '\r'
    || c == '\U{000B}' || c == '\U{000C}' || c == '\U{00A0}' || c == '\U{1680}'
    || ('\U{2000}' <= c <= '\U{200A}')
    || c == '\U{2028}' || c == '\U{2029}' || c == '\U{202F}' || c == '\U{205F}'
    || c == '\U{3000}' || c == '\U{FEFF}'
  }

  /** `\d`: the ASCII digits only. */
  predicate IsDigit(c: char) {
    '0' <= c <= '9'
  }

  predicate IsAsciiUpper(c: char) {
    'A' <= c <= 'Z'
  }

  predicate IsAsciiLower(c: char) {
    'a' <= c <= 'z'
  }

  predicate AllDigits(s: string) {
    forall i :: 0 <= i < |s| ==> IsDigit(s[i])
  }

  predicate NoSpaces(s: string) {
    forall i :: 0 <= i < |s| ==> !IsSpace(s[i])
  }

  // ---------------------------------------------------------------------------
  // Case mapping
  // ---------------------------------------------------------------------------

  /** Upper-case letters that `toLowerCase` changes: ASCII A-Z, Latin-1
      U+00C0..U+00DE except the multiplication sign, U+0178, and the Greek
      capital mu U+039C that the micro sign upper-cases to. */
  predicate HasLower(c: char) {
    || IsAsciiUpper(c) || ('\U{00C0}' <= c <= '\U{00DE}' && c != '\U{00D7}')
    || c == '\U{0178}' || c == '\U{039C}'
  }

  /** Lower-case letters that `toUpperCase` changes within one character:
      ASCII a-z, Latin-1 U+00E0..U+00FE except the division sign, U+00FF,
      the micro sign U+00B5 and the Greek small mu U+03BC. */
  predicate HasUpper(c: char) {
    || IsAsciiLower(c) || ('\U{00E0}' <= c <= '\U{00FE}' && c != '\U{00F7}')
    || c == '\U{00FF}' || c == '\U{00B5}' || c == '\U{03BC}'
  }

  function ToLowerChar(c: char): (r: char)
    ensures !HasLower(r)
    ensures !HasLower(c) ==> r == c
  {
    if c == '\U{0178}' then '\U{00FF}'
    else if c == '\U{039C}' then '\U{03BC}'
    else if HasLower(c) then (c as int + 32) as char
    else c
  }

  /** Both the micro sign and the Greek small mu upper-case to the Greek
      capital mu. */
  function ToUpperChar(c: char): (r: char)
    ensures !HasUpper(r)
    ensures !HasUpper(c) ==> r == c
  {
    if c == '\U{00FF}' then '\U{0178}'
    else if c == '\U{00B5}' || c == '\U{03BC}' then '\U{039C}'
    else if HasUpper(c) then (c as int - 32) as char
    else c
  }

  /** Upper-casing a lower-case letter and lower-casing it again gives the
      letter back, except the micro sign, which comes back as the Greek small mu. */
  lemma LowerOfUpper(c: char)
    requires HasUpper(c)
    ensures c != '\U{00B5}' ==> ToLowerChar(ToUpperChar(c)) == c
    ensures c == '\U{00B5}' ==> ToLowerChar(ToUpperChar(c)) == '\U{03BC}'
  {
  }

  /** `String.prototype.toLowerCase`, character by character. */
  function ToLower(s: string): (r: string)
    ensures |r| == |s|
    ensures forall i :: 0 <= i < |s| ==> r[i] == ToLowerChar(s[i])
    ensures (forall i :: 0 <= i < |s| ==> !HasLower(s[i])) ==> r == s
  {
    if |s| == 0 then [] else [ToLowerChar(s[0])] + ToLower(s[1..])
  }

  /** `c.toUpperCase()` for one character: the sharp s becomes the two
      letters `SS`, every other character is mapped by `ToUpperChar`. */
  function UpperText(c: char): (r: string)
    ensures |r| >= 1
    ensures r == [c] <==> !UpperDiffers(c)
    ensures c == '\U{00DF}' ==> r == "SS"
    ensures c != '\U{00DF}' ==> r == [ToUpperChar(c)]
  {
    if c == '\U{00DF}' then "SS" else [ToUpperChar(c)]
  }

  /** The characters that `toUpperCase` changes: those with a one-character
      upper case, and the sharp s. */
  predicate UpperDiffers(c: char) {
    HasUpper(c) || c == '\U{00DF}'
  }

  /** `String.prototype.toUpperCase`: each character's upper-case text, in order. */
  function ToUpper(s: string): (r: string)
    ensures |r| >= |s|
    ensures (forall i :: 0 <= i < |s| ==> s[i] != '\U{00DF}') ==>
              |r| == |s| && forall i :: 0 <= i < |s| ==> r[i] == ToUpperChar(s[i])
  {
    if |s| == 0 then [] else UpperText(s[0]) + ToUpper(s[1..])
  }

  /** `s === s.toUpperCase()`: no character has a different upper case. */
  lemma {:induction false} UpperFixedIff(s: string)
    ensures ToUpper(s) == s <==> forall i :: 0 <= i < |s| ==> !UpperDiffers(s[i])
  {
    if |s| > 0 {
      UpperFixedIff(s[1..]);
      var h := UpperText(s[0]);
      if UpperDiffers(s[0]) {
        assert ToUpper(s)[0] == h[0] != s[0];
      } else {
        assert ToUpper(s) == [s[0]] + ToUpper(s[1..]);
        assert s == [s[0]] + s[1..];
        assert (forall i :: 0 <= i < |s| ==> !UpperDiffers(s[i]))
           <==> (forall i :: 0 <= i < |s[1..]| ==> !UpperDiffers(s[1..][i]));
      }
    }
  }

  // ---------------------------------------------------------------------------
  // Character removal
  // ---------------------------------------------------------------------------

  /** `s.replace(/\s+/g, "")` (equally `s.replace(/\s/g, "")`): every
      whitespace character removed, the rest kept in order. */
  function RemoveSpaces(s: string): (r: string)
    ensures |r| <= |s|
    ensures NoSpaces(r)
    ensures NoSpaces(s) ==> r == s
    ensures forall c :: c in r ==> c in s
  {
    if |s| == 0 then []
    else if IsSpace(s[0]) then RemoveSpaces(s[1..])
    else s[..1] + RemoveSpaces(s[1..])
  }

  lemma RemoveSpacesAppend(a: string, b: string)
    ensures RemoveSpaces(a + b) == RemoveSpaces(a) + RemoveSpaces(b)
  {
    if |a| == 0 {
      assert a + b == b;
    } else {
      assert (a + b)[1..] == a[1..] + b;
      assert (a + b)[..1] == a[..1];
      RemoveSpacesAppend(a[1..], b);
    }
  }

  /** `s.replace(/\D/g, "")`: only the ASCII digits of `s`, in order. */
  function DigitsOnly(s: string): (r: string)
    ensures |r| <= |s|
    ensures AllDigits(r)
    ensures AllDigits(s) ==> r == s
  {
    if |s| == 0 then []
    else if IsDigit(s[0]) then s[..1] + DigitsOnly(s[1..])
    else DigitsOnly(s[1..])
  }

  lemma DigitsOnlyAppend(a: string, b: string)
    ensures DigitsOnly(a + b) == DigitsOnly(a) + DigitsOnly(b)
  {
    if |a| == 0 {
      assert a + b == b;
    } else {
      assert (a + b)[1..] == a[1..] + b;
      DigitsOnlyAppend(a[1..], b);
    }
  }

  /** The key that joins ticket categories, ticket sections and seat-map
      entries: `name.toLowerCase().replace(/\s+/g, "")`. */
  function NormalizeKey(s: string): (r: string)
    ensures |r| <= |s|
    ensures NoSpaces(r)
    ensures forall i :: 0 <= i < |r| ==> !HasLower(r[i])
  {
    NoLowerAfterRemove(ToLower(s));
    RemoveSpaces(ToLower(s))
  }

  lemma NoLowerAfterRemove(s: string)
    requires forall i :: 0 <= i < |s| ==> !HasLower(s[i])
    ensures forall i :: 0 <= i < |RemoveSpaces(s)| ==> !HasLower(RemoveSpaces(s)[i])
  {
    var r := RemoveSpaces(s);
    forall i | 0 <= i < |r| ensures !HasLower(r[i]) {
      assert r[i] in r;
    }
  }

  /** A normalised key is a fixed point of normalisation. */
  lemma NormalizeKeyIdempotent(s: string)
    ensures NormalizeKey(NormalizeKey(s)) == NormalizeKey(s)
  {
    var k := NormalizeKey(s);
    assert ToLower(k) == k;
  }

  /** A string that is already lower-case and space-free is its own key. */
  lemma NormalizeKeyOfKey(s: string)
    requires NoSpaces(s)
    requires forall i :: 0 <= i < |s| ==> !HasLower(s[i])
    ensures NormalizeKey(s) == s
  {
    assert ToLower(s) == s;
  }

  // ---------------------------------------------------------------------------
  // trim and startsWith
  // ---------------------------------------------------------------------------

  function TrimStart(s: string): (r: string)
    ensures |r| <= |s| && r == s[|s| - |r|..]
    ensures |r| > 0 ==> !IsSpace(r[0])
    ensures forall i :: 0 <= i < |s| - |r| ==> IsSpace(s[i])
  {
    if |s| > 0 && IsSpace(s[0]) then
      var r := TrimStart(s[1..]);
      assert forall i :: 1 <= i < |s| ==> s[1..][i - 1] == s[i];
      r
    else s
  }

  function TrimEnd(s: string): (r: string)
    ensures |r| <= |s| && r == s[..|r|]
    ensures |r| > 0 ==> !IsSpace(r[|r| - 1])
    ensures forall i :: |r| <= i < |s| ==> IsSpace(s[i])
  {
    if |s| > 0 && IsSpace(s[|s| - 1]) then
      var r := TrimEnd(s[..|s| - 1]);
      assert forall i :: 0 <= i < |s| - 1 ==> s[..|s| - 1][i] == s[i];
      r
    else s
  }

  /** `String.prototype.trim`. */
  function Trim(s: string): (r: string)
    ensures |r| <= |s|
    ensures |r| > 0 ==> !IsSpace(r[0]) && !IsSpace(r[|r| - 1])
  {
    TrimEnd(TrimStart(s))
  }

  /** `s.trim()` is empty exactly when every character of `s` is whitespace. */
  lemma TrimEmptyIff(s: string)
    ensures |Trim(s)| == 0 <==> forall i :: 0 <= i < |s| ==> IsSpace(s[i])
  {
    var t := TrimStart(s);
    if |Trim(s)| == 0 {
      assert |t| == 0;
    }
  }

  /** `s === s.trim()` exactly when `s` neither starts nor ends with whitespace. */
  lemma TrimFixedIff(s: string)
    ensures Trim(s) == s <==> (|s| == 0 || (!IsSpace(s[0]) && !IsSpace(s[|s| - 1])))
  {
  }

  predicate StartsWith(s: string, prefix: string) {
    |prefix| <= |s| && s[..|prefix|] == prefix
  }

  // ---------------------------------------------------------------------------
  // split
  // ---------------------------------------------------------------------------

  /** `s.split(sep)` for a one-character separator: the pieces between
      separators, at least one, none containing the separator. */
  function Split(s: string, sep: char): (r: seq<string>)
    ensures |r| >= 1
    ensures forall j :: 0 <= j < |r| ==> sep !in r[j]
    ensures sep !in s ==> r == [s]
  {
    if |s| == 0 then [""]
    else if s[0] == sep then [""] + Split(s[1..], sep)
    else
      var rest := Split(s[1..], sep);
      assert s == s[..1] + s[1..];
      assert sep !in s ==> sep !in s[1..];
      [s[..1] + rest[0]] + rest[1..]
  }

  /** The first piece of `Split`: the part of `s` before the first separator. */
  lemma SplitHead(a: string, sep: char, rest: string)
    requires sep !in a
    ensures Split(a + [sep] + rest, sep) == [a] + Split(rest, sep)
  {
    if |a| == 0 {
      assert a + [sep] + rest == [sep] + rest;
      assert ([sep] + rest)[1..] == rest;
    } else {
      var s := a + [sep] + rest;
      assert s[1..] == a[1..] + [sep] + rest;
      assert s[..1] == a[..1] && s[0] == a[0] && a[0] != sep;
      SplitHead(a[1..], sep, rest);
      assert a[..1] + a[1..] == a;
    }
  }

  /** Splitting three separator-free pieces joined by the separator gives them back. */
  lemma SplitJoin3(a: string, b: string, c: string, sep: char)
    requires sep !in a && sep !in b && sep !in c
    ensures Split(a + [sep] + b + [sep] + c, sep) == [a, b, c]
  {
    var tail := b + [sep] + c;
    SplitHead(b, sep, c);
    assert Split(tail, sep) == [b, c];
    SplitHead(a, sep, tail);
    assert Split(a + [sep] + tail, sep) == [a, b, c];
    assert a + [sep] + b + [sep] + c == a + [sep] + tail;
  }

  /** The piece at index `i` of a split, or `undefined` past the end. */
  function Piece(parts: seq<string>, i: nat): Option<string> {
    if i < |parts| then Some(parts[i]) else None
  }

  // ---------------------------------------------------------------------------
  // Numbers and decimal text
  // ---------------------------------------------------------------------------

  function DigitChar(d: nat): (c: char)
    requires d < 10
    ensures IsDigit(c)
  {
    ('0' as int + d) as char
  }

  function DigitValue(c: char): (d: nat)
    requires IsDigit(c)
    ensures d < 10
  {
    c as int - '0' as int
  }

  /** The value of a decimal digit string, read most significant digit first. */
  function DigitsValue(ds: string): nat
    requires AllDigits(ds)
  {
    if |ds| == 0 then 0
    else DigitsValue(ds[..|ds| - 1]) * 10 + DigitValue(ds[|ds| - 1])
  }

  /** `String(n)` for a non-negative integer: decimal digits without leading zeros. */
  function NatToString(n: nat): (r: string)
    ensures |r| >= 1 && AllDigits(r)
    ensures DigitsValue(r) == n
    ensures r[0] == '0' ==> n == 0
    decreases n
  {
    if n < 10 then [DigitChar(n)]
    else
      var prefix := NatToString(n / 10);
      var r := prefix + [DigitChar(n % 10)];
      assert r[..|r| - 1] == prefix;
      r
  }

  /** `String(i)` for an integer, with a leading minus sign when negative. */
  function IntToString(i: int): (r: string)
    ensures |r| >= 1
    ensures i >= 0 ==> AllDigits(r)
  {
    if i < 0 then "-" + NatToString(-i) else NatToString(i)
  }

  /** The maximal run of digits at the start of `s`. */
  function LeadingDigits(s: string): (r: string)
    ensures |r| <= |s| && r == s[..|r|]
    ensures AllDigits(r)
    ensures |r| < |s| ==> !IsDigit(s[|r|])
    ensures AllDigits(s) ==> r == s
  {
    if |s| > 0 && IsDigit(s[0]) then [s[0]] + LeadingDigits(s[1..]) else []
  }

  /** `parseInt(s, 10)`: skip leading whitespace, read an optional sign and
      the longest run of digits after it; no digit there is `NaN` (`None`). */
  function ParseInt(s: string): (r: Option<int>)
    ensures |s| == 0 ==> r == None
    ensures |s| > 0 && IsDigit(s[0]) ==> r == Some(DigitsValue(LeadingDigits(s)))
    ensures |s| > 0 && !IsDigit(s[0]) && !IsSpace(s[0]) && s[0] != '+' && s[0] != '-' ==> r == None
  {
    var t := TrimStart(s);
    if |t| > 0 && (t[0] == '+' || t[0] == '-') then
      var ds := LeadingDigits(t[1..]);
      if |ds| == 0 then None
      else
        var v: int := DigitsValue(ds);
        if t[0] == '-' then Some(-v) else Some(v)
    else
      var ds := LeadingDigits(t);
      if |ds| == 0 then None else Some(DigitsValue(ds))
  }

  /** `parseInt` of a non-empty digit string is its decimal value. */
  lemma ParseDigits(s: string)
    requires |s| > 0 && AllDigits(s)
    ensures ParseInt(s) == Some(DigitsValue(s))
  {
    assert IsDigit(s[0]);
    assert LeadingDigits(s) == s;
  }

  /** Reading back the decimal text of a natural number gives the number. */
  lemma ParseNatToString(n: nat)
    ensures ParseInt(NatToString(n)) == Some(n)
  {
  }

  /** Reading back the decimal text of any integer gives the integer. */
  lemma ParseIntToString(i: int)
    ensures ParseInt(IntToString(i)) == Some(i)
  {
    var n := NatToString(if i < 0 then -i else i);
    assert LeadingDigits(n) == n;
    if i < 0 {
      var s := IntToString(i);
      assert s[0] == '-' && !IsSpace('-');
      assert TrimStart(s) == s;
      assert s[1..] == n;
    } else {
      assert !IsSpace(n[0]);
    }
  }

  /** Different natural numbers have different decimal texts. */
  lemma NatToStringInjective(m: nat, n: nat)
    requires NatToString(m) == NatToString(n)
    ensures m == n
  {
    ParseNatToString(m);
    ParseNatToString(n);
  }

  // ---------------------------------------------------------------------------
  // parseInt without a radix
  // ---------------------------------------------------------------------------

  predicate IsHexDigit(c: char) {
    IsDigit(c) || 'a' <= c <= 'f' || 'A' <= c <= 'F'
  }

  predicate AllHexDigits(s: string) {
    forall i :: 0 <= i < |s| ==> IsHexDigit(s[i])
  }

  function HexDigitValue(c: char): (d: nat)
    requires IsHexDigit(c)
    ensures d < 16
    ensures IsDigit(c) ==> d == DigitValue(c)
  {
    if IsDigit(c) then DigitValue(c)
    else if 'a' <= c <= 'f' then c as int - 'a' as int + 10
    else c as int - 'A' as int + 10
  }

  /** The value of a hexadecimal digit string, most significant digit first. */
  function HexValue(hs: string): nat
    requires AllHexDigits(hs)
  {
    if |hs| == 0 then 0
    else HexValue(hs[..|hs| - 1]) * 16 + HexDigitValue(hs[|hs| - 1])
  }

  /** The maximal run of hexadecimal digits at the start of `s`. */
  function LeadingHexDigits(s: string): (r: string)
    ensures |r| <= |s| && r == s[..|r|]
    ensures AllHexDigits(r)
    ensures |r| < |s| ==> !IsHexDigit(s[|r|])
  {
    if |s| > 0 && IsHexDigit(s[0]) then [s[0]] + LeadingHexDigits(s[1..]) else []
  }

  /** The text after one leading `+` or `-`. */
  function Unsigned(t: string): (r: string)
    ensures |t| > 0 && (t[0] == '+' || t[0] == '-') ==> r == t[1..]
    ensures !(|t| > 0 && (t[0] == '+' || t[0] == '-')) ==> r == t
  {
    if |t| > 0 && (t[0] == '+' || t[0] == '-') then t[1..] else t
  }

  /** Starts with `0x` or `0X`. */
  predicate HexPrefixed(u: string) {
    |u| >= 2 && u[0] == '0' && (u[1] == 'x' || u[1] == 'X')
  }

  /** `parseInt(s)` with no radix: as `parseInt(s, 10)`, except that a `0x`
      or `0X` after the optional sign is skipped and the digits after it
      are read in base 16; no digit there is `NaN`. */
  function ParseIntAuto(s: string): (r: Option<int>)
    ensures !HexPrefixed(Unsigned(TrimStart(s))) ==> r == ParseInt(s)
    ensures HexPrefixed(Unsigned(TrimStart(s))) ==>
              var hs := LeadingHexDigits(Unsigned(TrimStart(s))[2..]);
              && (r.None? <==> hs == [])
              && (r.Some? ==> r.value == (if TrimStart(s)[0] == '-' then -(HexValue(hs) as int) else HexValue(hs)))
  {
    var t := TrimStart(s);
    var u := Unsigned(t);
    if HexPrefixed(u) then
      var hs := LeadingHexDigits(u[2..]);
      if |hs| == 0 then None
      else
        var v: int := HexValue(hs);
        if |t| > 0 && t[0] == '-' then Some(-v) else Some(v)
    else ParseInt(s)
  }

  /** Decimal text never has the `0x` prefix, so both parses agree on it. */
  lemma ParseAutoDigits(s: string)
    requires |s| > 0 && AllDigits(s)
    ensures ParseIntAuto(s) == ParseInt(s) == Some(DigitsValue(s))
  {
    assert IsDigit(s[0]);
    assert !IsSpace(s[0]);
    assert TrimStart(s) == s;
    assert s[0] != '+' && s[0] != '-';
    assert Unsigned(s) == s;
    assert !HexPrefixed(s) by {
      if |s| >= 2 {
        assert IsDigit(s[1]);
      }
    }
    ParseDigits(s);
  }

  /** Reading back the decimal text of a natural number without a radix
      gives the number. */
  lemma ParseAutoNatToString(n: nat)
    ensures ParseIntAuto(NatToString(n)) == Some(n)
  {
    ParseAutoDigits(NatToString(n));
  }

  /** `parseInt("0x1")` is 1. */
  lemma HexOne(s: string)
    requires s == "0x1"
    ensures ParseIntAuto(s) == Some(1)
  {
    HexPrefixedText(s);
    HexDigitsOne(s[2..]);
  }

  /** `parseInt("-0x1")` is `-1`: the sign applies to the hex value. */
  lemma HexMinusOne(s: string)
    requires s == "-0x1"
    ensures ParseIntAuto(s) == Some(-1)
  {
    assert !IsSpace(s[0]) && TrimStart(s) == s;
    assert Unsigned(s) == s[1..] == "0x1";
    HexDigitsOne(s[3..]);
  }

  /** A text starting `0x` has no whitespace or sign to skip. */
  lemma HexPrefixedText(s: string)
    requires HexPrefixed(s)
    ensures TrimStart(s) == s && Unsigned(s) == s
  {
    assert !IsSpace(s[0]);
  }

  lemma HexDigitsOne(t: string)
    requires t == "1"
    ensures LeadingHexDigits(t) == t && HexValue(t) == 1
  {
    assert HexValue(t) == HexValue(t[..0]) * 16 + 1;
  }

  /** `parseInt("0x")` is `NaN`. */
  lemma HexNothing(s: string)
    requires s == "0x"
    ensures ParseIntAuto(s) == None
  {
    HexPrefixedText(s);
    assert s[2..] == [];
  }

  /** `String(n).padStart(2, "0")` */
  function Pad2(n: nat): (r: string)
    ensures |r| >= 2 && AllDigits(r)
    ensures n < 100 ==> |r| == 2 && DigitsValue(r) == n
  {
    if n < 10 then
      var r := "0" + [DigitChar(n)];
      assert r[..1] == "0";
      assert DigitsValue(r) == DigitsValue("0") * 10 + n;
      r
    else
      var r := NatToString(n);
      assert r == NatToString(n / 10) + [DigitChar(n % 10)];
      assert n < 100 ==> |NatToString(n / 10)| == 1;
      r
  }

  // ---------------------------------------------------------------------------
  // UTF-16 code units
  // ---------------------------------------------------------------------------

  /** A character above U+FFFF, which a JavaScript string holds as a
      surrogate pair: two code units. */
  predicate Astral(c: char) {
    c as int > 0xFFFF
  }

  /** Every character of `s` is a single UTF-16 code unit. */
  predicate Bmp(s: string) {
    forall i :: 0 <= i < |s| ==> !Astral(s[i])
  }

  /** A code unit in U+D800..U+DFFF: half of a surrogate pair. */
  predicate IsSurrogate(x: int) {
    0xD800 <= x <= 0xDFFF
  }

  /** A code unit that is a character on its own: not half of a pair. */
  predicate IsScalar(x: int) {
    0 <= x < 0xD800 || 0xE000 <= x < 0x110000
  }

  /** The UTF-16 code units of one character: the character itself up to
      U+FFFF; above it, a high surrogate carrying the upper ten bits of
      `c - 0x10000` and a low surrogate carrying the lower ten. */
  function CharUnits(c: char): (r: seq<int>)
    ensures |r| == (if Astral(c) then 2 else 1)
    ensures !Astral(c) ==> r[0] == c as int && !IsSurrogate(r[0])
    ensures Astral(c) ==> 0xD800 <= r[0] < 0xDC00 && 0xDC00 <= r[1] <= 0xDFFF
    ensures Astral(c) ==> c as int == 0x10000 + (r[0] - 0xD800) * 0x400 + (r[1] - 0xDC00)
  {
    var x := c as int;
    if x <= 0xFFFF then [x]
    else [0xD800 + (x - 0x10000) / 0x400, 0xDC00 + (x - 0x10000) % 0x400]
  }

  /** The code units of `s`, the sequence JavaScript strings index, slice
      and search without the `u` flag. */
  function Utf16(s: string): (r: seq<int>)
    ensures forall j :: 0 <= j < |r| ==> 0 <= r[j] <= 0xFFFF
  {
    if |s| == 0 then [] else CharUnits(s[0]) + Utf16(s[1..])
  }

  /** `s.length`: one for each character up to U+FFFF and two for each one
      above. */
  function JsLength(s: string): (r: nat)
    ensures |s| <= r <= 2 * |s|
    ensures r == |s| <==> Bmp(s)
  {
    if |s| == 0 then 0
    else
      var r := (if Astral(s[0]) then 2 else 1) + JsLength(s[1..]);
      assert forall i :: 1 <= i < |s| ==> s[1..][i - 1] == s[i];
      r
  }

  /** `.length` is the number of code units. */
  lemma {:induction false} LengthCountsUnits(s: string)
    ensures |Utf16(s)| == JsLength(s)
  {
    if |s| > 0 {
      LengthCountsUnits(s[1..]);
    }
  }

  /** Without characters above U+FFFF, the code units are the characters. */
  lemma {:induction false} BmpUnits(s: string)
    requires Bmp(s)
    ensures |Utf16(s)| == |s|
    ensures forall i :: 0 <= i < |s| ==> Utf16(s)[i] == s[i] as int
  {
    if |s| > 0 {
      assert forall i :: 1 <= i < |s| ==> s[1..][i - 1] == s[i];
      BmpUnits(s[1..]);
    }
  }

  /** No code unit of `w` is half of a surrogate pair. */
  predicate NoSurrogate(w: seq<int>) {
    forall j :: 0 <= j < |w| ==> !IsSurrogate(w[j])
  }

  lemma NoSurrogateConcat(a: seq<int>, b: seq<int>)
    ensures NoSurrogate(a + b) <==> NoSurrogate(a) && NoSurrogate(b)
  {
    assert forall j :: 0 <= j < |a| ==> (a + b)[j] == a[j];
    assert forall j :: 0 <= j < |b| ==> (a + b)[|a| + j] == b[j];
  }

  /** A string holds a character above U+FFFF exactly when one of its code
      units is a surrogate. */
  lemma {:induction false} SurrogateIffAstral(s: string)
    ensures Bmp(s) <==> NoSurrogate(Utf16(s))
  {
    if |s| > 0 {
      SurrogateIffAstral(s[1..]);
      NoSurrogateConcat(CharUnits(s[0]), Utf16(s[1..]));
      assert Bmp(s) <==> !Astral(s[0]) && Bmp(s[1..]) by {
        assert forall i :: 1 <= i < |s| ==> s[1..][i - 1] == s[i];
      }
    }
  }

  /** A character above U+FFFF at the end adds two code units. */
  lemma {:induction false} AstralLength(s: string, c: char)
    requires Astral(c)
    ensures JsLength(s + [c]) == JsLength(s) + 2
  {
    if |s| > 0 {
      assert (s + [c])[1..] == s[1..] + [c];
      AstralLength(s[1..], c);
    } else {
      assert JsLength([c]) == 2 + JsLength([]);
    }
  }

  /** Decimal digits are one code unit each. */
  lemma DigitsLength(s: string)
    requires AllDigits(s)
    ensures JsLength(s) == |s|
  {
  }
}

=== FILE: legacy_checkout.dfy ===
/** The older checkout page: one category for the whole purchase taken
    from the first seat, an average unit price, seat entries with display
    names, and seats grouped by their raw section key. */
module LegacyCheckout {
  import opened Wrappers
  import opened JsStrings
  import opened Cart
  import opened Picker
  import opened Checkout

  /** `getTicketCategoryId`: the section of the first seat through the
      category table; General (1) with no seats, an empty section or a key
      outside the table. */
  function TicketCategoryId(selected: seq<string>): (r: int)
    ensures 1 <= r <= 4
    ensures |selected| == 0 ==> r == 1
    ensures |selected| > 0 ==> r == CategoryIdBySection(Split(selected[0], '-')[0])
  {
    if |selected| == 0 then 1
    else
      var first := Split(selected[0], '-')[0];
      if first == "" then 1 else CategoryIdBySection(first)
  }

  /** The theater page of this tree names its balcony `balcon`, which the
      table does not know: a purchase whose first seat is on the balcony is
      filed under General. */
  lemma BalconFiledAsGeneral(row: nat, col: nat, rest: seq<string>)
    ensures TicketCategoryId([SeatId("balcon", row, col)] + rest) == 1
  {
    SplitSeatId("balcon", row, col);
    assert ([SeatId("balcon", row, col)] + rest)[0] == SeatId("balcon", row, col);
  }

  /** The two checkout pages share the category table. When the first seat
      was picked in a theater type's section, the older page's category for
      the purchase is the one the newer page gives that type. */
  lemma PagesAgreeOnCategory(event: EventInfo, t: TicketType, row: nat, col: nat, rest: seq<string>)
    requires !IsMuseum(event) && !IsCinema(event) && '-' !in t.section
    ensures TicketCategoryId([SeatId(t.section, row, col)] + rest) == CategoryId(event, t)
  {
    SplitSeatId(t.section, row, col);
    assert ([SeatId(t.section, row, col)] + rest)[0] == SeatId(t.section, row, col);
  }

  /** `calcularPrecioUnitario`: the total over the number of tickets, and 0
      when there are none. */
  function UnitPrice(total: int, types: Cart): (r: real)
    ensures TicketCount(types) == 0 ==> r == 0.0
    ensures TicketCount(types) != 0 ==> r * TicketCount(types) as real == total as real
  {
    var n := TicketCount(types);
    if n == 0 then 0.0 else total as real / n as real
  }

  /** `sectionMap` of the seat entries: both balcony sides become "Balcon". */
  const PayloadNames: map<string, string> :=
    map["general" := "General", "platea" := "Platea", "palco" := "Palco",
        "balconIzquierdo" := "Balcon", "balconDerecho" := "Balcon"]

  /** `prepararAsientosSeleccionados`: one entry per seat, in order, with
      the section's display name (unknown keys unchanged) and the 1-based
      row and column. */
  function LegacyAsientos(selected: seq<string>): (r: seq<SeatEntry>)
    ensures |r| == |selected|
    ensures forall i :: 0 <= i < |r| ==>
              var e := DecodeSeat(selected[i]);
              r[i] == SeatEntry(DisplayName(PayloadNames, e.seccion), e.fila, e.columna)
  {
    seq(|selected|, i requires 0 <= i < |selected| =>
      var e := DecodeSeat(selected[i]);
      SeatEntry(DisplayName(PayloadNames, e.seccion), e.fila, e.columna))
  }

  /** A picked seat is sent with its display name and its 1-based
      coordinates; the two balcony sides are both sent as "Balcon". */
  lemma LegacyAsientoOfSeatId(section: string, row: nat, col: nat)
    requires '-' !in section
    ensures LegacyAsientos([SeatId(section, row, col)])
              == [SeatEntry(DisplayName(PayloadNames, section), Some(row + 1), Some(col + 1))]
    ensures section == "balconIzquierdo" || section == "balconDerecho" ==>
              LegacyAsientos([SeatId(section, row, col)])[0].seccion == "Balcon"
  {
    DecodeSeatId(section, row, col);
  }

  /** `prepararSeccionesInfo` of this page: the seats grouped by the raw
      section key. */
  function LegacySeccionesInfo(selected: seq<string>): (r: seq<SectionGroup>)
    ensures var ks := FirstOccurrences(KeysOf(KeyedSeats(selected, false)));
            && |r| == |ks|
            && (forall i :: 0 <= i < |r| ==>
                  r[i].key == ks[i] && r[i].asientos == SpotsWithKey(KeyedSeats(selected, false), ks[i]))
    ensures SeatTotal(r) == |selected|
  {
    var entries := KeyedSeats(selected, false);
    GroupSeatsSpec(entries);
    GroupSizesSum(entries);
    GroupSeats(entries)
  }

  /** When every section is already a normalised key, grouping by the raw
      key and by the normalised key give the same groups. */
  lemma RawGroupingAgrees(selected: seq<string>)
    requires forall i :: 0 <= i < |selected| ==>
               NormalizeKey(DecodeSeat(selected[i]).seccion) == DecodeSeat(selected[i]).seccion
    ensures LegacySeccionesInfo(selected) == SeccionesInfo(selected)
  {
    assert KeyedSeats(selected, false) == KeyedSeats(selected, true);
  }

  /** `sectionNames` of this page's seat display. */
  const LegacyNames: map<string, string> :=
    map["general" := "General", "platea" := "Platea", "palco" := "Palco", "balcon" := "Balcón"]

  /** `formatSeatDisplay` of this page: the empty id shows as nothing. */
  function LegacyFormatSeatDisplay(id: string): (r: string)
    ensures id == "" ==> r == ""
    ensures id != "" ==> r == SeatDisplay(LegacyNames, id)
  {
    if id == "" then "" else SeatDisplay(LegacyNames, id)
  }

  /** A balcony seat of this tree's theater page is shown under "Balcón". */
  lemma BalconDisplayed(row: nat, col: nat)
    requires row < 26
    ensures LegacyFormatSeatDisplay(SeatId("balcon", row, col))
              == "Balcón" + " " + [('A' as int + row) as char] + NatToString(col + 1)
  {
    SeatDisplayOfSeatId(LegacyNames, "balcon", row, col);
  }
}

=== FILE: legacy_theater.dfy ===
/** The older theater page: four ticket types, the fixed theater table as
    its seat map, quantities changed only through `updateQuantity` (no cap),
    and the picker counted by prefix with no missing-section branch. */
module LegacyTheater {
  import opened Wrappers
  import opened Cart
  import opened Seats
  import opened Picker

  /** The initial `ticketTypes`: one type per key of the theater table. */
  function InitialTypes(): (r: Cart)
    ensures |r| == 4 && UniqueIds(r) && NonNegative(r)
    ensures forall i :: 0 <= i < |r| ==> r[i].quantity == 0 && r[i].section in TheaterTable()
  {
    [TicketType(1, "Platea", 3000, 0, "platea"),
     TicketType(2, "Palco", 2800, 0, "palco"),
     TicketType(3, "Balcon", 2500, 0, "balcon"),
     TicketType(4, "General", 1500, 0, "general")]
  }

  /** The "+" button: `updateQuantity(id, quantity + 1)`, with no cap. */
  function Plus(cart: Cart, k: nat): (r: Cart)
    requires UniqueIds(cart) && NonNegative(cart) && k < |cart|
    ensures r == cart[k := cart[k].(quantity := cart[k].quantity + 1)]
    ensures TicketCount(r) == TicketCount(cart) + 1
  {
    UpdateQuantityEffect(cart, k, cart[k].quantity + 1);
    UpdateQuantity(cart, cart[k].id, cart[k].quantity + 1)
  }

  /** The "-" button: `updateQuantity(id, quantity - 1)`; at zero the
      negative value is ignored, so no quantity goes below zero. */
  function Minus(cart: Cart, k: nat): (r: Cart)
    requires UniqueIds(cart) && NonNegative(cart) && k < |cart|
    ensures cart[k].quantity == 0 ==> r == cart
    ensures cart[k].quantity > 0 ==> r == cart[k := cart[k].(quantity := cart[k].quantity - 1)]
                                     && TicketCount(r) == TicketCount(cart) - 1
    ensures NonNegative(r)
  {
    MinusEffect(cart, k);
    UpdateQuantity(cart, cart[k].id, cart[k].quantity - 1)
  }

  lemma MinusEffect(cart: Cart, k: nat)
    requires UniqueIds(cart) && NonNegative(cart) && k < |cart|
    ensures cart[k].quantity == 0 ==> UpdateQuantity(cart, cart[k].id, cart[k].quantity - 1) == cart
    ensures cart[k].quantity > 0 ==>
              UpdateQuantity(cart, cart[k].id, cart[k].quantity - 1) == cart[k := cart[k].(quantity := cart[k].quantity - 1)]
              && TicketCount(UpdateQuantity(cart, cart[k].id, cart[k].quantity - 1)) == TicketCount(cart) - 1
    ensures NonNegative(UpdateQuantity(cart, cart[k].id, cart[k].quantity - 1))
  {
    var n := cart[k].quantity - 1;
    UpdateQuantityKeepsNonNegative(cart, cart[k].id, n);
    if n >= 0 {
      UpdateQuantityEffect(cart, k, n);
      assert UpdateQuantity(cart, cart[k].id, n) == cart[k := cart[k].(quantity := n)];
      assert TicketCount(UpdateQuantity(cart, cart[k].id, n)) == TicketCount(cart) - cart[k].quantity + n;
    }
  }

  /** Quantities have no upper bound: "+" always adds one, even past the
      eight tickets the other pages allow. */
  lemma PlusUnbounded(cart: Cart, k: nat)
    requires UniqueIds(cart) && NonNegative(cart) && k < |cart|
    requires cart[k].quantity >= MaxPerType
    ensures Plus(cart, k)[k].quantity == cart[k].quantity + 1 > MaxPerType
  {
  }

  /** `handleSeatSelection` on the fixed table. A key outside the table
      would throw; the page only ever passes the four keys. */
  function SelectSeat(cart: Cart, picks: seq<string>, section: string, row: nat, col: nat)
    : (r: Result<seq<string>, ToggleError>)
    requires section in TheaterTable()
    ensures r.Err? ==> r.error.SeatOccupied? || r.error.SectionFull?
    ensures r.Err? && r.error.SeatOccupied? <==> IsOccupied(TheaterTable()[section], row, col)
    ensures r.Ok? && SeatId(section, row, col) !in picks ==>
              Count(ByPrefix, picks, section) < TicketsBySection(cart, section)
  {
    Toggle(ByPrefix, TheaterTable(), cart, picks, section, row, col)
  }

  /** Both balcony panels render the single `balcon` key, so the same
      row and column picked from either panel is one seat: picking it in
      one panel and pressing it in the other un-picks it. */
  lemma BalconyPanelsShareSeats(cart: Cart, picks: seq<string>, row: nat, col: nat)
    requires SeatId("balcon", row, col) !in picks
    requires SelectSeat(cart, picks, "balcon", row, col).Ok?
    ensures SelectSeat(cart, SelectSeat(cart, picks, "balcon", row, col).value, "balcon", row, col) == Ok(picks)
  {
    ToggleTwiceRestores(ByPrefix, TheaterTable(), cart, picks, "balcon", row, col);
  }

  /** On the fixed table, every accepted pick keeps each section's picks at
      or below its ticket count. */
  lemma SelectSeatKeepsCapacity(cart: Cart, picks: seq<string>, section: string, row: nat, col: nat)
    requires section in TheaterTable()
    requires WithinCapacity(ByPrefix, TheaterTable(), cart, picks)
    ensures var r := SelectSeat(cart, picks, section, row, col);
            r.Ok? ==> WithinCapacity(ByPrefix, TheaterTable(), cart, r.value)
  {
    TheaterTableSeparable();
    ToggleKeepsCapacity(ByPrefix, TheaterTable(), cart, picks, section, row, col);
  }

  /** The cart with the given quantities of platea, palco, balcon and general. */
  function WithQuantities(platea: nat, palco: nat, balcon: nat, general: nat): Cart {
    var t := InitialTypes();
    [t[0].(quantity := platea), t[1].(quantity := palco), t[2].(quantity := balcon), t[3].(quantity := general)]
  }

  /** Totals and per-section counts over the four fixed types. */
  lemma FixedTotals(platea: nat, palco: nat, balcon: nat, general: nat)
    ensures var c := WithQuantities(platea, palco, balcon, general);
            && Total(c) == 3000 * platea + 2800 * palco + 2500 * balcon + 1500 * general
            && TicketCount(c) == platea + palco + balcon + general
            && TicketsBySection(c, "balcon") == balcon
  {
    var c := WithQuantities(platea, palco, balcon, general);
    var c3, c2, c1 := c[..3], c[..2], c[..1];
    assert c3[..2] == c2 && c2[..1] == c1 && c1[..0] == [];
    assert Total(c1) == 3000 * platea && TicketCount(c1) == platea && TicketsBySection(c1, "balcon") == 0;
    assert Total(c2) == Total(c1) + 2800 * palco && TicketCount(c2) == TicketCount(c1) + palco;
    assert TicketsBySection(c2, "balcon") == 0;
    assert Total(c3) == Total(c2) + 2500 * balcon && TicketCount(c3) == TicketCount(c2) + balcon;
    assert TicketsBySection(c3, "balcon") == balcon;
  }
}

=== FILE: museum.dfy ===
/** The museum page: one "General" ticket type, a second cap from the
    museum's available spaces, and no seats. */
module Museum {
  import opened Wrappers
  import opened Cart
  import CartOps = Cart

  /** The ticket types and `availableTickets`. */
  datatype MuseumState = MuseumState(types: Cart, available: int)

  /** The availability response: `None` fields are missing or falsy. */
  datatype Availability = Availability(price: Option<int>, spaces: Option<int>)

  /** A museum type carries no section; the model gives it the empty key. */
  function General(price: int): TicketType {
    TicketType(1, "General", price, 0, "")
  }

  /** `fetchMuseumAvailability`: with no museum id, or when the request
      fails (`None`), one "General" type at 200 with 50 tickets available;
      otherwise one "General" type at the museum's price (200 when missing)
      with its spaces available (50 when missing). */
  function Load(hasMuseumId: bool, response: Option<Availability>): (s: MuseumState)
    ensures |s.types| == 1 && s.types[0].name == "General" && s.types[0].quantity == 0
    ensures !hasMuseumId || response.None? ==> s == MuseumState([General(200)], 50)
    ensures hasMuseumId && response.Some? ==>
              && (response.value.price.Some? && response.value.price.value != 0 ==> s.types[0].price == response.value.price.value)
              && (response.value.price.None? || response.value.price.value == 0 ==> s.types[0].price == 200)
              && (response.value.spaces.Some? && response.value.spaces.value != 0 ==> s.available == response.value.spaces.value)
              && (response.value.spaces.None? || response.value.spaces.value == 0 ==> s.available == 50)
  {
    if !hasMuseumId then MuseumState([General(200)], 50)
    else match response
      case None => MuseumState([General(200)], 50)
      case Some(a) =>
        var price := if a.price.Some? && a.price.value != 0 then a.price.value else 200;
        var spaces := if a.spaces.Some? && a.spaces.value != 0 then a.spaces.value else 50;
        MuseumState([General(price)], spaces)
  }

  /** The smaller of the two caps. */
  function Cap(available: int): (c: int)
    ensures c <= MaxPerType && c <= available
    ensures c == MaxPerType || c == available
  {
    if available < MaxPerType then available else MaxPerType
  }

  /** `handleIncrement(id)`: a type goes up by one only while it is below
      both 8 and the available tickets. */
  function Increment(s: MuseumState, id: int): (r: MuseumState)
    ensures r.available == s.available && |r.types| == |s.types|
    ensures forall i :: 0 <= i < |s.types| ==> SameType(r.types[i], s.types[i])
    ensures forall i :: 0 <= i < |s.types| ==>
              if s.types[i].id == id && s.types[i].quantity < MaxPerType && s.types[i].quantity < s.available
              then r.types[i].quantity == s.types[i].quantity + 1
              else r.types[i] == s.types[i]
  {
    s.(types := CartOps.Increment(s.types, id, Cap(s.available)))
  }

  /** `updateQuantity(id, n)`: refused with nothing changed when `n` is
      negative or above the available tickets; otherwise the types with this
      id get quantity `n`. */
  function UpdateQuantity(s: MuseumState, id: int, n: int): (r: MuseumState)
    ensures n < 0 || n > s.available ==> r == s
    ensures r.available == s.available && |r.types| == |s.types|
    ensures 0 <= n <= s.available ==> forall i :: 0 <= i < |s.types| ==>
              r.types[i] == if s.types[i].id == id then s.types[i].(quantity := n) else s.types[i]
  {
    if n < 0 || n > s.available then s
    else s.(types := SetQuantity(s.types, id, n))
  }

  /** Every quantity lies between zero and the available tickets. */
  predicate InBounds(s: MuseumState) {
    NonNegative(s.types) && AtMost(s.types, s.available)
  }

  /** Both operations keep the quantities between zero and the available
      tickets. */
  lemma OperationsKeepBounds(s: MuseumState, id: int, n: int)
    requires InBounds(s)
    ensures InBounds(Increment(s, id))
    ensures InBounds(UpdateQuantity(s, id, n))
  {
  }

  /** Every load starts in bounds when the available count is not negative. */
  lemma LoadInBounds(hasMuseumId: bool, response: Option<Availability>)
    requires response.Some? && response.value.spaces.Some? ==> response.value.spaces.value >= 0
    ensures InBounds(Load(hasMuseumId, response))
  {
  }

  /** What the purchase hands to the summary page: the selected types and
      the total, and no seat list. */
  datatype MuseumHandoff = MuseumHandoff(ticketTypes: Cart, total: int)

  /** `handlePurchase`: refused when no type has a positive quantity;
      otherwise the selected types and the total go to the summary. */
  function Purchase(s: MuseumState): (r: Result<MuseumHandoff, PurchaseError>)
    requires NonNegative(s.types)
    ensures r.Err? <==> forall i :: 0 <= i < |s.types| ==> s.types[i].quantity <= 0
    ensures r.Ok? ==> r.value.total == Total(s.types)
                      && Total(r.value.ticketTypes) == Total(s.types)
                      && TicketCount(r.value.ticketTypes) == TicketCount(s.types)
                      && (forall i :: 0 <= i < |r.value.ticketTypes| ==> r.value.ticketTypes[i].quantity > 0)
                      && forall t :: t in s.types && t.quantity > 0 ==> t in r.value.ticketTypes
  {
    if !AnySelected(s.types) then Err(NoTicketsSelected)
    else
      SelectedKeepsTotals(s.types);
      SelectedExactly(s.types);
      Ok(MuseumHandoff(Selected(s.types), Total(s.types)))
  }

  /** Total and ticket count of the single "General" type. */
  lemma SingleTypeTotals(price: int, q: int)
    ensures Total([General(price).(quantity := q)]) == price * q
    ensures TicketCount([General(price).(quantity := q)]) == q
  {
    var c := [General(price).(quantity := q)];
    assert c[..0] == [];
  }
}

=== FILE: payment.dfy ===
/** The payment form of the checkout page: the card-number and expiry
    formatters applied on every keystroke, the four field validators, and
    the WhatsApp number check and its normalisation to the `521` prefix the
    messaging backend expects. A validator returns `None` where the page
    returns the empty string, and the reason otherwise. */
module Payment {
  import opened Wrappers
  import opened JsStrings

  // ---------------------------------------------------------------------------
  // Card number
  // ---------------------------------------------------------------------------

  /** The digits of a card field: `replace(/\s+/g, "")` then `replace(/[^0-9]/gi, "")`. */
  function CardDigits(value: string): (r: string)
    ensures AllDigits(r)
  {
    DigitsOnly(RemoveSpaces(value))
  }

  /** A digit string cut into blocks of four joined by single spaces. */
  function Group4(d: string): (r: string)
    requires AllDigits(d)
    ensures |d| > 0 ==> |r| == |d| + (|d| - 1) / 4
    ensures |d| == 0 ==> r == []
    decreases |d|
  {
    if |d| <= 4 then d else d[..4] + " " + Group4(d[4..])
  }

  /** Every fifth character of `r` is the separator, and the others are the
      digits of `d` in order. */
  predicate GroupedAt(r: string, d: string, i: int)
    requires 0 <= i < |r|
  {
    (r[i] == ' ' <==> i % 5 == 4) && (i % 5 != 4 ==> 0 <= i - i / 5 < |d| && r[i] == d[i - i / 5])
  }

  /** Grouping keeps the digits in order and puts a separator at every
      fifth position. */
  lemma {:induction false} Group4Shape(d: string)
    requires AllDigits(d)
    ensures forall i :: 0 <= i < |Group4(d)| ==> GroupedAt(Group4(d), d, i)
    decreases |d|
  {
    var r := Group4(d);
    if |d| > 4 {
      var rest := Group4(d[4..]);
      Group4Shape(d[4..]);
      assert r == d[..4] + " " + rest;
      forall i | 0 <= i < |r|
        ensures GroupedAt(r, d, i)
      {
        if i >= 5 {
          var j := i - 5;
          assert 0 <= j < |rest| && r[i] == rest[j];
          assert GroupedAt(rest, d[4..], j);
          assert j % 5 == i % 5 && j / 5 == i / 5 - 1;
        } else if i < 4 {
          assert r[i] == d[i] && IsDigit(d[i]) && i % 5 == i && i / 5 == 0;
        } else {
          assert r[i] == ' ' && i % 5 == 4;
        }
      }
    } else {
      forall i | 0 <= i < |r|
        ensures GroupedAt(r, d, i)
      {
        assert r[i] == d[i] && IsDigit(d[i]) && i % 5 == i && i / 5 == 0;
      }
    }
  }

  /** `formatCardNumber`: the first match of `\d{4,16}` in the digits — the
      first sixteen digits, or all of them when fewer — in blocks of four;
      the value unchanged when fewer than four digits are present. */
  function FormatCardNumber(value: string): (r: string)
    ensures |CardDigits(value)| < 4 ==> r == value
    ensures |CardDigits(value)| >= 4 ==>
              var m := if |CardDigits(value)| <= 16 then CardDigits(value) else CardDigits(value)[..16];
              && RemoveSpaces(r) == m
              && (forall i :: 0 <= i < |r| ==> GroupedAt(r, m, i))
              && |r| == |m| + (|m| - 1) / 4
  {
    var v := CardDigits(value);
    if |v| < 4 then value
    else
      var m := if |v| <= 16 then v else v[..16];
      RemoveSpacesGroup4(m);
      Group4Shape(m);
      Group4(m)
  }

  /** Removing the separators of a grouped number gives the digits back. */
  lemma {:induction false} RemoveSpacesGroup4(d: string)
    requires AllDigits(d)
    ensures RemoveSpaces(Group4(d)) == d
    decreases |d|
  {
    if |d| <= 4 {
    } else {
      RemoveSpacesGroup4(d[4..]);
      RemoveSpacesAppend(d[..4] + " ", Group4(d[4..]));
      RemoveSpacesAppend(d[..4], " ");
      assert NoSpaces(d[..4]);
      assert RemoveSpaces(" ") == [];
      assert d[..4] + d[4..] == d;
    }
  }

  /** Formatting a formatted number changes nothing, so reformatting on
      every keystroke is stable. */
  lemma FormatCardNumberIdempotent(value: string)
    ensures FormatCardNumber(FormatCardNumber(value)) == FormatCardNumber(value)
  {
    var v := CardDigits(value);
    if |v| >= 4 {
      var m := if |v| <= 16 then v else v[..16];
      var r := FormatCardNumber(value);
      assert CardDigits(r) == m;
    }
  }

  datatype CardNumberError = CardNumberRequired | CardNumberNotDigits | CardNumberNotSixteen

  /** `validateCardNumber`: after removing whitespace, empty is required,
      any non-digit is refused, and then the length must be sixteen. */
  function ValidateCardNumber(number: string): (r: Option<CardNumberError>)
    ensures r == None <==> |RemoveSpaces(number)| == 16 && AllDigits(RemoveSpaces(number))
    ensures r == Some(CardNumberRequired) <==> forall i :: 0 <= i < |number| ==> IsSpace(number[i])
  {
    var clean := RemoveSpaces(number);
    RemoveSpacesEmptyIff(number);
    if |clean| == 0 then Some(CardNumberRequired)
    else if !AllDigits(clean) then Some(CardNumberNotDigits)
    else if |clean| != 16 then Some(CardNumberNotSixteen)
    else None
  }

  lemma {:induction false} RemoveSpacesEmptyIff(s: string)
    ensures |RemoveSpaces(s)| == 0 <==> forall i :: 0 <= i < |s| ==> IsSpace(s[i])
  {
    if |s| > 0 {
      RemoveSpacesEmptyIff(s[1..]);
      assert forall i :: 1 <= i < |s| ==> s[i] == s[1..][i - 1];
    }
  }

  /** What the card field holds after typing is accepted exactly when at
      least sixteen digits were typed. */
  lemma FormattedNumberAcceptedIff(value: string)
    ensures ValidateCardNumber(FormatCardNumber(value)) == None <==> |CardDigits(value)| >= 16
  {
    var v, clean := CardDigits(value), RemoveSpaces(value);
    if AllDigits(clean) {
      assert v == clean;
    }
  }

  /** Typing "123" leaves the field as "123", which is refused for its length. */
  lemma ShortNumberRefused()
    ensures FormatCardNumber("123") == "123"
    ensures ValidateCardNumber(FormatCardNumber("123")) == Some(CardNumberNotSixteen)
  {
    assert CardDigits("123") == "123";
    assert RemoveSpaces("123") == "123";
  }

  // ---------------------------------------------------------------------------
  // Card holder
  // ---------------------------------------------------------------------------

  /** `[a-zA-ZáéíóúÁÉÍÓÚñÑ\s]` */
  predicate HolderChar(c: char) {
    || IsAsciiUpper(c) || IsAsciiLower(c) || IsSpace(c)
    || c == 'á' || c == 'é' || c == 'í' || c == 'ó' || c == 'ú'
    || c == 'Á' || c == 'É' || c == 'Í' || c == 'Ó' || c == 'Ú'
    || c == 'ñ' || c == 'Ñ'
  }

  datatype HolderError = HolderRequired | HolderNotLetters

  /** `validateName` of the card form: required, then letters, the Spanish
      accented vowels, ñ and whitespace only. */
  function ValidateHolder(name: string): (r: Option<HolderError>)
    ensures r == None <==> |name| > 0 && forall i :: 0 <= i < |name| ==> HolderChar(name[i])
    ensures r == Some(HolderRequired) <==> |name| == 0
  {
    if |name| == 0 then Some(HolderRequired)
    else if !(forall i :: 0 <= i < |name| ==> HolderChar(name[i])) then Some(HolderNotLetters)
    else None
  }

  // ---------------------------------------------------------------------------
  // Expiry
  // ---------------------------------------------------------------------------

  /** The first four characters of `s` (`substring(0, 4)`). */
  function Take4(s: string): (r: string)
    ensures |r| <= 4 && |r| <= |s| && r == s[..|r|]
    ensures |s| >= 4 ==> |r| == 4
  {
    if |s| <= 4 then s else s[..4]
  }

  /** `formatExpiry`: at most four digits, with a slash after the second
      when there are more than two. */
  function FormatExpiry(value: string): (r: string)
    ensures var d := Take4(DigitsOnly(value));
            && (|d| <= 2 ==> r == d)
            && (|d| > 2 ==> r == d[..2] + "/" + d[2..])
    ensures |r| <= 5
  {
    var v := Take4(DigitsOnly(value));
    if |v| == 0 then ""
    else if |v| <= 2 then v
    else v[..2] + "/" + v[2..]
  }

  /** Formatting a formatted expiry changes nothing. */
  lemma FormatExpiryIdempotent(value: string)
    ensures FormatExpiry(FormatExpiry(value)) == FormatExpiry(value)
  {
    var v := Take4(DigitsOnly(value));
    var r := FormatExpiry(value);
    assert AllDigits(v);
    if |v| > 2 {
      DigitsOnlyAppend(v[..2] + "/", v[2..]);
      DigitsOnlyAppend(v[..2], "/");
      assert DigitsOnly("/") == [];
      assert v[..2] + v[2..] == v;
      assert DigitsOnly(r) == v;
    }
  }

  datatype ExpiryError = ExpiryRequired | ExpiryBadFormat | ExpiryBadMonth | ExpiryExpired

  /** A piece of the split two code units long, or nothing. */
  predicate TwoUnits(p: Option<string>) {
    p.Some? && JsLength(p.value) == 2
  }

  /** The checks after the split: `month` and `year` are the first two
      pieces, each of exactly two code units; `parseInt` may give `NaN`
      (`None`), and every comparison with `NaN` is false. */
  function CheckExpiry(month: string, year: Option<string>, currentYear: int, currentMonth: int): (r: Option<ExpiryError>)
    ensures r != Some(ExpiryRequired)
    ensures r == Some(ExpiryBadFormat) <==> !(JsLength(month) == 2 && TwoUnits(year))
    ensures r == Some(ExpiryBadMonth) ==>
              ParseInt(month).Some? && (ParseInt(month).value < 1 || ParseInt(month).value > 12)
    ensures r == Some(ExpiryExpired) ==> ParseInt(year.value).Some? && ParseInt(year.value).value <= currentYear
  {
    if !(JsLength(month) == 2 && TwoUnits(year)) then Some(ExpiryBadFormat)
    else
      var monthNum := ParseInt(month);
      var yearNum := ParseInt(year.value);
      if monthNum.Some? && (monthNum.value < 1 || monthNum.value > 12) then Some(ExpiryBadMonth)
      else if yearNum.Some? && (yearNum.value < currentYear
                                || (yearNum.value == currentYear && monthNum.Some? && monthNum.value < currentMonth))
      then Some(ExpiryExpired)
      else None
  }

  /** `validateExpiry` with the clock passed in: `fullYear` is
      `getFullYear()` and `monthIndex` is `getMonth()` (0 for January);
      the current year is compared by its last two digits. */
  function ValidateExpiry(expiry: string, fullYear: int, monthIndex: int): (r: Option<ExpiryError>)
    ensures r == Some(ExpiryRequired) <==> |expiry| == 0
    ensures |expiry| > 0 ==>
              (r == Some(ExpiryBadFormat) <==>
                 !(JsLength(Split(expiry, '/')[0]) == 2 && TwoUnits(Piece(Split(expiry, '/'), 1))))
  {
    if |expiry| == 0 then Some(ExpiryRequired)
    else
      var parts := Split(expiry, '/');
      CheckExpiry(parts[0], Piece(parts, 1), fullYear % 100, monthIndex + 1)
  }

  /** Two separator-free pieces joined by one separator split back into them. */
  lemma SplitJoin2(a: string, b: string, sep: char)
    requires sep !in a && sep !in b
    ensures Split(a + [sep] + b, sep) == [a, b]
  {
    SplitHead(a, sep, b);
  }

  /** Non-numeric pieces read as `NaN` and slip through every comparison:
      on its own the validator accepts two letters, a slash and two letters,
      such as "ab/cd". The form never hands it such a value, because the
      field is reformatted to digits on every keystroke (see
      `FormattedExpiryAcceptedIff`). */
  lemma NonNumericExpiryPasses(mm: string, yy: string, fullYear: int, monthIndex: int)
    requires |mm| == 2 && |yy| == 2
    requires IsAsciiLower(mm[0]) && IsAsciiLower(mm[1]) && IsAsciiLower(yy[0]) && IsAsciiLower(yy[1])
    ensures ValidateExpiry(mm + "/" + yy, fullYear, monthIndex) == None
  {
    assert '/' !in mm && '/' !in yy;
    ExpiryPieces(mm, yy, fullYear, monthIndex);
    LetterIsNaN(mm);
    LetterIsNaN(yy);
    LowerPairLength(mm);
    LowerPairLength(yy);
    NaNPasses(mm, yy, fullYear % 100, monthIndex + 1);
  }

  /** A month of one character above U+FFFF is two code units long, so it
      passes the format check, reads as `NaN` and slips through the rest. */
  lemma AstralMonthPasses(c: char, yy: string, fullYear: int, monthIndex: int)
    requires Astral(c)
    requires |yy| == 2 && IsAsciiLower(yy[0]) && IsAsciiLower(yy[1])
    ensures ValidateExpiry([c] + "/" + yy, fullYear, monthIndex) == None
  {
    assert '/' !in [c] && '/' !in yy;
    ExpiryPieces([c], yy, fullYear, monthIndex);
    AstralIsNaN(c);
    LetterIsNaN(yy);
    LowerPairLength(yy);
    NaNPasses([c], yy, fullYear % 100, monthIndex + 1);
  }

  /** Two small letters are two code units. */
  lemma LowerPairLength(s: string)
    requires |s| == 2 && IsAsciiLower(s[0]) && IsAsciiLower(s[1])
    ensures JsLength(s) == 2
  {
    assert forall i :: 0 <= i < |s| ==> IsAsciiLower(s[i]);
  }

  /** One character above U+FFFF: two code units, and `NaN` to `parseInt`. */
  lemma AstralIsNaN(c: char)
    requires Astral(c)
    ensures JsLength([c]) == 2 && ParseInt([c]) == None
  {
    assert !IsDigit(c) && !IsSpace(c) && c != '-' && c != '+';
    AstralLength([], c);
    assert [] + [c] == [c];
  }

  /** A text with one slash is checked on the pieces around it. */
  lemma ExpiryPieces(mm: string, yy: string, fullYear: int, monthIndex: int)
    requires '/' !in mm && '/' !in yy
    ensures ValidateExpiry(mm + "/" + yy, fullYear, monthIndex) == CheckExpiry(mm, Some(yy), fullYear % 100, monthIndex + 1)
  {
    assert mm + "/" + yy == mm + ['/'] + yy;
    SplitJoin2(mm, yy, '/');
  }

  /** Two two-character pieces that both read as `NaN` pass every check. */
  lemma NaNPasses(mm: string, yy: string, currentYear: int, currentMonth: int)
    requires JsLength(mm) == 2 && JsLength(yy) == 2 && ParseInt(mm) == None && ParseInt(yy) == None
    ensures CheckExpiry(mm, Some(yy), currentYear, currentMonth) == None
  {
  }

  /** `parseInt` of a text starting with a letter is `NaN`. */
  lemma LetterIsNaN(s: string)
    requires |s| > 0 && IsAsciiLower(s[0])
    ensures ParseInt(s) == None
  {
    assert !IsDigit(s[0]) && !IsSpace(s[0]);
  }

  /** Up to two digits and no slash is a format error. */
  lemma ShortDigitsBadFormat(d: string, fullYear: int, monthIndex: int)
    requires 0 < |d| <= 2 && AllDigits(d)
    ensures ValidateExpiry(d, fullYear, monthIndex) == Some(ExpiryBadFormat)
  {
    assert '/' !in d;
    assert Split(d, '/') == [d];
  }

  /** Two digits, a slash and one or two digits: accepted exactly when the
      year has two digits, the month is 1..12 and the date is not past. */
  lemma DigitsExpiry(mm: string, yy: string, fullYear: int, monthIndex: int)
    requires |mm| == 2 && 0 < |yy| <= 2 && AllDigits(mm) && AllDigits(yy)
    ensures ValidateExpiry(mm + "/" + yy, fullYear, monthIndex) == None <==>
              && |yy| == 2
              && 1 <= DigitsValue(mm) <= 12
              && !(DigitsValue(yy) < fullYear % 100
                   || (DigitsValue(yy) == fullYear % 100 && DigitsValue(mm) < monthIndex + 1))
  {
    assert '/' !in mm && '/' !in yy;
    SplitJoin2(mm, yy, '/');
    assert ValidateExpiry(mm + "/" + yy, fullYear, monthIndex) == CheckExpiry(mm, Some(yy), fullYear % 100, monthIndex + 1);
    DigitsLength(mm);
    DigitsLength(yy);
    ParseDigits(mm);
    ParseDigits(yy);
  }

  /** The expiry field as typed is accepted exactly when four digits were
      kept, the first two form a month 1..12, and the date is not before
      the current month of the current two-digit year. */
  lemma FormattedExpiryAcceptedIff(value: string, fullYear: int, monthIndex: int)
    ensures var d := Take4(DigitsOnly(value));
            ValidateExpiry(FormatExpiry(value), fullYear, monthIndex) == None <==>
              && |d| == 4
              && 1 <= DigitsValue(d[..2]) <= 12
              && !(DigitsValue(d[2..]) < fullYear % 100
                   || (DigitsValue(d[2..]) == fullYear % 100 && DigitsValue(d[..2]) < monthIndex + 1))
  {
    var d := Take4(DigitsOnly(value));
    assert AllDigits(d);
    if |d| == 0 {
    } else if |d| <= 2 {
      ShortDigitsBadFormat(d, fullYear, monthIndex);
    } else {
      DigitsExpiry(d[..2], d[2..], fullYear, monthIndex);
    }
  }

  // ---------------------------------------------------------------------------
  // CVV
  // ---------------------------------------------------------------------------

  /** What the CVV field keeps of a keystroke: at most four digits. */
  function CvvInput(value: string): (r: string)
    ensures AllDigits(r) && |r| <= 4 && |r| <= |DigitsOnly(value)|
    ensures r == DigitsOnly(value)[..|r|]
    ensures |r| == 4 || r == DigitsOnly(value)
  {
    Take4(DigitsOnly(value))
  }

  datatype CvvError = CvvRequired | CvvNotDigits | CvvWrongLength

  /** `validateCvv`: required, digits only, three or four of them. */
  function ValidateCvv(cvv: string): (r: Option<CvvError>)
    ensures r == None <==> 3 <= |cvv| <= 4 && AllDigits(cvv)
    ensures r == Some(CvvRequired) <==> |cvv| == 0
  {
    if |cvv| == 0 then Some(CvvRequired)
    else if !AllDigits(cvv) then Some(CvvNotDigits)
    else if |cvv| < 3 || |cvv| > 4 then Some(CvvWrongLength)
    else None
  }

  /** The CVV field as typed is accepted exactly when three or more digits
      were typed. */
  lemma TypedCvvAcceptedIff(value: string)
    ensures ValidateCvv(CvvInput(value)) == None <==> |DigitsOnly(value)| >= 3
  {
  }

  // ---------------------------------------------------------------------------
  // The whole card form
  // ---------------------------------------------------------------------------

  datatype CardData = CardData(number: string, name: string, expiry: string, cvv: string)

  /** `validateForm`: every field is checked and the form passes only when
      no validator reports anything. */
  function FormValid(card: CardData, fullYear: int, monthIndex: int): (r: bool)
    ensures r ==> |RemoveSpaces(card.number)| == 16 && AllDigits(RemoveSpaces(card.number))
    ensures r ==> |card.name| > 0 && 3 <= |card.cvv| <= 4 && AllDigits(card.cvv)
    ensures r <==> true !in FormErrors(card, fullYear, monthIndex)
  {
    var errors := FormErrors(card, fullYear, monthIndex);
    assert true in errors <==> errors[0] || errors[1] || errors[2] || errors[3];
    && ValidateCardNumber(card.number) == None
    && ValidateHolder(card.name) == None
    && ValidateExpiry(card.expiry, fullYear, monthIndex) == None
    && ValidateCvv(card.cvv) == None
  }

  /** `newErrors`: one flag per field, set when its validator reports an
      error. Every field is checked, whatever the others report. */
  function FormErrors(card: CardData, fullYear: int, monthIndex: int): (r: seq<bool>)
    ensures |r| == 4
    ensures r[0] <==> ValidateCardNumber(card.number).Some?
    ensures r[1] <==> ValidateHolder(card.name).Some?
    ensures r[2] <==> ValidateExpiry(card.expiry, fullYear, monthIndex).Some?
    ensures r[3] <==> ValidateCvv(card.cvv).Some?
  {
    [ValidateCardNumber(card.number).Some?, ValidateHolder(card.name).Some?,
     ValidateExpiry(card.expiry, fullYear, monthIndex).Some?, ValidateCvv(card.cvv).Some?]
  }

  /** A card form filled in through the input handlers, which format the
      number and the expiry and keep the first four digits of the CVV,
      passes exactly when sixteen digits or more were typed for the number,
      the holder is made of letters and whitespace, the expiry passes as
      typed, and three or more digits were typed for the CVV. */
  lemma TypedFormValidIff(number: string, holder: string, expiry: string, cvv: string, fullYear: int, monthIndex: int)
    ensures var card := CardData(FormatCardNumber(number), holder, FormatExpiry(expiry), CvvInput(cvv));
            var d := Take4(DigitsOnly(expiry));
            FormValid(card, fullYear, monthIndex) <==>
              && |CardDigits(number)| >= 16
              && |holder| > 0 && (forall i :: 0 <= i < |holder| ==> HolderChar(holder[i]))
              && |d| == 4
              && 1 <= DigitsValue(d[..2]) <= 12
              && !(DigitsValue(d[2..]) < fullYear % 100
                   || (DigitsValue(d[2..]) == fullYear % 100 && DigitsValue(d[..2]) < monthIndex + 1))
              && |DigitsOnly(cvv)| >= 3
  {
    FormattedNumberAcceptedIff(number);
    FormattedExpiryAcceptedIff(expiry, fullYear, monthIndex);
    TypedCvvAcceptedIff(cvv);
  }

  // ---------------------------------------------------------------------------
  // WhatsApp number
  // ---------------------------------------------------------------------------

  /** `[\d\s+()-]` */
  predicate PhoneChar(c: char) {
    IsDigit(c) || IsSpace(c) || c == '+' || c == '(' || c == ')' || c == '-'
  }

  datatype WhatsAppError = WhatsAppRequired | WhatsAppTooShort | WhatsAppBadChars

  /** `validateWhatsAppNumber`: required (not blank), at least ten digits,
      and nothing but digits, whitespace and `+ ( ) -`, in that order. */
  function ValidateWhatsApp(number: string): (r: Option<WhatsAppError>)
    ensures r == None <==>
              && |DigitsOnly(number)| >= 10
              && forall i :: 0 <= i < |number| ==> PhoneChar(number[i])
    ensures r == Some(WhatsAppRequired) <==> forall i :: 0 <= i < |number| ==> IsSpace(number[i])
  {
    TrimEmptyIff(number);
    if |Trim(number)| == 0 then
      BlankHasNoDigits(number);
      Some(WhatsAppRequired)
    else if |DigitsOnly(number)| < 10 then Some(WhatsAppTooShort)
    else if !(forall i :: 0 <= i < |number| ==> PhoneChar(number[i])) then Some(WhatsAppBadChars)
    else None
  }

  lemma {:induction false} BlankHasNoDigits(s: string)
    requires forall i :: 0 <= i < |s| ==> IsSpace(s[i])
    ensures DigitsOnly(s) == []
  {
    if |s| > 0 {
      assert !IsDigit(s[0]);
      BlankHasNoDigits(s[1..]);
    }
  }

  /** `formatWhatsAppForBackend`: the digits only; a ten-digit local number
      not starting with 1 gets `521` in front, a twelve-digit `52` number
      without the mobile `1` gets it inserted, anything else is sent as is. */
  function FormatWhatsApp(number: string): (r: string)
    ensures AllDigits(r)
    ensures var c := DigitsOnly(number);
            && (|c| == 10 && c[0] != '1' ==> r == "521" + c)
            && (|c| == 12 && c[..2] == "52" && c[2] != '1' ==> r == "521" + c[2..])
            && (!(|c| == 10 && c[0] != '1') && !(|c| == 12 && c[..2] == "52" && c[2] != '1') ==> r == c)
  {
    var c := DigitsOnly(number);
    if |c| == 10 && !StartsWith(c, "1") then "521" + c
    else if StartsWith(c, "52") && |c| == 12 && !StartsWith(c, "521") then
      assert c[..3] == c[..2] + [c[2]];
      "521" + c[2..]
    else
      assert |c| == 12 && StartsWith(c, "52") ==> c[..3] == c[..2] + [c[2]];
      c
  }

  /** Normalising a normalised number changes nothing. */
  lemma FormatWhatsAppIdempotent(number: string)
    ensures FormatWhatsApp(FormatWhatsApp(number)) == FormatWhatsApp(number)
  {
    var r := FormatWhatsApp(number);
    assert DigitsOnly(r) == r;
  }

  /** Every rewritten number is thirteen digits starting with `521` and ends
      with the ten digits of the local number. */
  lemma RewrittenNumberShape(number: string)
    requires FormatWhatsApp(number) != DigitsOnly(number)
    ensures var r := FormatWhatsApp(number);
            |r| == 13 && r[..3] == "521" && r[3..] == DigitsOnly(number)[|DigitsOnly(number)| - 10..]
  {
  }

  /** A ten-digit local number typed as digits, not starting with 1, gets
      the `521` prefix; typed with the country code `52` in front, it gets
      the same. */
  lemma LocalDigitsTyped(local: string)
    requires AllDigits(local) && |local| == 10 && local[0] != '1'
    ensures FormatWhatsApp(local) == "521" + local
    ensures FormatWhatsApp("52" + local) == "521" + local
  {
    assert DigitsOnly(local) == local;
    var c := "52" + local;
    assert AllDigits(c);
    assert DigitsOnly(c) == c;
    assert c[..2] == "52" && c[2] == local[0] && c[2..] == local;
  }

  /** The page's own example: the local number `3325906198` is sent as
      `5213325906198`. */
  lemma LocalNumberExample(number: string)
    requires number == "3325906198"
    ensures FormatWhatsApp(number) == "5213325906198"
  {
    assert AllDigits(number) && |number| == 10 && number[0] != '1';
    LocalDigitsTyped(number);
  }
}

=== FILE: picker.dfy ===
/** The seat picker shared by the theater, cinema and legacy theater pages.
    A pick is stored as the string `"section-row-col"` (0-based). A new
    pick is allowed only while the picks counted for the section are below
    the section's ticket count, and confirming needs the two to be equal for
    every section the purchase opened. The pages count a section's picks as
    the picks whose id STARTS WITH the section key. */
module Picker {
  import opened Wrappers
  import opened JsStrings
  import opened Cart
  import opened Seats

  datatype ToggleError =
    | SectionUnavailable      // "Sección no disponible"
    | SeatOccupied            // "Este asiento ya está ocupado"
    | SectionFull(allowed: int) // "Solo puedes seleccionar N asiento(s)"

  /** `showSeatModal`, `selectedSeats` and `selectedSections`. */
  datatype PickerState = PickerState(open: bool, picks: seq<string>, sections: set<string>)

  /** What confirming hands to the summary page: the picks, the ticket types
      with a positive quantity and the total. */
  datatype Handoff = Handoff(selectedSeats: seq<string>, ticketTypes: Cart, total: int)

  datatype ConfirmOutcome =
    | Confirmed(handoff: Handoff, next: PickerState)
    | Refused(deficient: set<string>, next: PickerState)

  const Closed := PickerState(false, [], {})

  /** `${section}-${row}-${col}` */
  function SeatId(section: string, row: nat, col: nat): (r: string)
    ensures StartsWith(r, section + "-")
    ensures forall i :: |section| < i < |r| ==> r[i] == '-' || IsDigit(r[i])
  {
    var r := section + "-" + NatToString(row) + "-" + NatToString(col);
    assert r == (section + "-") + (NatToString(row) + "-" + NatToString(col));
    r
  }

  predicate NoDup(picks: seq<string>) {
    forall i, j :: 0 <= i < j < |picks| ==> picks[i] != picks[j]
  }

  /** How a pick is attributed to a section. The pages count every pick
      whose id starts with the section key (`ByPrefix`); `BySection` counts
      only the ids that start with the key followed by the `-` separator,
      which is the count the capacity rule needs (see `PrefixCountBlocksConfirm`). */
  datatype CountRule = ByPrefix | BySection

  predicate Counts(rule: CountRule, id: string, section: string) {
    match rule
    case ByPrefix => StartsWith(id, section)
    case BySection => StartsWith(id, section + "-")
  }

  /** `selectedSeats.filter(seat => seat.startsWith(section)).length` under
      `ByPrefix`. */
  function Count(rule: CountRule, picks: seq<string>, section: string): (r: nat)
    ensures r <= |picks|
    ensures r == 0 <==> forall i :: 0 <= i < |picks| ==> !Counts(rule, picks[i], section)
  {
    if |picks| == 0 then 0
    else
      var init := picks[..|picks| - 1];
      assert forall i :: 0 <= i < |init| ==> init[i] == picks[i];
      Count(rule, init, section) + (if Counts(rule, picks[|picks| - 1], section) then 1 else 0)
  }

  /** `prev.filter(id => id !== seatId)` */
  function Remove(picks: seq<string>, id: string): (r: seq<string>)
    ensures id !in r
    ensures forall x :: x in r <==> x in picks && x != id
  {
    if |picks| == 0 then []
    else
      var init := Remove(picks[..|picks| - 1], id);
      var last := picks[|picks| - 1];
      assert forall x :: x in picks <==> x in picks[..|picks| - 1] || x == last;
      if last == id then init else init + [last]
  }

  lemma {:induction false} CountAppend(rule: CountRule, picks: seq<string>, x: string, section: string)
    ensures Count(rule, picks + [x], section)
         == Count(rule, picks, section) + (if Counts(rule, x, section) then 1 else 0)
  {
    assert (picks + [x])[..|picks|] == picks;
  }

  lemma {:induction false} CountAtMostLength(rule: CountRule, picks: seq<string>, section: string)
    ensures Count(rule, picks, section) <= |picks|
  {
    if |picks| > 0 {
      CountAtMostLength(rule, picks[..|picks| - 1], section);
    }
  }

  /** Removing a picked id that occurs once lowers the count of every
      section it is counted for by exactly one, and leaves the others. */
  lemma {:induction false} CountRemove(rule: CountRule, picks: seq<string>, id: string, section: string)
    requires NoDup(picks) && id in picks
    ensures Count(rule, Remove(picks, id), section)
         == Count(rule, picks, section) - (if Counts(rule, id, section) then 1 else 0)
  {
    var n := |picks| - 1;
    var init := picks[..n];
    var last := picks[n];
    if last == id {
      assert id !in init;
      RemoveAbsent(init, id);
    } else {
      assert id in init;
      CountRemove(rule, init, id, section);
      CountAppend(rule, Remove(init, id), last, section);
    }
  }

  /** Removing an id that is not there changes nothing. */
  lemma {:induction false} RemoveAbsent(picks: seq<string>, id: string)
    requires id !in picks
    ensures Remove(picks, id) == picks
  {
    if |picks| > 0 {
      var n := |picks| - 1;
      assert picks[n] in picks;
      assert forall x :: x in picks[..n] ==> x in picks;
      RemoveAbsent(picks[..n], id);
      assert picks[..n] + [picks[n]] == picks;
    }
  }

  lemma {:induction false} RemoveKeepsNoDup(picks: seq<string>, id: string)
    requires NoDup(picks)
    ensures NoDup(Remove(picks, id))
  {
    if |picks| > 0 {
      var n := |picks| - 1;
      var init := picks[..n];
      assert NoDup(init);
      RemoveKeepsNoDup(init, id);
      var last := picks[n];
      if last != id {
        var r := Remove(init, id);
        assert last !in init;
        assert last !in r;
        assert NoDup(r + [last]);
      }
    }
  }

  // ---------------------------------------------------------------------------
  // Toggle
  // ---------------------------------------------------------------------------

  /** `handleSeatSelection(section, row, col)`: refused when the section is
      not in the seat map, then when the seat is occupied, then when the seat
      is not picked yet and the section's picks already reach its ticket
      count; otherwise an unpicked seat is appended and a picked one removed. */
  function Toggle(rule: CountRule, seats: SeatMap, cart: Cart, picks: seq<string>, section: string, row: nat, col: nat)
    : (r: Result<seq<string>, ToggleError>)
    ensures section !in seats ==> r == Err(SectionUnavailable)
    ensures section in seats && IsOccupied(seats[section], row, col) ==> r == Err(SeatOccupied)
    ensures r.Ok? <==> section in seats && !IsOccupied(seats[section], row, col)
                       && (SeatId(section, row, col) in picks || Count(rule, picks, section) < TicketsBySection(cart, section))
    ensures r.Ok? && SeatId(section, row, col) in picks ==> r.value == Remove(picks, SeatId(section, row, col))
    ensures r.Ok? && SeatId(section, row, col) !in picks ==>
              r.value == picks + [SeatId(section, row, col)]
              && Count(rule, picks, section) < TicketsBySection(cart, section)
    ensures r.Err? && r.error.SectionFull? ==>
              SeatId(section, row, col) !in picks
              && r.error.allowed == TicketsBySection(cart, section) <= Count(rule, picks, section)
  {
    if section !in seats then Err(SectionUnavailable)
    else if IsOccupied(seats[section], row, col) then Err(SeatOccupied)
    else
      var id := SeatId(section, row, col);
      var tickets := TicketsBySection(cart, section);
      if Count(rule, picks, section) >= tickets && id !in picks then Err(SectionFull(tickets))
      else if id in picks then Ok(Remove(picks, id))
      else Ok(picks + [id])
  }

  /** Below the section's ticket count, a free seat of an available section
      is appended. */
  lemma PickAllowed(rule: CountRule, seats: SeatMap, cart: Cart, picks: seq<string>, section: string, row: nat, col: nat)
    requires section in seats && !IsOccupied(seats[section], row, col)
    requires SeatId(section, row, col) !in picks
    requires Count(rule, picks, section) < TicketsBySection(cart, section)
    ensures Toggle(rule, seats, cart, picks, section, row, col) == Ok(picks + [SeatId(section, row, col)])
  {
  }

  /** Picking a free seat and then toggling it again restores the picks. */
  lemma ToggleTwiceRestores(rule: CountRule, seats: SeatMap, cart: Cart, picks: seq<string>, section: string, row: nat, col: nat)
    requires SeatId(section, row, col) !in picks
    requires Toggle(rule, seats, cart, picks, section, row, col).Ok?
    ensures var once := Toggle(rule, seats, cart, picks, section, row, col).value;
            Toggle(rule, seats, cart, once, section, row, col) == Ok(picks)
  {
    var id := SeatId(section, row, col);
    var once := picks + [id];
    assert once[..|picks|] == picks;
    RemoveAbsent(picks, id);
  }

  /** A seat id starts with its own section key. */
  lemma SeatIdStartsWithSection(section: string, row: nat, col: nat)
    ensures StartsWith(SeatId(section, row, col), section)
  {
    assert SeatId(section, row, col)[..|section|] == section;
  }

  /** Un-picking a picked seat of an available, free seat always succeeds. */
  lemma RemovalAlwaysAllowed(rule: CountRule, seats: SeatMap, cart: Cart, picks: seq<string>, section: string, row: nat, col: nat)
    requires section in seats && !IsOccupied(seats[section], row, col)
    requires SeatId(section, row, col) in picks
    ensures Toggle(rule, seats, cart, picks, section, row, col) == Ok(Remove(picks, SeatId(section, row, col)))
  {
  }

  /** A section with no tickets accepts no new pick. */
  lemma ZeroTicketsAcceptNothing(rule: CountRule, seats: SeatMap, cart: Cart, picks: seq<string>, section: string, row: nat, col: nat)
    requires TicketsBySection(cart, section) == 0
    requires SeatId(section, row, col) !in picks
    ensures Toggle(rule, seats, cart, picks, section, row, col).Err?
  {
  }

  /** The occupied check comes before the capacity check: an occupied seat
      is reported as occupied even in a full section. */
  lemma OccupiedBeforeCapacity(rule: CountRule, seats: SeatMap, cart: Cart, picks: seq<string>, section: string, row: nat, col: nat)
    requires section in seats && IsOccupied(seats[section], row, col)
    requires Count(rule, picks, section) >= TicketsBySection(cart, section)
    ensures Toggle(rule, seats, cart, picks, section, row, col) == Err(SeatOccupied)
  {
  }

  // ---------------------------------------------------------------------------
  // The capacity invariant
  // ---------------------------------------------------------------------------

  /** No section key is a proper prefix of another, so a seat id starts with
      no key but its own section's. */
  predicate PrefixFree(keys: set<string>) {
    forall a, b :: a in keys && b in keys && a != b ==> !StartsWith(b, a)
  }

  /** Picks within capacity: no duplicate ids, and every section of the map
      counts at most as many picks as it has tickets. */
  predicate WithinCapacity(rule: CountRule, seats: SeatMap, cart: Cart, picks: seq<string>) {
    && NoDup(picks)
    && forall t :: t in seats ==> Count(rule, picks, t) <= TicketsBySection(cart, t)
  }

  /** A seat id of section `s` does not start with a different key `t` that
      is neither a prefix of `s` nor has `s` as a prefix. */
  lemma OtherSectionNotCounted(s: string, t: string, row: nat, col: nat)
    requires s != t && !StartsWith(s, t) && !StartsWith(t, s)
    ensures !StartsWith(SeatId(s, row, col), t)
  {
    var id := SeatId(s, row, col);
    assert id[..|s|] == s;
    assert |id| > |s| && id[|s|] == '-';
    if |t| <= |s| {
      assert id[..|t|] == s[..|t|];
    } else if |t| <= |id| {
      assert id[..|t|][..|s|] == s;
    }
  }

  /** No section key contains the `-` separator. */
  predicate DashFree(keys: set<string>) {
    forall k :: k in keys ==> '-' !in k
  }

  /** A seat id of section `s` is not counted for a different dash-free key
      `t` under the `BySection` rule. */
  lemma OtherSectionNotCountedBySection(s: string, t: string, row: nat, col: nat)
    requires s != t && '-' !in s && '-' !in t
    ensures !Counts(BySection, SeatId(s, row, col), t)
  {
    var id := SeatId(s, row, col);
    var tk := t + "-";
    assert id[..|s|] == s;
    assert |id| > |s| && id[|s|] == '-';
    if |t| < |s| {
      assert s[|t|] in s;
      assert id[|t|] == s[|t|] != '-' == tk[|t|];
    } else if |t| == |s| {
      assert id[..|t|] == s != t;
    } else if |tk| <= |id| {
      assert t[|s|] in t;
      assert tk[|s|] == t[|s|] != '-' == id[|s|];
    }
  }

  /** The keys a rule can tell apart: prefix-free keys for `ByPrefix`,
      dash-free keys for `BySection`. */
  predicate Separable(rule: CountRule, keys: set<string>) {
    match rule
    case ByPrefix => PrefixFree(keys)
    case BySection => DashFree(keys)
  }

  /** On a seat map whose keys the rule can tell apart, a successful toggle
      keeps the picks within capacity for every section, with the ticket
      counts fixed. */
  lemma ToggleKeepsCapacity(rule: CountRule, seats: SeatMap, cart: Cart, picks: seq<string>, section: string, row: nat, col: nat)
    requires Separable(rule, seats.Keys)
    requires WithinCapacity(rule, seats, cart, picks)
    ensures var r := Toggle(rule, seats, cart, picks, section, row, col);
            r.Ok? ==> WithinCapacity(rule, seats, cart, r.value)
  {
    var r := Toggle(rule, seats, cart, picks, section, row, col);
    var id := SeatId(section, row, col);
    if r.Ok? {
      if id in picks {
        RemoveKeepsNoDup(picks, id);
        forall t | t in seats ensures Count(rule, r.value, t) <= TicketsBySection(cart, t) {
          CountRemove(rule, picks, id, t);
        }
      } else {
        assert NoDup(picks + [id]);
        forall t | t in seats ensures Count(rule, r.value, t) <= TicketsBySection(cart, t) {
          CountAppend(rule, picks, id, t);
          if t != section {
            if rule.ByPrefix? {
              OtherSectionNotCounted(section, t, row, col);
            } else {
              OtherSectionNotCountedBySection(section, t, row, col);
            }
          }
        }
      }
    }
  }

  // ---------------------------------------------------------------------------
  // Opening, confirming and cancelling
  // ---------------------------------------------------------------------------

  /** `handlePurchase` of the seat pages: refused with the picker closed when
      no type has a positive quantity; otherwise the picker opens for exactly
      the sections of those types. */
  function Open(cart: Cart, state: PickerState): (r: Result<PickerState, PurchaseError>)
    ensures r.Err? <==> forall i :: 0 <= i < |cart| ==> cart[i].quantity <= 0
    ensures r.Ok? ==> r.value.open && r.value.picks == state.picks
    ensures r.Ok? ==> forall s :: s in r.value.sections <==>
              exists i :: 0 <= i < |cart| && cart[i].quantity > 0 && cart[i].section == s
  {
    match OpenPicker(cart)
    case Err(e) => Err(e)
    case Ok(sections) => Ok(state.(open := true, sections := sections))
  }

  /** The opened sections whose pick count differs from their ticket count. */
  function Deficient(rule: CountRule, cart: Cart, state: PickerState): set<string> {
    set s | s in state.sections && Count(rule, state.picks, s) != TicketsBySection(cart, s)
  }

  /** `confirmSeatSelection`: succeeds exactly when every opened section has
      as many picks as tickets; then it hands over the picks, the types with
      a positive quantity and the total, and closes and clears the picker.
      Otherwise it names the deficient sections and changes nothing. */
  function Confirm(rule: CountRule, cart: Cart, state: PickerState): (r: ConfirmOutcome)
    requires NonNegative(cart)
    ensures r.Confirmed? <==>
              forall s :: s in state.sections ==> Count(rule, state.picks, s) == TicketsBySection(cart, s)
    ensures r.Confirmed? ==> r.next == Closed && r.handoff.selectedSeats == state.picks
    ensures r.Confirmed? ==> r.handoff.total == Total(cart)
                             && TicketCount(r.handoff.ticketTypes) == TicketCount(cart)
                             && Total(r.handoff.ticketTypes) == Total(cart)
                             && forall i :: 0 <= i < |r.handoff.ticketTypes| ==> r.handoff.ticketTypes[i].quantity > 0
    ensures r.Confirmed? ==> forall t :: t in r.handoff.ticketTypes <==> t in cart && t.quantity > 0
    ensures r.Refused? ==> r.next == state && r.deficient != {}
    ensures r.Refused? ==> forall s :: s in r.deficient ==>
              s in state.sections && Count(rule, state.picks, s) != TicketsBySection(cart, s)
  {
    var deficient := Deficient(rule, cart, state);
    if deficient != {} then Refused(deficient, state)
    else
      assert forall s :: s in state.sections ==> s !in deficient;
      SelectedKeepsTotals(cart);
      SelectedExactly(cart);
      Confirmed(Handoff(state.picks, Selected(cart), Total(cart)), Closed)
  }

  /** The close button and "Cancelar": the picker closes and every pick and
      opened section is discarded. */
  function Cancel(state: PickerState): (r: PickerState)
    ensures !r.open && r.picks == [] && r.sections == {}
  {
    Closed
  }

  // ---------------------------------------------------------------------------
  // Keys that share a prefix
  // ---------------------------------------------------------------------------

  /** Two sections `vip` and `vipplus` with one ticket each. */
  function VipSeats(): SeatMap {
    map["vip" := Section("VIP", 200, 1, 2, []), "vipplus" := Section("VIP Plus", 250, 1, 2, [])]
  }

  function VipCart(): Cart {
    [TicketType(1, "VIP", 200, 1, "vip"), TicketType(2, "VIP Plus", 250, 1, "vipplus")]
  }

  lemma ZeroSeatIds()
    ensures SeatId("vip", 0, 0) == "vip-0-0" && SeatId("vipplus", 0, 0) == "vipplus-0-0"
  {
    assert NatToString(0) == "0";
    assert "vip" + "-" + "0" + "-" + "0" == "vip-0-0";
    assert "vipplus" + "-" + "0" + "-" + "0" == "vipplus-0-0";
  }

  /** As written, a pick in `vipplus` is also counted for `vip`: after one
      `vipplus` seat the `vip` seat is refused, and confirm already succeeds
      with one seat for two tickets. */
  lemma PrefixCountBlocksConfirm()
    ensures Toggle(ByPrefix, VipSeats(), VipCart(), [], "vipplus", 0, 0) == Ok(["vipplus-0-0"])
    ensures Toggle(ByPrefix, VipSeats(), VipCart(), ["vipplus-0-0"], "vip", 0, 0) == Err(SectionFull(1))
    ensures Confirm(ByPrefix, VipCart(), PickerState(true, ["vipplus-0-0"], {"vip", "vipplus"})).Confirmed?
  {
    ZeroSeatIds();
    var one := ["vipplus-0-0"];
    assert one[..0] == [];
    assert Counts(ByPrefix, "vipplus-0-0", "vip");
    assert Count(ByPrefix, one, "vip") == 1;
    assert Count(ByPrefix, one, "vipplus") == 1;
    VipTickets();
    assert Deficient(ByPrefix, VipCart(), PickerState(true, one, {"vip", "vipplus"})) == {};
    var e: seq<string> := [];
    PickAllowed(ByPrefix, VipSeats(), VipCart(), e, "vipplus", 0, 0);
    assert e + [SeatId("vipplus", 0, 0)] == one;
  }

  lemma VipTickets()
    ensures TicketsBySection(VipCart(), "vip") == 1 && TicketsBySection(VipCart(), "vipplus") == 1
  {
    assert VipCart()[..1] == [VipCart()[0]];
    assert [VipCart()[0]][..0] == [];
  }

  /** Counted by section, the same picks are refused at confirm, the `vip`
      seat is accepted, and the two picks then confirm. */
  lemma SectionCountConfirmsExactly()
    ensures Toggle(BySection, VipSeats(), VipCart(), [], "vipplus", 0, 0) == Ok(["vipplus-0-0"])
    ensures Confirm(BySection, VipCart(), PickerState(true, ["vipplus-0-0"], {"vip", "vipplus"})).Refused?
    ensures Toggle(BySection, VipSeats(), VipCart(), ["vipplus-0-0"], "vip", 0, 0) == Ok(["vipplus-0-0", "vip-0-0"])
    ensures Confirm(BySection, VipCart(), PickerState(true, ["vipplus-0-0", "vip-0-0"], {"vip", "vipplus"})).Confirmed?
  {
    ZeroSeatIds();
    var one := ["vipplus-0-0"];
    var two := ["vipplus-0-0", "vip-0-0"];
    assert one[..0] == [];
    assert two[..1] == one;
    assert !Counts(BySection, "vipplus-0-0", "vip") by {
      assert "vipplus-0-0"[3] != '-';
    }
    assert !Counts(BySection, "vip-0-0", "vipplus");
    assert Count(BySection, one, "vip") == 0;
    assert Count(BySection, two, "vip") == 1;
    assert Count(BySection, two, "vipplus") == 1;
    VipTickets();
    assert "vip" in Deficient(BySection, VipCart(), PickerState(true, one, {"vip", "vipplus"}));
    assert Deficient(BySection, VipCart(), PickerState(true, two, {"vip", "vipplus"})) == {};
    var e: seq<string> := [];
    PickAllowed(BySection, VipSeats(), VipCart(), e, "vipplus", 0, 0);
    assert e + [SeatId("vipplus", 0, 0)] == one;
    PickAllowed(BySection, VipSeats(), VipCart(), one, "vip", 0, 0);
    assert one + [SeatId("vip", 0, 0)] == two;
  }

  /** Two keys that differ at a position both reach are not prefixes of each other. */
  lemma DiffersAt(a: string, b: string, i: nat)
    requires i < |a| && i < |b| && a[i] != b[i]
    ensures !StartsWith(a, b) && !StartsWith(b, a)
  {
    if |b| <= |a| {
      assert a[..|b|][i] == a[i];
    }
    if |a| <= |b| {
      assert b[..|a|][i] == b[i];
    }
  }

  /** The theater table can be told apart by either rule, so both keep the
      capacity invariant on it. */
  lemma TheaterTableSeparable()
    ensures Separable(ByPrefix, TheaterTable().Keys) && Separable(BySection, TheaterTable().Keys)
  {
    DiffersAt("general", "platea", 0);
    DiffersAt("general", "palco", 0);
    DiffersAt("general", "balcon", 0);
    DiffersAt("platea", "palco", 1);
    DiffersAt("platea", "balcon", 0);
    DiffersAt("palco", "balcon", 0);
  }
}

=== FILE: seats.dfy ===
/** Seat maps: `section key -> {name, price, rows, cols, occupied}`. The
    backend numbers rows and columns from 1; the pages hold them from 0, and
    shift every occupied coordinate by one on the way in. */
module Seats {
  import opened Wrappers

  /** A seat coordinate `[row, col]`. */
  datatype Coord = Coord(row: int, col: int)

  /** One section of a seat map. `occupied` is 0-based. */
  datatype Section = Section(name: string, price: int, rows: int, cols: int, occupied: seq<Coord>)

  type SeatMap = map<string, Section>

  /** What the seat modal shows once loading ends. When `seatsError` is set
      the error box replaces the layout, so no seat can be picked, although
      a fallback map has been stored; otherwise the layout is drawn from the
      stored map. */
  datatype SeatView = ErrorBox | Layout(seats: SeatMap)

  /** `showSeatModal && eventData?.id`: the seats are fetched only for an
      event with a truthy id. Otherwise the map stays `{}`. */
  predicate Fetches(eventId: Option<int>) {
    eventId.Some? && eventId.value != 0
  }

  /** `occupied.some(([r, c]) => r === row && c === col)` */
  predicate IsOccupied(section: Section, row: int, col: int) {
    Coord(row, col) in section.occupied
  }

  /** `[row - 1, col - 1]`: from the backend's 1-based numbering to the page's. */
  function FromWire(c: Coord): Coord {
    Coord(c.row - 1, c.col - 1)
  }

  /** `parseInt(row) + 1`, `parseInt(col) + 1`: back to the backend's numbering. */
  function ToWire(c: Coord): Coord {
    Coord(c.row + 1, c.col + 1)
  }

  /** Shifting in and shifting back out returns the backend's coordinates. */
  lemma WireRoundTrip(c: Coord)
    ensures ToWire(FromWire(c)) == c
    ensures FromWire(ToWire(c)) == c
  {
  }

  /** `(occupied || []).map(([row, col]) => [row - 1, col - 1])` */
  function OccupiedFromWire(wire: seq<Coord>): (r: seq<Coord>)
    ensures |r| == |wire|
    ensures forall i :: 0 <= i < |wire| ==> r[i] == FromWire(wire[i])
  {
    if |wire| == 0 then [] else [FromWire(wire[0])] + OccupiedFromWire(wire[1..])
  }

  /** A seat is shown occupied exactly when the backend listed it, one row
      and one column further on. */
  lemma OccupiedFromWireIff(wire: seq<Coord>, row: int, col: int)
    ensures Coord(row, col) in OccupiedFromWire(wire) <==> Coord(row + 1, col + 1) in wire
  {
    var r := OccupiedFromWire(wire);
    if Coord(row, col) in r {
      var i :| 0 <= i < |r| && r[i] == Coord(row, col);
      assert wire[i] == ToWire(r[i]);
    }
    if Coord(row + 1, col + 1) in wire {
      var i :| 0 <= i < |wire| && wire[i] == Coord(row + 1, col + 1);
      assert r[i] == Coord(row, col);
    }
  }

  /** Every occupied seat lies inside the section's grid. */
  predicate WellFormed(section: Section) {
    forall i :: 0 <= i < |section.occupied| ==>
      0 <= section.occupied[i].row < section.rows && 0 <= section.occupied[i].col < section.cols
  }

  // ---------------------------------------------------------------------------
  // The theater table: the fallback map of the theater page and the fixed
  // map of the legacy theater page hold the same four sections.
  // ---------------------------------------------------------------------------

  function GeneralSection(): Section {
    Section("General", 1500, 5, 20, [
      Coord(0, 3), Coord(0, 6), Coord(0, 15), Coord(0, 16), Coord(1, 5), Coord(1, 4), Coord(1, 17), Coord(2, 8),
      Coord(2, 1), Coord(2, 18), Coord(3, 2), Coord(3, 7), Coord(3, 19), Coord(4, 6), Coord(4, 3), Coord(4, 14)])
  }

  function PlateaSection(): Section {
    Section("Platea", 3000, 5, 4, [
      Coord(0, 2), Coord(0, 3), Coord(1, 0), Coord(1, 1), Coord(2, 2), Coord(3, 3), Coord(4, 0), Coord(4, 1)])
  }

  function PalcoSection(): Section {
    Section("Palco", 2800, 3, 4, [
      Coord(0, 1), Coord(0, 2), Coord(1, 0), Coord(1, 3), Coord(2, 1), Coord(2, 2)])
  }

  function BalconSection(): Section {
    Section("Balcon", 2500, 5, 6, [
      Coord(0, 2), Coord(0, 3), Coord(1, 1), Coord(1, 4), Coord(2, 0), Coord(2, 5), Coord(3, 2), Coord(3, 3), Coord(4, 1), Coord(4, 4)])
  }

  /** `sectionSeatsMock` of the theater page, `sectionSeats` of the legacy one. */
  function TheaterTable(): (m: SeatMap)
    ensures m.Keys == {"general", "platea", "palco", "balcon"}
  {
    map["general" := GeneralSection(), "platea" := PlateaSection(),
        "palco" := PalcoSection(), "balcon" := BalconSection()]
  }

  /** Every occupied seat of the theater table lies inside its grid. */
  lemma TheaterTableWellFormed()
    ensures forall k :: k in TheaterTable() ==> WellFormed(TheaterTable()[k])
  {
    GeneralWellFormed();
    PlateaWellFormed();
    PalcoWellFormed();
    BalconWellFormed();
  }

  lemma GeneralWellFormed() ensures WellFormed(GeneralSection()) {}
  lemma PlateaWellFormed() ensures WellFormed(PlateaSection()) {}
  lemma PalcoWellFormed() ensures WellFormed(PalcoSection()) {}
  lemma BalconWellFormed() ensures WellFormed(BalconSection()) {}

  // ---------------------------------------------------------------------------
  // The cinema rooms: `cinemaSeatsMock`, nine rooms with no occupied seat.
  // ---------------------------------------------------------------------------

  function CinemaRooms(): (m: SeatMap)
    ensures m.Keys == {"tradicional", "plus", "vip", "macroxe", "junior", "4dx", "imax", "vr", "screenx"}
    ensures forall k :: k in m ==> m[k].occupied == []
  {
    map[
      "tradicional" := Section("Tradicional", 100, 10, 6, []),
      "plus" := Section("Plus", 130, 10, 8, []),
      "vip" := Section("VIP", 200, 6, 5, []),
      "macroxe" := Section("MACRO XE", 150, 10, 10, []),
      "junior" := Section("Junior", 90, 6, 8, []),
      "4dx" := Section("4DX", 180, 8, 10, []),
      "imax" := Section("IMAX", 160, 10, 10, []),
      "vr" := Section("VR", 250, 4, 6, []),
      "screenx" := Section("Screen X", 180, 9, 16, [])
    ]
  }
}

=== FILE: summary.dfy ===
/** The purchase summary page: the seat labels, the event title and the
    visit date shown after a purchase. */
module Summary {
  import opened Wrappers
  import opened JsStrings
  import opened Picker
  import opened Checkout

  /** `sectionNames` of the summary page. */
  const SummaryNames: map<string, string> :=
    map["general" := "General", "platea" := "Platea", "palco" := "Palco", "balcon" := "Balcón"]

  /** `formatSeatDisplay` of the summary page, which has no guard for the
      empty id. */
  function SummarySeatDisplay(id: string): (r: string)
    ensures var name := DisplayName(SummaryNames, Split(id, '-')[0]);
            |r| >= |name| + 2 && r[..|name|] == name && r[|name|] == ' '
    ensures id == "" ==> r[0] == ' '
  {
    SeatDisplay(SummaryNames, id)
  }

  /** A picked seat is labelled with its section's name, the row's letter
      and the 1-based column. */
  lemma SummaryLabel(section: string, row: nat, col: nat)
    requires '-' !in section && row < 26
    ensures SummarySeatDisplay(SeatId(section, row, col))
              == DisplayName(SummaryNames, section) + " " + [('A' as int + row) as char] + NatToString(col + 1)
  {
    SeatDisplayOfSeatId(SummaryNames, section, row, col);
  }

  /** A key the table does not know is shown as it is. */
  lemma UnknownSectionShownAsKey(section: string, row: nat, col: nat)
    requires '-' !in section && row < 26 && section !in SummaryNames
    ensures SummarySeatDisplay(SeatId(section, row, col))
              == section + " " + [('A' as int + row) as char] + NatToString(col + 1)
  {
    SummaryLabel(section, row, col);
  }

  /** The first seat of the platea, `platea-0-0`, reads "Platea A1". */
  lemma FirstPlateaSeat(id: string)
    requires id == SeatId("platea", 0, 0)
    ensures SummarySeatDisplay(id) == "Platea A1"
  {
    SummaryLabel("platea", 0, 0);
    PlateaLabelParts();
  }

  /** The three parts of the label of the first platea seat. */
  lemma PlateaLabelParts()
    ensures DisplayName(SummaryNames, "platea") + " " + [('A' as int + 0) as char] + NatToString(0 + 1) == "Platea A1"
  {
    assert DisplayName(SummaryNames, "platea") == "Platea";
    assert NatToString(0 + 1) == "1" by {
      assert DigitChar(1) == '1';
    }
  }

  /** Without a guard, the empty id is labelled with an empty name, the
      U+0000 of `fromCharCode(NaN)` and "NaN". */
  lemma EmptyIdLabel(id: string)
    requires id == ""
    ensures SummarySeatDisplay(id) == " " + ['\0'] + "NaN"
  {
    assert Split(id, '-') == [""];
    assert Piece([""], 1) == None && Piece([""], 2) == None;
    assert DisplayName(SummaryNames, "") == "";
  }

  /** `getEventTitle`: the first of `nombre_evento`, `title` and `lugar`
      that is present and not empty, else "Evento". */
  function EventTitle(nombreEvento: Option<string>, title: Option<string>, lugar: Option<string>): (r: string)
    ensures r != ""
    ensures nombreEvento.Some? && nombreEvento.value != "" ==> r == nombreEvento.value
    ensures r == "Evento" || r in [nombreEvento.GetOr(""), title.GetOr(""), lugar.GetOr("")]
    ensures (nombreEvento.None? || nombreEvento.value == "") && title.Some? && title.value != "" ==> r == title.value
    ensures ((nombreEvento.None? || nombreEvento.value == "") && (title.None? || title.value == "")
             && lugar.Some? && lugar.value != "") ==> r == lugar.value
  {
    if nombreEvento.Some? && nombreEvento.value != "" then nombreEvento.value
    else if title.Some? && title.value != "" then title.value
    else if lugar.Some? && lugar.value != "" then lugar.value
    else "Evento"
  }

  /** A value that `||` keeps: present and not empty. */
  predicate Usable(o: Option<string>) {
    o.Some? && o.value != ""
  }

  /** A chain `a || b || … || fallback` over optional texts: the first
      usable value, or the fallback when there is none. */
  function FirstUsable(xs: seq<Option<string>>, fallback: string): (r: string)
    ensures (forall i :: 0 <= i < |xs| ==> !Usable(xs[i])) ==> r == fallback
    ensures forall i :: 0 <= i < |xs| && Usable(xs[i]) && (forall j :: 0 <= j < i ==> !Usable(xs[j])) ==>
              r == xs[i].value
  {
    if |xs| == 0 then fallback
    else if Usable(xs[0]) then xs[0].value
    else
      var r := FirstUsable(xs[1..], fallback);
      assert forall i :: 1 <= i < |xs| ==> xs[1..][i - 1] == xs[i];
      r
  }

  /** The title is the first usable of the event name, the title and the
      place, else "Evento". */
  lemma EventTitleIsFirstUsable(nombreEvento: Option<string>, title: Option<string>, lugar: Option<string>)
    ensures EventTitle(nombreEvento, title, lugar) == FirstUsable([nombreEvento, title, lugar], "Evento")
  {
    var xs := [nombreEvento, title, lugar];
    if Usable(nombreEvento) {
    } else if Usable(title) {
      assert !Usable(xs[0]) && Usable(xs[1]);
    } else if Usable(lugar) {
      assert !Usable(xs[0]) && !Usable(xs[1]) && Usable(xs[2]);
    } else {
      assert forall i :: 0 <= i < 3 ==> !Usable(xs[i]);
    }
  }

  /** What the visit date line shows: the purchase day (museum), the event's
      start, or a text. The first two are locale-formatted dates. */
  datatype VisitDate = PurchaseDay | EventStart(raw: string) | Text(text: string)

  /** `getVisitDate`: a museum shows the day of purchase; another event
      shows `horario_inicio` when present, else `date`, else "Fecha por
      confirmar". */
  function GetVisitDate(isMuseum: bool, horarioInicio: Option<string>, date: Option<string>): (r: VisitDate)
    ensures isMuseum <==> r == PurchaseDay
    ensures !isMuseum && horarioInicio.Some? && horarioInicio.value != "" ==> r == EventStart(horarioInicio.value)
    ensures !isMuseum && (horarioInicio.None? || horarioInicio.value == "") ==>
              r.Text? && r.text != "" && (date.Some? && date.value != "" ==> r.text == date.value)
              && (date.None? || date.value == "" ==> r.text == "Fecha por confirmar")
  {
    if isMuseum then PurchaseDay
    else if horarioInicio.Some? && horarioInicio.value != "" then EventStart(horarioInicio.value)
    else if date.Some? && date.value != "" then Text(date.value)
    else Text("Fecha por confirmar")
  }

  /** Outside a museum the line shows the event's start when it is usable,
      and otherwise the first usable of the date and "Fecha por confirmar";
      inside a museum the event's fields do not matter. */
  lemma VisitDateIsFirstUsable(isMuseum: bool, horarioInicio: Option<string>, date: Option<string>)
    ensures !isMuseum && Usable(horarioInicio) ==> GetVisitDate(isMuseum, horarioInicio, date) == EventStart(horarioInicio.value)
    ensures !isMuseum && !Usable(horarioInicio) ==>
              GetVisitDate(isMuseum, horarioInicio, date) == Text(FirstUsable([date], "Fecha por confirmar"))
    ensures isMuseum ==> GetVisitDate(isMuseum, horarioInicio, date) == GetVisitDate(isMuseum, None, None)
  {
    if !isMuseum && !Usable(horarioInicio) && Usable(date) {
      assert Usable([date][0]);
    }
  }
}

=== FILE: theater.dfy ===
/** The theater page: five ticket types, a seat map fetched for the event
    with the theater table as fallback, and the shared picker counted by
    prefix. */
module Theater {
  import opened Wrappers
  import opened JsStrings
  import opened Cart
  import opened Seats
  import opened Picker

  /** The initial `ticketTypes`: all quantities start at zero. */
  function InitialTypes(): (r: Cart)
    ensures |r| == 5 && UniqueIds(r) && NonNegative(r) && AtMost(r, MaxPerType)
    ensures forall i :: 0 <= i < |r| ==> r[i].quantity == 0
  {
    [TicketType(1, "Platea", 3000, 0, "platea"),
     TicketType(2, "Palco", 2800, 0, "palco"),
     TicketType(3, "Balcón Izquierdo", 2500, 0, "balconIzquierdo"),
     TicketType(4, "Balcón Derecho", 2500, 0, "balconDerecho"),
     TicketType(5, "General", 1500, 0, "general")]
  }

  /** One section of the seat payload, numbered from 1. A missing
      `occupied` list is `None`. */
  datatype WireSection = WireSection(name: string, price: int, rows: int, cols: int, occupied: Option<seq<Coord>>)

  /** `fetchSeats`: a failed fetch (`None`, which includes a payload without
      `sectionSeats`) or an empty section map falls back to the theater
      table; otherwise every key is kept and its occupied seats are shifted
      to 0-based coordinates. */
  function SeatsFromFetch(fetched: Option<map<string, WireSection>>): (r: SeatMap)
    ensures fetched.None? || |fetched.value| == 0 ==> r == TheaterTable()
    ensures fetched.Some? && |fetched.value| > 0 ==>
              r.Keys == fetched.value.Keys
              && forall k :: k in r ==>
                   r[k].name == fetched.value[k].name && r[k].price == fetched.value[k].price
                   && r[k].rows == fetched.value[k].rows && r[k].cols == fetched.value[k].cols
                   && forall row, col :: IsOccupied(r[k], row, col) <==> Coord(row + 1, col + 1) in fetched.value[k].occupied.GetOr([])
  {
    match fetched
    case None => TheaterTable()
    case Some(m) =>
      if |m| == 0 then TheaterTable()
      else
        var r := map k | k in m :: Section(m[k].name, m[k].price, m[k].rows, m[k].cols, OccupiedFromWire(m[k].occupied.GetOr([])));
        assert forall k, row, col | k in m :: IsOccupied(r[k], row, col) <==> Coord(row + 1, col + 1) in m[k].occupied.GetOr([]) by {
          forall k, row, col | k in m ensures IsOccupied(r[k], row, col) <==> Coord(row + 1, col + 1) in m[k].occupied.GetOr([]) {
            OccupiedFromWireIff(m[k].occupied.GetOr([]), row, col);
          }
        }
        r
  }

  /** The seat modal once loading ends. Without an event id nothing is
      fetched and the map stays `{}`. A failed fetch sets `seatsError`, so
      the error box is shown instead of the theater table it stores. Any
      other fetch draws the stored map: the theater table after an empty
      payload, the fetched sections otherwise. */
  function ModalView(eventId: Option<int>, fetched: Option<map<string, WireSection>>): (v: SeatView)
    ensures !Fetches(eventId) ==> v == Layout(map[])
    ensures v.ErrorBox? <==> Fetches(eventId) && fetched.None?
    ensures Fetches(eventId) && fetched.Some? ==> v == Layout(SeatsFromFetch(fetched))
    ensures Fetches(eventId) && fetched == Some(map[]) ==> v == Layout(TheaterTable())
  {
    if !Fetches(eventId) then Layout(map[])
    else if fetched.None? then ErrorBox
    else Layout(SeatsFromFetch(fetched))
  }

  /** Without an event id the drawn map is empty, so every pick is refused
      as unavailable. */
  lemma NoEventRefusesEveryPick(eventId: Option<int>, fetched: Option<map<string, WireSection>>,
                                cart: Cart, picks: seq<string>, section: string, row: nat, col: nat)
    requires !Fetches(eventId)
    ensures ModalView(eventId, fetched).Layout?
    ensures Toggle(ByPrefix, ModalView(eventId, fetched).seats, cart, picks, section, row, col) == Err(SectionUnavailable)
  {
  }

  /** On the theater table, which is drawn after an empty payload, the two
      balcony sections of the ticket types have no seats: any pick there is
      refused as unavailable, and the table's `balcon` key has no tickets,
      so it accepts no new pick either. */
  lemma FallbackHasNoBalconySides(cart: Cart, picks: seq<string>, row: nat, col: nat)
    requires forall i :: 0 <= i < |cart| ==> cart[i].section != "balcon"
    ensures Toggle(ByPrefix, TheaterTable(), cart, picks, "balconIzquierdo", row, col) == Err(SectionUnavailable)
    ensures Toggle(ByPrefix, TheaterTable(), cart, picks, "balconDerecho", row, col) == Err(SectionUnavailable)
    ensures SeatId("balcon", row, col) !in picks ==> Toggle(ByPrefix, TheaterTable(), cart, picks, "balcon", row, col).Err?
  {
    TicketsBySectionAbsent(cart, "balcon");
  }

  /** Consequently a purchase that includes a balcony ticket can never be
      confirmed on the theater table while the picks hold no balcony seat. */
  lemma BalconyTicketBlocksConfirm(cart: Cart, state: PickerState, side: string)
    requires NonNegative(cart)
    requires side == "balconIzquierdo" || side == "balconDerecho"
    requires side in state.sections && TicketsBySection(cart, side) > 0
    requires forall i :: 0 <= i < |state.picks| ==> !StartsWith(state.picks[i], side)
    ensures Confirm(ByPrefix, cart, state).Refused?
  {
    NoPicksCounted(state.picks, side);
    assert side in Deficient(ByPrefix, cart, state);
  }

  lemma {:induction false} NoPicksCounted(picks: seq<string>, section: string)
    requires forall i :: 0 <= i < |picks| ==> !StartsWith(picks[i], section)
    ensures Count(ByPrefix, picks, section) == 0
  {
    if |picks| > 0 {
      NoPicksCounted(picks[..|picks| - 1], section);
    }
  }

  /** On the theater table, or on a fetched map whose keys are prefix-free,
      every successful toggle keeps the picks within the ticket counts. */
  lemma TheaterPickerKeepsCapacity(seats: SeatMap, cart: Cart, picks: seq<string>, section: string, row: nat, col: nat)
    requires seats == TheaterTable() || PrefixFree(seats.Keys)
    requires WithinCapacity(ByPrefix, seats, cart, picks)
    ensures var r := Toggle(ByPrefix, seats, cart, picks, section, row, col);
            r.Ok? ==> WithinCapacity(ByPrefix, seats, cart, r.value)
  {
    TheaterTableSeparable();
    ToggleKeepsCapacity(ByPrefix, seats, cart, picks, section, row, col);
  }
}

=== FILE: wrappers.dfy ===
/** Option and Result datatypes: an absent JavaScript value (`undefined`,
    `null`, `NaN`) is `None`; an operation that the pages refuse with an
    alert, or that throws, is an `Err`. */
module Wrappers {

  datatype Option<+T> = None | Some(value: T) {

    /** Returns the value in Some or a default value if None */
    function GetOr(default: T): T {
      match this
      case Some(v) => v
      case None => default
    }
  }

  datatype Result<+T, +E> = Ok(value: T) | Err(error: E) {

    /** Converts the Result to an Option */
    function ToOption(): Option<T> {
      match this
      case Ok(v) => Some(v)
      case Err(_) => None
    }
  }
}
